=== FILE: README.md ===
# SimpleML in Dafny

SimpleML is a small C++/Eigen machine-learning toolkit. Its classes are K-Means, Gaussian mixture (EM), decision tree, k-nearest neighbours and Gaussian naive Bayes. Around them sit a k-fold cross-validation driver and two CSV readers. This project models the index-level bookkeeping of those components and proves what it promises:

- which row goes to which cluster, fold, class or leaf;
- which index wins an argmin or argmax on ties;
- how centers are seeded;
- when the fixed-point and EM loops stop;
- how the mixing weights and responsibilities stay normalised;
- how CSV lines turn into feature cells and label ids.

Floating point is replaced by exact `real`. Some numeric kernels are function-typed parameters of the model:

- the multivariate normal density (`Density`);
- the logarithm used by the log-likelihood;
- the decision tree's information gain (`Gain`);
- `std::stof`.

Randomness is passed in too:

- the k-means++ first row;
- the swap targets of `std::shuffle`, as `draws`;
- through them, the permutation behind random seeding and fold splitting.

Modules, one per source file plus two shared ones:

| module | file | models |
|---|---|---|
| `Results` | results.dfy | the `Result` type used for the source's `exit(1)` and undefined-behaviour paths |
| `Algorithms` | algorithms.dfy | left-to-right sums; `std::min_element`/`std::max_element` as first-on-ties indices; grouping positions by label; label histograms; the find-then-push_back de-duplication table |
| `Common` | common.dfy | src/common.h: squared Euclidean distance, `generate_random_index` as an in-place shuffle of `iota`, the mean, scatter and covariance matrices |
| `KMeansModel` | kmeans.dfy | src/k_means.h: class `KMeans` with its `centers` array |
| `GaussianMixtureModel` | gaussian_mixture.dfy | src/gaussian_mixture.h: class `GaussianMixture` with fields `posterior`, `phi`, `mu`, `sigma` |
| `DecisionTreeModel` | decision_tree.dfy | src/decision_tree.h: questions, node splitting, class counts, the best-question scan, tree growth and descent |
| `ModelEvaluation` | model_evaluation.dfy | src/model_evaluation.h: folds, train/test selection, accuracy, the cross-validation loop |
| `KnnModel` | knn.dfy | src/k_nearest_neighbors.h: class `KNN`, the stable argsort and the neighbour vote |
| `NaiveBayesModel` | naive_bayes.dfy | headers/naive_bayes.h: class `NaiveBayes`, grouping by class, priors, per-class fit, prediction |
| `FileManage` | file_manage.dfy | headers/file_manage.h: comma fields, `count_row_col`, `is_number`, label interning and `read_csv` |
| `SizedCsv` | sized_csv.dfy | src/file_manage.h: the `read_csv` whose row and column counts the caller gives |

Each CSV reader takes a file as the sequence of its lines. A reader's result records the shape the matrices were resized to. It also keeps the cells and entries its loops wrote as maps; a cell absent from a map was never written.

## The header-line `read_csv` takes the second-to-last field as the label

In headers/file_manage.h, `read_csv` decrements the field count for the label. Its feature loop then stops at column `n_col - 1`. So the field taken as the label is field `n_col - 1`, the second-to-last field of the line. The last field is never read, and matrix column `n_col - 1` is never written. The model reproduces this behaviour exactly as written (`FileManage.Loaded`).

## Model

| member | source | states |
|---|---|---|
| Algorithms.ArgMin | src/k_means.h:93 | the index std::min_element reports: its entry is no larger than any entry, and every earlier entry is strictly larger, so the lowest index wins ties |
| Algorithms.ArgMax | src/k_nearest_neighbors.h:83-87 | the index std::max_element reports: its entry is no smaller than any entry, and every earlier entry is strictly smaller |
| Algorithms.FirstMinUnique | src/k_means.h:93 | the first-minimum rule singles out exactly one index |
| Algorithms.FirstMaxUnique | headers/naive_bayes.h:88 | the first-maximum rule singles out exactly one index |
| Algorithms.GroupsMembers | src/k_means.h:108-112 | grouping by label by appending position i to list labels[i] puts into list c exactly the positions labelled c, in strictly increasing order |
| Algorithms.GroupsPartition | src/k_means.h:108-112 | the lists built by that grouping together hold every position 0..N-1 exactly once |
| Algorithms.GroupSizesAreCounts | headers/naive_bayes.h:62-65 | the size of list c is the number of labels equal to c |
| Algorithms.GroupsTotalSize | headers/naive_bayes.h:62-65 | the list sizes add up to the number of labelled positions |
| Algorithms.Histogram | src/k_nearest_neighbors.h:74-78 | the counts built by `counts[label]++` hold, in slot c, the number of occurrences of c |
| Algorithms.HistogramTotal | src/k_nearest_neighbors.h:74-78 | the counts add up to the number of labels counted |
| Algorithms.MostFrequentOccurs | src/k_nearest_neighbors.h:83-87 | the first most frequent label of a non-empty list is one of its labels |
| Algorithms.SharesSumToOne | headers/naive_bayes.h:48-50 | counts divided by their total sum to one |
| Algorithms.MaxNat | src/k_nearest_neighbors.h:42 | `*std::max_element` bounds every entry |
| Algorithms.MaxNatAttained | src/k_nearest_neighbors.h:42 | the maximum is one of the entries |
| Algorithms.IndexOf | headers/file_manage.h:97-99 | std::find's position: the entry there is the sought text and no earlier entry is |
| Algorithms.IndexOfPrefix | headers/file_manage.h:97-103 | appending to the table never moves a text already found in it |
| Algorithms.Dedup | src/decision_tree.h:181-189 | the de-duplicated list holds exactly the elements of its input |
| Algorithms.DedupDistinctInOrder | src/decision_tree.h:181-189 | the de-duplicated list holds each element once, in order of first appearance in the input |
| Algorithms.DedupPrefix | src/file_manage.h:37-44 | reading more texts only appends to the table of distinct texts |
| Algorithms.IdStable | src/file_manage.h:37-44 | once a text has appeared, its id (position in the table) never changes |
| Common.SqDist | src/common.h:12-14 | the squared distance is never negative |
| Common.SqDistSymmetric | src/common.h:12-14 | the distance from p to q equals the distance from q to p |
| Common.SqDistZeroIffEqual | src/common.h:12-14 | for points of one length the distance is zero exactly when the points are equal |
| Common.IotaCount | src/common.h:18-19 | std::iota fills a vector of size n with each value below n exactly once and nothing else |
| Common.PermutationFacts | src/common.h:16-23 | a permutation of 0..n-1 has length n, entries below n, pairwise distinct entries, and holds every value below n |
| Common.GenerateRandomIndex | src/common.h:16-23 | filling 0..size-1 with iota and swapping in place by any valid shuffle draws yields a permutation of 0..size-1 |
| Common.Mean | src/k_means.h:118-123 | coordinate c of the mean is the sum of coordinate c over the listed rows divided by their number |
| Common.ScatterEntrySymmetric | src/common.h:28 | entry (a, b) of the scatter equals entry (b, a) |
| Common.Scatter | src/common.h:27-28 | centered-transpose times weighted centered over a divisor is a D x D symmetric matrix whose entry (a, b) is the weighted sum of products of centered coordinates over the divisor |
| Common.Covariance | src/common.h:25-29 | covariance_matrix of at least two rows is D x D and symmetric, with entry (a, b) the sum of centered products divided by rows - 1 |
| KMeansModel.Nearest | src/k_means.h:87-94 | nearest_center returns an index below the number of centers scanned |
| KMeansModel.NearestIsArgMin | src/k_means.h:87-94 | the center chosen is std::min_element's position in the list of distances to the centers |
| KMeansModel.NearestIsClosest | src/k_means.h:87-94 | no center is closer than the chosen one, and every lower-indexed center is strictly farther, so ties go to the lowest index |
| KMeansModel.MinDistIsLeast | src/k_means.h:79-80 | the distance to the nearest center is non-negative, at most the distance to any center, and attained by one |
| KMeansModel.ClustersAreNearest | src/k_means.h:106-114 | the clusters partition the rows 0..N-1, each list ascending, and row i lies in list c only if c is the nearest center of row i |
| KMeansModel.OneClusterHoldsAll | src/k_means.h:106-114 | with a single center the only cluster is 0..N-1 |
| KMeansModel.Farthest | src/k_means.h:82 | the row k-means++ seeds next is a row of X |
| KMeansModel.FarthestIsFarthest | src/k_means.h:76-83 | no row is farther from its nearest center than the row seeded next |
| KMeansModel.KmppSeedsAreRows | src/k_means.h:74-84 | every k-means++ center is a row of X |
| KMeansModel.KmppSeedsStep | src/k_means.h:75-84 | each further k-means++ center is the farthest row from the centers chosen before it |
| KMeansModel.FarthestIsNew | src/k_means.h:76-83 | while some row is not yet a center, the row seeded next is not a center already |
| KMeansModel.KmppSeedIsNew | src/k_means.h:74-84 | the k-th k-means++ center differs from the first k-1 while X still has a row that is not among them |
| KMeansModel.KMeans.constructor | src/k_means.h:35 | a new object owns a fresh array of K centers |
| KMeansModel.KMeans.NearestCenter | src/k_means.h:87-94 | the argmin loop over the first n centers returns the nearest of them, first on ties |
| KMeansModel.KMeans.MakeClusters | src/k_means.h:106-114 | the push_back loop returns the clusters of the current centers |
| KMeansModel.KMeans.UpdateCenters | src/k_means.h:116-125 | each center becomes the mean of its non-empty cluster's rows |
| KMeansModel.KMeans.NearestDistances | src/k_means.h:76-81 | the norms array holds, for every row, its distance to the nearest of the first i centers |
| KMeansModel.KMeans.KmppInitCenter | src/k_means.h:67-85 | the centers become the k-means++ seeds starting from the given first row |
| KMeansModel.KMeans.RandInitCenter | src/k_means.h:96-104 | with K <= N the shuffle yields a permutation, center i is row perm[i], and the K chosen rows are pairwise distinct |
| KMeansModel.KMeans.Fit | src/k_means.h:39-65 | an unknown init option fails before any center changes; success means the last assignment repeated, so every cluster is non-empty and every center is the mean of its cluster (a fixed point); with K = 1 the single center is the column mean after one update |
| KMeansModel.KMeans.Predict | src/k_means.h:127-135 | predict returns the same clusters as make_clusters for the current centers, a partition of the rows |
| KMeansModel.KMeans.GetCenters | src/k_means.h:137 | get_centers hands out the object's own center array |
| GaussianMixtureModel.UniformSumsToOne | src/gaussian_mixture.h:101-102 | K weights of 1/K sum to one |
| GaussianMixtureModel.ResponsibilitiesSumToOne | src/gaussian_mixture.h:160-169 | with a non-zero mixture density, a posterior row sums to one |
| GaussianMixtureModel.ResponsibilitiesInUnitInterval | src/gaussian_mixture.h:160-169 | with non-negative weights and densities and a non-zero mixture density, every responsibility lies in [0, 1] |
| GaussianMixtureModel.PosteriorRowsSumToOne | src/gaussian_mixture.h:160-169 | the posterior e_step writes has K entries per row and every row sums to one |
| GaussianMixtureModel.ColumnSumsTotal | src/gaussian_mixture.h:175-176 | the column sums N_j add up to the sum of the row sums |
| GaussianMixtureModel.MixingWeightsSumToOne | src/gaussian_mixture.h:176-182 | if every posterior row sums to one, the weights N_j / N sum to one |
| GaussianMixtureModel.WeightedSumOfOnes | src/gaussian_mixture.h:177 | with weight one on every row the weighted row sum is the plain row sum |
| GaussianMixtureModel.WeightedMeanOfOnes | src/gaussian_mixture.h:177 | a component wholly responsible for every row gets the column mean as its M-step mean |
| GaussianMixtureModel.AssignmentIsMaxDensity | src/gaussian_mixture.h:186-198 | predict's lists partition the rows, and each row sits in the list of its first most likely component |
| GaussianMixtureModel.PosteriorFrom | src/gaussian_mixture.h:147-170 | the E-step has a posterior exactly when every row has a non-zero mixture density under the mixture, and it is then the posterior of the responsibilities |
| GaussianMixtureModel.SteppableByColumns | src/gaussian_mixture.h:172-184 | with P the E-step posterior of m, a round can run from m exactly when no column of P sums to zero |
| GaussianMixtureModel.MStepCompletesRound | src/gaussian_mixture.h:64-65 | a mixture solving the M-step equations over the E-step posterior of m is one E/M round from m |
| GaussianMixtureModel.RoundNormalises | src/gaussian_mixture.h:64-65 | after a round, the new weights sum to one and every row of the E-step posterior it used sums to one |
| GaussianMixtureModel.EMStepSteppable | src/gaussian_mixture.h:64-65 | a round that ran started from a mixture with non-zero mixture densities and non-zero column sums |
| GaussianMixtureModel.EMStepUnique | src/gaussian_mixture.h:172-184 | the mixture after a round is determined by the mixture it started from |
| GaussianMixtureModel.EMStepWeightsSumToOne | src/gaussian_mixture.h:175-183 | after a round the mixing weights sum to one |
| GaussianMixtureModel.ExtendRun | src/gaussian_mixture.h:63-83 | a run that did not stop grows by one round, and the next test compares with 0 after the first round and with the latest log-likelihood after later ones |
| GaussianMixtureModel.NoStopGrows | src/gaussian_mixture.h:72-75 | a round that fails the test extends the rounds none of which stopped |
| GaussianMixtureModel.EMRunReport | src/gaussian_mixture.h:61-84 | a whole run of the loop reports 1 to 1001 rounds with one mixture per round after the seed; current is the log-likelihood of the last mixture and previous the prev it was compared with; converged exactly when that comparison passed the test, otherwise 1001 rounds; a converged run took at least 2 rounds |
| GaussianMixtureModel.EMRunFinished | src/gaussian_mixture.h:72-83 | a run whose last round is the first to pass the test, or is round 1001, is a whole run with the report fit builds |
| GaussianMixtureModel.FitReport | src/gaussian_mixture.h:61-84 | a whole run reports 1 to 1001 rounds with its stop rule, the log-likelihood of the final mixture, final weights summing to one, and posterior rows of the last E-step summing to one |
| GaussianMixtureModel.ChainsAgree | src/gaussian_mixture.h:63-83 | two chains of E/M rounds from the same mixture agree round by round |
| GaussianMixtureModel.EMRunUnique | src/gaussian_mixture.h:61-84 | the seeded mixture determines the whole run of the loop and its report |
| GaussianMixtureModel.SeededWeightsSumToOne | src/gaussian_mixture.h:96-145 | either seeding leaves the mixing weights summing to one |
| GaussianMixtureModel.GaussianMixture.constructor | src/gaussian_mixture.h:36-41 | a new object owns fresh arrays of K means and K covariances |
| GaussianMixtureModel.GaussianMixture.RandomInit | src/gaussian_mixture.h:96-115 | fails with fewer than two rows or more components than rows, changing nothing; otherwise every posterior entry and every weight is 1/K, mean i is row perm[i] of a permutation with distinct first K entries, and every covariance is that of all rows |
| GaussianMixtureModel.GaussianMixture.KMeansInit | src/gaussian_mixture.h:117-145 | on success the posterior is uniform and the mixture is the one the K-Means clusters give: they partition the rows, each has at least two rows, phi[i] is the share of rows in cluster i, mean i is the mean of cluster i and sigma i the covariance of its rows (SeededBy); the means are a K-Means fixed point and the clusters are exactly the clusters of the means (KMeansSeeded); failures are a K-Means error or a cluster of fewer than two rows |
| GaussianMixtureModel.GaussianMixture.RunKMeans | src/gaussian_mixture.h:124-126 | a successful K-Means fit and predict yields K clusters partitioning the rows, each non-empty with its center as its mean; the centers are a K-Means fixed point and the clusters are exactly the clusters of the centers |
| GaussianMixtureModel.GaussianMixture.SetMixture | src/gaussian_mixture.h:128-144 | succeeds exactly when every cluster has at least two rows; then the weights are the cluster shares and the components the cluster means and covariances, which with the K-Means facts make the mixture the one the clusters give; the posterior is left as it was |
| GaussianMixtureModel.GaussianMixture.SetComponents | src/gaussian_mixture.h:137-144 | succeeds exactly when every cluster has at least two rows; then mean i is the cluster mean and sigma i the covariance of its rows |
| GaussianMixtureModel.GaussianMixture.ClusterShares | src/gaussian_mixture.h:129-132 | phi[i] is the size of cluster i over N |
| GaussianMixtureModel.GaussianMixture.EStep | src/gaussian_mixture.h:147-170 | succeeds exactly when every row has a non-zero mixture density; then each posterior row holds the responsibilities; the weights stay, and on failure the posterior is left as it was |
| GaussianMixtureModel.GaussianMixture.MixtureDensity | src/gaussian_mixture.h:161-164 | the denominator loop computes the sum over components of phi_k times the density |
| GaussianMixtureModel.GaussianMixture.PosteriorRow | src/gaussian_mixture.h:165-168 | the numerator loop computes the responsibilities of one row |
| GaussianMixtureModel.GaussianMixture.MStep | src/gaussian_mixture.h:172-184 | succeeds exactly when every column sum N_j is non-zero; then phi = N_j / N, mean j is the posterior-weighted mean and sigma j the weighted scatter about it over N_j; the posterior is unchanged |
| GaussianMixtureModel.GaussianMixture.Fit | src/gaussian_mixture.h:49-84 | an unknown option or K = 0 fails before any field changes; on success the trace starts at the mixture the seeding gives (random_init for "random", kmeans_init with its K-Means tie otherwise); each later mixture is one E/M round from the one before, an E-step posterior followed by the M-step equations over it; the loop ends at the first round whose log-likelihood passes the test (prev != 0 and a change below 0.01) or after round 1001; the report holds the final log-likelihood; the final posterior is the E-step of the mixture before the last M-step; the weights and the posterior rows are distributions |
| GaussianMixtureModel.GaussianMixture.RunEM | src/gaussian_mixture.h:61-84 | the E/M loop from the current mixture: the trace runs from the mixture before it to the mixture after it, and is a whole run with the report returned (each step an E/M round, the stop at the first round passing the test or after round 1001); the final posterior is the E-step of the mixture before the last round; the report holds the final log-likelihood and the weights and posterior rows are distributions; errors are a zero mixture density or a zero column sum |
| GaussianMixtureModel.GaussianMixture.Seed | src/gaussian_mixture.h:56-59 | with `seeded` the relation SeededBy together with the K-Means tie (SeedsLike), a successful seeding leaves the mixture the returned seeding gives (the permutation for "random", the K-Means clusters otherwise) and a uniform posterior; for "random" it fails exactly with fewer than two rows or more components than rows; the errors are the initialisers' own |
| GaussianMixtureModel.GaussianMixture.Round | src/gaussian_mixture.h:64-65 | succeeds exactly when a round can run from the old mixture; then the posterior is the E-step posterior of the old mixture and the new weights, means and covariances solve the M-step equations over it, so the new mixture is one E/M round from the old; the weights and posterior rows are distributions; errors are a zero mixture density or a zero column sum |
| GaussianMixtureModel.GaussianMixture.Iterate | src/gaussian_mixture.h:61-84 | with step, ll and post the E/M round, the log-likelihood and the E-step: the trace runs from the mixture before the loop to the final one, and the report is the run's outcome, so every step is a round, no round before the last passed the test, and the last passed it or was round 1001; the final posterior is the E-step of the mixture before the last round |
| GaussianMixtureModel.GaussianMixture.Advance | src/gaussian_mixture.h:64-83 | one pass of the loop from a run that has not stopped: an E/M round from its last mixture, the trace extended by the new mixture and its log-likelihood returned; if the test passes or it is round 1001 the extended trace is a whole run with fit's report, otherwise the run goes on with the new value as prev |
| GaussianMixtureModel.GaussianMixture.MostLikely | src/gaussian_mixture.h:190-194 | the density loop and max_element pick the first most likely component |
| GaussianMixtureModel.GaussianMixture.Predict | src/gaussian_mixture.h:186-198 | predict returns K lists partitioning the rows, each row in the list of its first most likely component |
| DecisionTreeModel.Side | src/decision_tree.h:192-202 | each side is a subsequence of the node's rows, all answering the question the same way |
| DecisionTreeModel.SideKeepsOrder | src/decision_tree.h:192-202 | splitting distributes over concatenation, so each side keeps the rows' order |
| DecisionTreeModel.SideMembers | src/decision_tree.h:195-199 | every row of the node lands on the side of its own answer to `x[col] >= value` |
| DecisionTreeModel.SidePartition | src/decision_tree.h:192-202 | the two sides together hold exactly the node's rows |
| DecisionTreeModel.SplitNode | src/decision_tree.h:192-202 | split_node returns the "yes" rows first and the "no" rows second |
| DecisionTreeModel.ClassCounts | src/decision_tree.h:167-177 | the counts have max(Y) + 1 slots, taken over all of Y, and slot c counts the node's rows labelled c |
| DecisionTreeModel.ClassCountsTotal | src/decision_tree.h:167-177 | a node's class counts add up to its number of rows |
| DecisionTreeModel.CountClass | src/decision_tree.h:167-177 | the counting loop computes the class counts of the node |
| DecisionTreeModel.SideLabels | src/decision_tree.h:192-202 | the labels of the two sides make up the labels of the node |
| DecisionTreeModel.SideCounts | src/decision_tree.h:101-112 | a node's class counts are those of its two children added slot by slot |
| DecisionTreeModel.UniqueValues | src/decision_tree.h:179-190 | get_unique_values returns the distinct values of the column over the node's rows, each once, in order of first appearance |
| DecisionTreeModel.Without | src/decision_tree.h:210-218 | the remaining columns are exactly those of the list other than the taken one |
| DecisionTreeModel.WithoutShrinks | src/decision_tree.h:103-112 | erasing a column that is in the list makes the list strictly shorter: the measure of build_tree's recursion |
| DecisionTreeModel.EraseTakenCol | src/decision_tree.h:210-218 | the copy loop keeps, in order, every column except the question's |
| DecisionTreeModel.Candidates | src/decision_tree.h:123-127 | every question tried asks about a column of the list |
| DecisionTreeModel.BestOfIsMax | src/decision_tree.h:119-137 | the chosen question never has a negative gain, and no question with two non-empty sides gains more |
| DecisionTreeModel.BestOfIsLast | src/decision_tree.h:119-137 | the result is either the default question (column 0, value 0, gain 0) or a qualifying candidate that no later qualifying candidate equals or beats, so later candidates win ties |
| DecisionTreeModel.TakenColumn | src/decision_tree.h:105-109 | a question gaining at least 0.2 asks about a column of the node's list |
| DecisionTreeModel.ScanColumn | src/decision_tree.h:124-135 | the inner loop over one column's unique values continues the scan of the candidates |
| DecisionTreeModel.FindBestQuestion | src/decision_tree.h:116-138 | find_best_question returns the scan's choice over all candidates, column by column |
| DecisionTreeModel.BuildTree | src/decision_tree.h:97-114 | the tree is the one build_tree grows (Grown): every node holds the class counts of its rows and has children exactly when its best question gains at least 0.2, and then asks that question, with children grown from the "yes" and the "no" rows and that column erased; all counts have max(Y) + 1 slots, every question's column is valid, and the height is at most the number of columns |
| DecisionTreeModel.GrownUnique | src/decision_tree.h:97-114 | the rows, the columns and the gain determine the grown tree |
| DecisionTreeModel.LeafOf | src/decision_tree.h:231-242 | the descent ends at a node without children |
| DecisionTreeModel.LeafOfCounts | src/decision_tree.h:231-242 | in a tree whose nodes all have n class slots, the leaf reached has n slots and counts no class more often than the node the descent started from |
| DecisionTreeModel.FindLeafNode | src/decision_tree.h:231-242 | the while loop going left on "yes" and right on "no" returns that leaf |
| DecisionTreeModel.DecisionTree.constructor | src/decision_tree.h:82 | a new tree has no root |
| DecisionTreeModel.DecisionTree.Fit | src/decision_tree.h:86-95 | fit grows the tree build_tree grows from all rows and all columns; the root counts every row and the height is at most the number of features |
| DecisionTreeModel.DecisionTree.Predict | src/decision_tree.h:220-229 | each row gets the first most frequent class of the leaf it reaches, a class below max(Y) + 1 |
| ModelEvaluation.OffsetIsProduct | src/model_evaluation.h:62 | fold i starts at position fold_size * i |
| ModelEvaluation.FoldsFill | src/model_evaluation.h:58-64 | the n_fold folds fill all positions except the last N mod n_fold |
| ModelEvaluation.Fold | src/model_evaluation.h:58-63 | fold i has N / n_fold entries and folds[i][j] = perm[j + fold_size * i] |
| ModelEvaluation.CopyFold | src/model_evaluation.h:61-63 | the inner loop copies fold i |
| ModelEvaluation.SplitToFolds | src/model_evaluation.h:51-66 | the shuffled iota is a permutation of 0..N-1, and the folds are cut from it |
| ModelEvaluation.FoldsDisjoint | src/model_evaluation.h:51-66 | no index is in two folds |
| ModelEvaluation.LeftoverInNoFold | src/model_evaluation.h:58-64 | the last N mod n_fold permuted indices are in no fold |
| ModelEvaluation.FoldsCoverPrefix | src/model_evaluation.h:58-64 | every index at a filled position is in some fold |
| ModelEvaluation.FewerRowsThanFolds | src/model_evaluation.h:58 | the folds are empty exactly when there are fewer rows than folds |
| ModelEvaluation.FoldsEven | src/model_evaluation.h:58-64 | the folds have equal length and index rows below N |
| ModelEvaluation.TrainIndicesMembers | src/model_evaluation.h:74-82 | an index is used for training exactly when a fold other than `except` holds it |
| ModelEvaluation.TrainIndicesStep | src/model_evaluation.h:74-82 | each fold but the excluded one appends its entries, in fold order |
| ModelEvaluation.TrainIndicesLength | src/model_evaluation.h:70 | the training rows number (n_fold - 1) * fold_size when `except` names a fold |
| ModelEvaluation.AppendFold | src/model_evaluation.h:78-81 | the running cursor copies one fold's entries after those already written |
| ModelEvaluation.TrainSelect | src/model_evaluation.h:68-102 | the training selection is the entries of every fold except `except`, in fold order |
| ModelEvaluation.TestSelect | src/model_evaluation.h:104-126 | the test selection is the entries of fold `include`, in order |
| ModelEvaluation.TrainTestDisjoint | src/model_evaluation.h:68-126 | a test index is never among the training indices of the same round |
| ModelEvaluation.TrainFeature | src/model_evaluation.h:68-84 | train_feature returns the rows of the training selection |
| ModelEvaluation.TrainLabel | src/model_evaluation.h:86-102 | train_label returns the labels of the training selection |
| ModelEvaluation.TestFeature | src/model_evaluation.h:104-114 | test_feature returns the rows of the test fold |
| ModelEvaluation.TestLabel | src/model_evaluation.h:116-126 | test_label returns the labels of the test fold |
| ModelEvaluation.Matches | src/model_evaluation.h:130-135 | the number of matching positions is at most the number of labels |
| ModelEvaluation.AllMatch | src/model_evaluation.h:130-135 | every position matches exactly when the prediction equals the actual labels |
| ModelEvaluation.MatchesPrefix | src/model_evaluation.h:131 | only the first actual.size() predictions are compared |
| ModelEvaluation.AccuracyInUnit | src/model_evaluation.h:128-137 | an accuracy lies in [0, 1] and is 1 exactly for a perfect prediction |
| ModelEvaluation.CalcAccuracy | src/model_evaluation.h:128-137 | fails exactly on an empty label vector (0 / 0); otherwise returns matches over size |
| ModelEvaluation.MeanAccuracyInUnit | src/model_evaluation.h:37-49 | the mean of the fold accuracies lies in [0, 1] |
| ModelEvaluation.RunRound | src/model_evaluation.h:43-46 | one round trains on the other folds and scores on fold i |
| ModelEvaluation.SumAccuracies | src/model_evaluation.h:41-47 | the accumulator ends as the sum of the round accuracies |
| ModelEvaluation.Evaluate | src/model_evaluation.h:37-49 | fails exactly when there are fewer rows than folds; otherwise returns, for some permutation of the rows, the mean of the n_fold round accuracies, a value in [0, 1] |
| KnnModel.Insert | src/k_nearest_neighbors.h:70-71 | one insertion step adds exactly one index to the order |
| KnnModel.ArgSort | src/k_nearest_neighbors.h:67-71 | the argsort of the first n indices has length n and entries below n |
| KnnModel.ArgSortIsPermutation | src/k_nearest_neighbors.h:68-71 | the argsort is a permutation of 0..N-1 |
| KnnModel.InsertSorted | src/k_nearest_neighbors.h:70-71 | inserting a larger index into a stably sorted order keeps it stably sorted |
| KnnModel.ArgSortSorted | src/k_nearest_neighbors.h:70-71 | in the argsort every index comes before every later one: strictly nearer, or equally near and smaller |
| KnnModel.SortedUnique | src/k_nearest_neighbors.h:70-71 | only one ordering of a set of indices is stably sorted |
| KnnModel.ArgSortIsStableSort | src/k_nearest_neighbors.h:67-71 | any stably sorted permutation of the indices, hence std::stable_sort's, equals the argsort |
| KnnModel.KNearestAreNearest | src/k_nearest_neighbors.h:67-78 | no row outside the first K of the order is strictly nearer than a row inside |
| KnnModel.FirstIsClosest | src/k_nearest_neighbors.h:67-71 | the order starts with the first closest row |
| KnnModel.VotesTotal | src/k_nearest_neighbors.h:74-78 | there are n_class vote counts and they add up to K |
| KnnModel.WinnerIsANeighbourLabel | src/k_nearest_neighbors.h:74-87 | the first most voted class is the label of one of the K neighbours |
| KnnModel.Ranking | src/k_nearest_neighbors.h:56-71 | the ranking of the training rows by distance to x has one entry per training row |
| KnnModel.OneNeighbour | src/k_nearest_neighbors.h:45-87 | with K = 1 the answer is the label of the first closest training row |
| KnnModel.KNN.constructor | src/k_nearest_neighbors.h:30 | a new classifier has K neighbours, no classes and no training data |
| KnnModel.KNN.Create | src/k_nearest_neighbors.h:30-36 | construction fails exactly when K <= 0 |
| KnnModel.KNN.Fit | src/k_nearest_neighbors.h:38-43 | fit stores X and Y and sets n_class to max(Y) + 1 |
| KnnModel.KNN.Norms | src/k_nearest_neighbors.h:56-63 | one distance per stored training row, in row order |
| KnnModel.KNN.SelectKNeighbours | src/k_nearest_neighbors.h:65-81 | the class counts over the first K indices of the stable argsort |
| KnnModel.KNN.CountNeighbours | src/k_nearest_neighbors.h:74-78 | the counting loop yields the vote counts of the first K indices |
| KnnModel.KNN.Predict | src/k_nearest_neighbors.h:45-54 | one answer per query row: the first class with the most votes among its K nearest training rows, below n_class |
| NaiveBayesModel.SigmaDivisor | headers/naive_bayes.h:56 | the divisor is rows * cols - 1: rows - 1 for a single feature and -1 for none |
| NaiveBayesModel.ClassRows | headers/naive_bayes.h:60-77 | class c's matrix has X's columns and as many rows as labels equal to c |
| NaiveBayesModel.PriorIsLabelShare | headers/naive_bayes.h:48-50 | prior c is the number of rows labelled c over N |
| NaiveBayesModel.PriorsSumToOne | headers/naive_bayes.h:48-50 | the priors sum to one |
| NaiveBayesModel.SigmaScalesCovariance | headers/naive_bayes.h:53-57 | a class sigma is the sample covariance of its rows scaled by (rows - 1) / (rows * cols - 1) |
| NaiveBayesModel.NaiveBayes.constructor | headers/naive_bayes.h:28 | a new model has no classes |
| NaiveBayesModel.NaiveBayes.CopyRows | headers/naive_bayes.h:69-72 | the copy loop builds the matrix of the listed rows |
| NaiveBayesModel.NaiveBayes.SplitByClass | headers/naive_bayes.h:60-77 | split c is the matrix of the rows labelled c, in their order in X |
| NaiveBayesModel.NaiveBayes.Fit | headers/naive_bayes.h:36-58 | n_class = max(Y) + 1 and the priors are the class shares; fit succeeds exactly when every class has rows and a non-zero divisor, and then each class gets the mean of its rows and their scatter over that divisor |
| NaiveBayesModel.NaiveBayes.Scores | headers/naive_bayes.h:83-87 | prob[j] is density times prior of class j |
| NaiveBayesModel.NaiveBayes.Predict | headers/naive_bayes.h:79-91 | each row gets the first class maximising prior times density, a class below n_class (0 when there is none) |
| FileManage.NextComma | headers/file_manage.h:28 | getline stops at the first comma at or after the start, or at the end of the line |
| FileManage.Fields | headers/file_manage.h:27-30 | a line yields no field exactly when it is empty |
| FileManage.FieldsRoundTrip | headers/file_manage.h:27-30 | the fields joined with commas, plus a closing comma if the line had one, give back the line |
| FileManage.FieldsHaveNoComma | headers/file_manage.h:28-30 | no field holds a comma |
| FileManage.TrailingCommaAddsNoField | headers/file_manage.h:28-30 | a comma at the end of a line adds no field |
| FileManage.CountFields | headers/file_manage.h:26-30 | the counting loop counts the fields of the line |
| FileManage.CountRowCol | headers/file_manage.h:12-43 | fails exactly when a line's count differs from a non-zero count of the line before; otherwise n_row is the number of lines and n_col the last line's count |
| FileManage.AgreeingRowsShareWidth | headers/file_manage.h:33-39 | in an accepted file every line after one with fields has as many fields |
| FileManage.RaggedIffMismatch | headers/file_manage.h:25-41 | count_row_col fails exactly when some line's count differs from the non-zero count of an earlier line |
| FileManage.RecordWidths | headers/file_manage.h:25-41 | in an accepted file whose last line has fields, every non-empty line has n_col fields |
| FileManage.IsNumber | headers/file_manage.h:45-53 | is_number holds exactly when every character is a digit or '.' |
| FileManage.NumericExamples | headers/file_manage.h:45-53 | the empty text and "1.2.3" are numbers, "-1" is not |
| FileManage.Intern | headers/file_manage.h:96-104 | a text already in the table gets its position; a new one is appended and gets the next id; the table stays the distinct texts in order of first appearance and no id moves |
| FileManage.LabelIds | headers/file_manage.h:96-104 | ids are below the number of distinct texts, equal exactly for equal texts, and a text not seen before gets the next unused id |
| FileManage.IdsAreDense | headers/file_manage.h:96-104 | every id below the number of distinct texts belongs to some text |
| FileManage.Records | headers/file_manage.h:74-78 | the records read after the header are non-empty lines of the file, at most one per line |
| FileManage.RecordsWidth | headers/file_manage.h:78-90 | every record of an accepted file has as many fields as its last line |
| FileManage.ReadFeatures | headers/file_manage.h:83-90 | the feature loop writes fields 0..n_col-2 into columns 0..n_col-2 of the row, touches no other cell, and stops holding field n_col-1 as the label text |
| FileManage.StoreLabel | headers/file_manage.h:92-105 | a numeric label text is stored as its value, any other as its interned id |
| FileManage.ReadRecord | headers/file_manage.h:78-108 | one record fills its row's feature cells and label entry |
| FileManage.ReadRecords | headers/file_manage.h:73-108 | every record after the header fills its row |
| FileManage.ReadCsv | headers/file_manage.h:55-111 | fails exactly when count_row_col does; otherwise the matrices are sized (lines - 1) x (fields - 1), row r holds the values of fields 0..n_col-2 of record r and nothing else, column n_col-1 is never written, and label r is the numeric value or first-appearance id of field n_col-1 |
| SizedCsv.Cursor | src/file_manage.h:36-50 | with n_col >= 1 the cursor's column stays below n_col, so the "Invalid column size" check never fires |
| SizedCsv.CursorBefore | src/file_manage.h:36-50 | the cursor only moves forward in row-major order, so no cell is visited twice |
| SizedCsv.CursorValue | src/file_manage.h:31-51 | after t fields the cursor counts them in rows of n_col: t = row * n_col + col |
| SizedCsv.CursorIsDivMod | src/file_manage.h:31-51 | field t is read at row t div n_col, column t mod n_col, line ends notwithstanding |
| SizedCsv.RowCheckBound | src/file_manage.h:53-56 | the row check fails exactly when the fields fill more than n_row whole rows |
| SizedCsv.RowErrorPersists | src/file_manage.h:28-57 | once the row count passes n_row after a line, it is still past n_row after the last line |
| SizedCsv.LabelFields | src/file_manage.h:36-46 | one label text per completed row |
| SizedCsv.LabelFieldAt | src/file_manage.h:36-46 | the label text of row r is the field read at (r, n_col - 1) |
| SizedCsv.ReadField | src/file_manage.h:31-51 | one field either interns a label and moves to the next row, or stores a feature and moves one column right, keeping the reader state in step with the fields read |
| SizedCsv.ReadLine | src/file_manage.h:31-52 | the field loop of one line fails exactly when n_col = 0 and the line has a field, with "Invalid column size" |
| SizedCsv.ReadCsv | src/file_manage.h:12-59 | with n_col = 0 fails exactly when some line has a field; otherwise fails ("Invalid row size") exactly when the fields fill more than n_row rows; on success the sizes are n_row x (n_col - 1) and the cells are those the fields wrote |
| SizedCsv.FieldPlacement | src/file_manage.h:31-51 | field t is the feature at (t div n_col, t mod n_col) unless t mod n_col = n_col - 1, where it is the label text of row t div n_col |
| SizedCsv.CellsComeFromFields | src/file_manage.h:48-51 | every feature cell written is the cell of some field |
| SizedCsv.LabelsAreFirstAppearance | src/file_manage.h:37-44 | label ids are below the number of distinct texts, equal exactly for equal texts, and a new text gets the next id |
| SizedCsv.WritesInRange | src/file_manage.h:22-23 | after an accepted read every label entry is below n_row, and a feature cell lies past row n_row - 1 exactly when the last row was reached and left part-filled |

## Left out

- File I/O is not modelled: `ifstream`, the "File not found" exits and `fin.close()`. A file is given as its lines, with no end-of-line characters (a `\r` would stay in the last field).
- `fin >> line` in headers/file_manage.h reads whitespace-separated words. The model reads each non-empty line as one record, so lines containing blanks are not modelled.
- `std::stof` is a total function parameter; its exceptions and partial parses are not modelled.
- FileManage.ReadCsv: a numeric label is stored as the real `stof` returns. Its conversion to the template label type `T` (truncation for `int`) is not modelled, and ids are stored as reals.
- FileManage.ReadCsv: requires that an accepted file's last line have at least two fields. With exactly one field the feature matrix has width 0: the test `col == n_col - 1` (headers/file_manage.h:84) compares with -1 and never holds, `col` is never reset, and every field is written through `features(row, col)` past that zero width (line 88). The label is never stored, because the failed `getline` leaves the text empty and `stof("")` throws. With no field the width is -1.
- SizedCsv.ReadCsv: negative `n_row`/`n_col` are not modelled (they are `nat`). The resize to `n_col - 1 = -1` columns when `n_col = 0` is recorded as the width, not as a failure: the model goes on to the column check.
- SizedCsv.ReadCsv: Eigen writes past the sized matrices (undefined in the source) are recorded in the maps rather than faulted. `WritesInRange` says when they happen.
- Uninitialised matrix cells are absent map keys, not values.
- `print`-style output is not modelled: every `cout`, the fit-result dump of the Gaussian mixture, and `print_tree`/`print_implementation`.
- `exit(1)` becomes an error result.
- Floating point is exact `real`. `euclidean_norm` is its square: `sqrt` is monotone, so the nearest and farthest choices agree except for ties created by rounding.
- `multivariate_normal`, `log` in `multivariate_log_likelihood`, and `gini`/`entropy`/`info_gain` are function parameters; their numeric values are not modelled.
- Randomness sources (`random_device`, `mt19937`, the clock-seeded shuffle engine) are parameters. The k-means++ first row is an index, and the shuffle is a sequence of swap targets.
- KMeansModel.KMeans.Fit: the source loop has no termination guarantee, so the model bounds it with a fuel count and reports `NotConverged` when the fuel runs out. `K = 0`, no rows and more random centers than rows make the source index out of range. With an empty cluster the source computes 0 / 0 and continues with NaN centers (src/k_means.h:116-125). All of these are error results here. With zero feature columns the source's division of an empty cluster's sum (src/k_means.h:119-123) divides a vector of length 0, so no value is computed and the fit can finish normally; the model still reports `EmptyCluster` there.
- GaussianMixtureModel.GaussianMixture.Fit: the cases where the source divides by zero or reads out of range become error results and stop the fit: fewer than two rows, more components than rows, a K-Means cluster with fewer than two rows, a zero mixture density, a zero column sum. The K-Means run inside `kmeans_init` is bounded by fuel as above. With zero feature columns, `covariance_matrix` (src/common.h:25-29) divides a 0 x 0 matrix by rows - 1, so the cases of fewer than two rows in a cluster or in the data compute nothing and the source goes on; the model still reports `TooFewRows` or `SmallCluster` there.
- GaussianMixtureModel.GaussianMixture.Fit: K = 0 fails with `NoComponents` before any field changes. In the source, "random" then runs all 1001 rounds on an empty mixture whose log-likelihood is log(0), and "kmeans" hands K = 0 to K-Means, which is undefined.
- GaussianMixtureModel.GaussianMixture.Seed: its success contract is stated through the ghost relation `seeded`; the requires `SeedsLike` makes that relation SeededBy together with KMeansSeeded, and `Fit` passes the relation that does so.
- ModelEvaluation.Evaluate: fewer rows than folds fails with `EmptyFold`; the source's folds are then empty and its accuracy is 0 / 0 (NaN). `n_fold = 0` is excluded by the requires `nFold > 0`; the source divides by zero at src/model_evaluation.h:58.
- KnnModel.KNN.Fit, NaiveBayesModel.NaiveBayes.Fit, DecisionTreeModel.DecisionTree.Fit, ModelEvaluation.Evaluate: labels are `nat`. `VectorXi` admits negative labels, which the source uses as indexes out of range (src/k_nearest_neighbors.h:76-77, headers/naive_bayes.h:64, src/decision_tree.h:173-174); such labels are not modelled.
- NaiveBayesModel.NaiveBayes.Fit: a class without rows (0 / 0 mean) or with a zero sigma divisor stops fit with an error, after the priors are set; the source continues with NaN. The divisor itself is kept as written (`rows * cols - 1`). With zero feature columns an empty class has a 0 x 0 split, an empty mean and the divisor -1 (headers/naive_bayes.h:54-56), so the source computes nothing and finishes; the model still reports the error there.
- NaiveBayesModel.NaiveBayes.Fit, KnnModel.KNN.Fit, DecisionTreeModel.DecisionTree.Fit: require a non-empty label vector; the source dereferences `max_element` of an empty range.
- KnnModel.KNN.Predict: requires K to be at most the number of training rows; the source reads past the index vector otherwise.
- KnnModel.KNN.constructor: requires K > 0; `KNN.Create` models the source's check and its exit.
- `std::stable_sort` is modelled by an insertion argsort, and `ArgSortIsStableSort` shows that every stable sort of the indices equals it.
- The `Node*` tree is a `Tree` datatype returned by value. Node ownership and deletion (`~Node`, `~DecisionTree`) are not modelled.
- Raw `new[]`/`delete[]` of `centers`, `mu` and `sigma` are arrays or sequences. The leak on refit in naive Bayes is not modelled.
- ModelEvaluation.Evaluate: the model object is a classifier function from training rows, training labels and test rows to predictions, so state kept between rounds is not modelled. With `n_fold = 1` the training set is empty and is passed to that function as is.
- `evaluate_clustering_model`, `silhouette_score` and `mean_distance` (src/model_evaluation.h:139-174) are not part of this model.
- principal_component_analysis.h, ordinary_least_squares.h and main.cpp are not part of this model.
- GaussianMixtureModel.GaussianMixture.MStep: the weighted mean and scatter are stated as functions of the posterior column; that they are the maximum-likelihood estimates is not stated.

=== FILE: algorithms.dfy ===
/** Sequence building blocks shared by every model: left-to-right sums,
    `std::min_element` / `std::max_element` (first position on ties),
    grouping row indices by label with `push_back`, counting labels, and
    de-duplication by `std::find` followed by `push_back`. */
module Algorithms {

  /* ---------------------------------------------------------------- sums */

  /** Sum of a sequence of reals, accumulated left to right as the source's loops do. */
  function SumReal(s: seq<real>): real
  {
    if |s| == 0 then 0.0 else SumReal(s[..|s| - 1]) + s[|s| - 1]
  }

  /** A running sum: the sum of the first i + 1 entries adds entry i. */
  lemma SumRealStep(a: seq<real>, i: nat)
    requires i < |a|
    ensures SumReal(a[..i + 1]) == SumReal(a[..i]) + a[i]
  {
    assert a[..i + 1][..i] == a[..i];
  }

  /** Sum of a sequence of naturals, accumulated left to right. */
  function SumNat(s: seq<nat>): nat
  {
    if |s| == 0 then 0 else SumNat(s[..|s| - 1]) + s[|s| - 1]
  }

  /** Bumping one entry by one bumps the total by one. */
  lemma {:induction false} SumNatIncrement(s: seq<nat>, k: nat)
    requires k < |s|
    ensures SumNat(s[k := s[k] + 1]) == SumNat(s) + 1
  {
    var t := s[k := s[k] + 1];
    if k == |s| - 1 {
      assert t[..|t| - 1] == s[..|s| - 1];
    } else {
      assert t[..|t| - 1] == s[..|s| - 1][k := s[k] + 1];
      SumNatIncrement(s[..|s| - 1], k);
    }
  }

  /** A sequence of zeros sums to zero. */
  lemma {:induction false} SumNatZeros(n: nat)
    ensures SumNat(seq(n, _ => 0)) == 0
  {
    if n > 0 {
      assert seq(n, _ => 0)[..n - 1] == seq(n - 1, _ => 0);
      SumNatZeros(n - 1);
    }
  }

  /** A positive total has a positive entry. */
  lemma {:induction false} SumNatPositive(s: seq<nat>)
    requires SumNat(s) > 0
    ensures exists i :: 0 <= i < |s| && s[i] > 0
  {
    var p := s[..|s| - 1];
    if s[|s| - 1] == 0 {
      SumNatPositive(p);
      var i :| 0 <= i < |p| && p[i] > 0;
      assert s[i] > 0;
    } else {
      assert s[|s| - 1] > 0;
    }
  }

  /** A non-zero real divided by itself is one. */
  lemma DivSelf(x: real, q: real)
    requires x != 0.0 && q == x / x
    ensures q == 1.0
  {
  }

  /** Coordinate-wise sum of two vectors of equal length. */
  function VecAdd(u: seq<real>, v: seq<real>): (w: seq<real>)
    requires |u| == |v|
    ensures |w| == |u| && forall c :: 0 <= c < |u| ==> w[c] == u[c] + v[c]
  {
    seq(|u|, c requires 0 <= c < |u| => u[c] + v[c])
  }

  /** A vector divided coordinate-wise by a scalar, as `v / d` in Eigen. */
  function VecDiv(v: seq<real>, d: real): (w: seq<real>)
    requires d != 0.0
    ensures |w| == |v| && forall c :: 0 <= c < |v| ==> w[c] == v[c] / d
  {
    seq(|v|, c requires 0 <= c < |v| => v[c] / d)
  }

  /** Dividing every term by d divides the sum by d. */
  lemma {:induction false} SumRealDiv(a: seq<real>, d: real)
    requires d != 0.0
    ensures SumReal(VecDiv(a, d)) == SumReal(a) / d
  {
    var r := VecDiv(a, d);
    if |a| > 0 {
      var a' := a[..|a| - 1];
      assert r[..|r| - 1] == VecDiv(a', d);
      SumRealDiv(a', d);
    }
  }

  /** Pointwise addition distributes over the sum. */
  lemma {:induction false} SumRealAdd(a: seq<real>, b: seq<real>)
    requires |a| == |b|
    ensures SumReal(VecAdd(a, b)) == SumReal(a) + SumReal(b)
  {
    var r := VecAdd(a, b);
    if |a| > 0 {
      var a', b' := a[..|a| - 1], b[..|b| - 1];
      assert r[..|r| - 1] == VecAdd(a', b');
      SumRealAdd(a', b');
    }
  }

  /** Integer counts viewed as reals, so that max_element over counts is ArgMax. */
  function AsReals(s: seq<nat>): (r: seq<real>)
    ensures |r| == |s| && forall i :: 0 <= i < |s| ==> r[i] == s[i] as real
  {
    seq(|s|, i requires 0 <= i < |s| => s[i] as real)
  }

  /** Reading naturals as reals does not change their sum. */
  lemma {:induction false} SumAsReals(a: seq<nat>)
    ensures SumReal(AsReals(a)) == SumNat(a) as real
  {
    if |a| > 0 {
      assert AsReals(a)[..|a| - 1] == AsReals(a[..|a| - 1]);
      SumAsReals(a[..|a| - 1]);
    }
  }

  /** Counts divided by their total sum to one: the shares |group c| / N
      computed for mixing weights and class priors. */
  lemma SharesSumToOne(a: seq<nat>)
    requires SumNat(a) > 0
    ensures SumReal(VecDiv(AsReals(a), SumNat(a) as real)) == 1.0
  {
    SumRealDiv(AsReals(a), SumNat(a) as real);
    SumAsReals(a);
    DivSelf(SumNat(a) as real, SumReal(AsReals(a)) / SumNat(a) as real);
  }

  /** n copies of v sum to n * v. */
  lemma {:induction false} SumRealConst(n: nat, v: real)
    ensures SumReal(seq(n, _ => v)) == n as real * v
  {
    if n > 0 {
      assert seq(n, _ => v)[..n - 1] == seq(n - 1, _ => v);
      SumRealConst(n - 1, v);
    }
  }

  /** A term of a sum of non-negative reals is at most the sum, and the sum is non-negative. */
  lemma {:induction false} SumRealBound(a: seq<real>, k: nat)
    requires k < |a|
    requires forall c :: 0 <= c < |a| ==> a[c] >= 0.0
    ensures 0.0 <= a[k] <= SumReal(a)
  {
    if k < |a| - 1 {
      SumRealBound(a[..|a| - 1], k);
    } else if |a| > 1 {
      SumRealBound(a[..|a| - 1], 0);
    }
  }

  /* --------------------------------------------- min_element / max_element */

  /** k is the position std::min_element returns: a minimum, and strictly
      smaller than everything before it. */
  ghost predicate IsFirstMin(s: seq<real>, k: int)
  {
    0 <= k < |s|
    && (forall j :: 0 <= j < |s| ==> s[k] <= s[j])
    && (forall j :: 0 <= j < k ==> s[k] < s[j])
  }

  /** k is the position std::max_element returns: a maximum, and strictly
      larger than everything before it. */
  ghost predicate IsFirstMax(s: seq<real>, k: int)
  {
    0 <= k < |s|
    && (forall j :: 0 <= j < |s| ==> s[j] <= s[k])
    && (forall j :: 0 <= j < k ==> s[j] < s[k])
  }

  /** std::min_element as an index: the scan replaces its candidate only on a strictly smaller value. */
  function ArgMin(s: seq<real>): (k: nat)
    requires |s| > 0
    ensures IsFirstMin(s, k)
  {
    if |s| == 1 then 0
    else
      var k := ArgMin(s[..|s| - 1]);
      if s[|s| - 1] < s[k] then |s| - 1 else k
  }

  /** std::max_element as an index: the scan replaces its candidate only on a strictly larger value. */
  function ArgMax(s: seq<real>): (k: nat)
    requires |s| > 0
    ensures IsFirstMax(s, k)
  {
    if |s| == 1 then 0
    else
      var k := ArgMax(s[..|s| - 1]);
      if s[k] < s[|s| - 1] then |s| - 1 else k
  }

  /** The first-on-ties rule singles out exactly one position. */
  lemma FirstMinUnique(s: seq<real>, k1: int, k2: int)
    requires IsFirstMin(s, k1) && IsFirstMin(s, k2)
    ensures k1 == k2
  {
    assert s[k1] == s[k2];
  }

  /** The first-on-ties rule singles out exactly one position. */
  lemma FirstMaxUnique(s: seq<real>, k1: int, k2: int)
    requires IsFirstMax(s, k1) && IsFirstMax(s, k2)
    ensures k1 == k2
  {
    assert s[k1] == s[k2];
  }

  /* ------------------------------------------------ grouping by label */

  ghost predicate StrictlyIncreasing(s: seq<nat>)
  {
    forall i, j :: 0 <= i < j < |s| ==> s[i] < s[j]
  }

  ghost predicate AllBelow(labels: seq<nat>, n: nat)
  {
    forall i :: 0 <= i < |labels| ==> labels[i] < n
  }

  /** Some list of g holds x. */
  ghost predicate InSome(g: seq<seq<nat>>, x: nat)
  {
    exists c :: 0 <= c < |g| && x in g[c]
  }

  /** g lists every index 0..N-1 exactly once: each list is strictly
      increasing (so repeats nothing), the lists are pairwise disjoint, and
      together they hold exactly 0..N-1. */
  ghost predicate IsPartition(g: seq<seq<nat>>, N: nat)
  {
    (forall c :: 0 <= c < |g| ==> StrictlyIncreasing(g[c]))
    && (forall c, x :: 0 <= c < |g| && x in g[c] ==> x < N)
    && (forall x: nat :: x < N ==> InSome(g, x))
    && (forall c, d, x :: 0 <= c < d < |g| && x in g[c] ==> x !in g[d])
  }

  /** n lists where list c holds, in ascending order, the positions i with
      labels[i] == c: what `clusters[labels[i]].push_back(i)` for i = 0, 1, ...
      builds. */
  function Groups(labels: seq<nat>, n: nat): (g: seq<seq<nat>>)
    requires AllBelow(labels, n)
    ensures |g| == n
  {
    if |labels| == 0 then seq(n, _ => [])
    else
      var g := Groups(labels[..|labels| - 1], n);
      var l := labels[|labels| - 1];
      g[l := g[l] + [|labels| - 1]]
  }

  /** Labelling one more position appends it to the group of its label. */
  lemma GroupsStep(labels: seq<nat>, n: nat, i: nat)
    requires AllBelow(labels, n) && i < |labels|
    ensures AllBelow(labels[..i], n) && labels[i] < n
    ensures Groups(labels[..i + 1], n) == Groups(labels[..i], n)[labels[i] := Groups(labels[..i], n)[labels[i]] + [i]]
  {
    assert labels[..i + 1][..i] == labels[..i];
  }

  /** Group c holds exactly the positions labelled c, in strictly increasing order. */
  lemma {:induction false} GroupsMembers(labels: seq<nat>, n: nat)
    requires AllBelow(labels, n)
    ensures forall c, x {:trigger x in Groups(labels, n)[c]} :: 0 <= c < n ==> (x in Groups(labels, n)[c] <==> 0 <= x < |labels| && labels[x] == c)
    ensures forall c :: 0 <= c < n ==> StrictlyIncreasing(Groups(labels, n)[c])
  {
    var G := Groups(labels, n);
    if |labels| == 0 {
      assert G == seq(n, _ => []);
    } else {
      var p := labels[..|labels| - 1];
      GroupsMembers(p, n);
      var g := Groups(p, n);
      var l := labels[|labels| - 1];
      assert G == g[l := g[l] + [|p|]];
      forall c, x | 0 <= c < n
        ensures x in G[c] <==> 0 <= x < |labels| && labels[x] == c
      {
        if c == l {
          assert G[c] == g[c] + [|p|];
        } else {
          assert G[c] == g[c];
        }
        if 0 <= x < |p| {
          assert labels[x] == p[x];
        }
      }
      forall c | 0 <= c < n
        ensures StrictlyIncreasing(G[c])
      {
        if c == l {
          forall i | 0 <= i < |g[c]| ensures g[c][i] < |p| {
            assert g[c][i] in g[c];
          }
        }
      }
    }
  }

  /** Every group lists positions of the labels. */
  lemma GroupsBelow(labels: seq<nat>, n: nat)
    requires AllBelow(labels, n)
    ensures forall c :: 0 <= c < n ==> AllBelow(Groups(labels, n)[c], |labels|)
  {
    GroupsMembers(labels, n);
    forall c, j | 0 <= c < n && 0 <= j < |Groups(labels, n)[c]|
      ensures Groups(labels, n)[c][j] < |labels|
    {
      assert Groups(labels, n)[c][j] in Groups(labels, n)[c];
    }
  }

  /** Group c has as many positions as there are labels equal to c. */
  lemma {:induction false} GroupSizesAreCounts(labels: seq<nat>, n: nat)
    requires AllBelow(labels, n)
    ensures Sizes(Groups(labels, n)) == Histogram(labels, n)
  {
    if |labels| > 0 {
      GroupSizesAreCounts(labels[..|labels| - 1], n);
    }
  }

  /** The groups of in-range labels partition the positions. */
  lemma GroupsPartition(labels: seq<nat>, n: nat)
    requires AllBelow(labels, n)
    ensures IsPartition(Groups(labels, n), |labels|)
  {
    var g := Groups(labels, n);
    GroupsMembers(labels, n);
    forall x: nat | x < |labels|
      ensures InSome(g, x)
    {
      assert x in g[labels[x]];
    }
  }

  /** The size of each group. */
  function Sizes(g: seq<seq<nat>>): (s: seq<nat>)
    ensures |s| == |g| && forall c :: 0 <= c < |g| ==> s[c] == |g[c]|
  {
    seq(|g|, c requires 0 <= c < |g| => |g[c]|)
  }

  /** Total number of indices held by a list of groups. */
  function TotalSize(g: seq<seq<nat>>): nat
  {
    SumNat(Sizes(g))
  }

  /** The group sizes add up to the number of labels. */
  lemma {:induction false} GroupsTotalSize(labels: seq<nat>, n: nat)
    requires AllBelow(labels, n)
    ensures TotalSize(Groups(labels, n)) == |labels|
  {
    var g := Groups(labels, n);
    if |labels| == 0 {
      assert Sizes(g) == seq(n, _ => 0);
      SumNatZeros(n);
    } else {
      var p := labels[..|labels| - 1];
      var l := labels[|labels| - 1];
      var h := Groups(p, n);
      GroupsTotalSize(p, n);
      var sh := Sizes(h);
      assert Sizes(g) == sh[l := sh[l] + 1];
      SumNatIncrement(sh, l);
    }
  }

  /* ------------------------------------------------ counting labels */

  /** The counts vector built by `counts[label]++` over labels, with n slots. */
  function Histogram(labels: seq<nat>, n: nat): (h: seq<nat>)
    requires AllBelow(labels, n)
    ensures |h| == n
    ensures forall c :: 0 <= c < n ==> h[c] == multiset(labels)[c]
  {
    if |labels| == 0 then seq(n, _ => 0)
    else
      var p := labels[..|labels| - 1];
      var l := labels[|labels| - 1];
      assert labels == p + [l];
      var h := Histogram(p, n);
      h[l := h[l] + 1]
  }

  /** The counts add up to the number of labels counted. */
  lemma {:induction false} HistogramTotal(labels: seq<nat>, n: nat)
    requires AllBelow(labels, n)
    ensures SumNat(Histogram(labels, n)) == |labels|
  {
    if |labels| == 0 {
      SumNatZeros(n);
    } else {
      var p := labels[..|labels| - 1];
      HistogramTotal(p, n);
      SumNatIncrement(Histogram(p, n), labels[|labels| - 1]);
    }
  }

  /** The most frequent label of a non-empty list occurs in it. */
  lemma MostFrequentOccurs(labels: seq<nat>, n: nat, c: nat)
    requires AllBelow(labels, n) && |labels| > 0
    requires IsFirstMax(AsReals(Histogram(labels, n)), c)
    ensures c in labels
  {
    var h := Histogram(labels, n);
    HistogramTotal(labels, n);
    SumNatPositive(h);
    var i :| 0 <= i < |h| && h[i] > 0;
    assert AsReals(h)[i] <= AsReals(h)[c];
    assert c in multiset(labels);
  }

  /** The entries of `values` at the listed positions, in order. */
  function Pick<T>(values: seq<T>, idx: seq<nat>): (p: seq<T>)
    requires AllBelow(idx, |values|)
    ensures |p| == |idx| && forall j :: 0 <= j < |idx| ==> p[j] == values[idx[j]]
  {
    seq(|idx|, j requires 0 <= j < |idx| => values[idx[j]])
  }

  /** Picking from a concatenation of index lists concatenates the picks. */
  lemma PickAppend<T>(values: seq<T>, a: seq<nat>, b: seq<nat>)
    requires AllBelow(a, |values|) && AllBelow(b, |values|)
    ensures AllBelow(a + b, |values|)
    ensures Pick(values, a + b) == Pick(values, a) + Pick(values, b)
  {
    assert forall j :: 0 <= j < |b| ==> (a + b)[|a| + j] == b[j];
  }

  /** Largest entry of a non-empty sequence (`*std::max_element`). */
  function MaxNat(s: seq<nat>): (m: nat)
    requires |s| > 0
    ensures forall i :: 0 <= i < |s| ==> s[i] <= m
  {
    if |s| == 1 then s[0]
    else
      var m := MaxNat(s[..|s| - 1]);
      if m < s[|s| - 1] then s[|s| - 1] else m
  }

  /** The maximum is attained: it is one of the entries. */
  lemma {:induction false} MaxNatAttained(s: seq<nat>)
    requires |s| > 0
    ensures MaxNat(s) in s
  {
    if |s| > 1 {
      MaxNatAttained(s[..|s| - 1]);
    }
  }

  /* ------------------------------------------------ find, de-duplication */

  /** Position std::find reports for x: its first occurrence. */
  function IndexOf<T(==)>(s: seq<T>, x: T): (k: nat)
    requires x in s
    ensures k < |s| && s[k] == x && forall j :: 0 <= j < k ==> s[j] != x
  {
    if s[0] == x then 0 else 1 + IndexOf(s[1..], x)
  }

  /** An element found in a prefix is found at the same place in the whole. */
  lemma IndexOfPrefix<T>(s: seq<T>, t: seq<T>, x: T)
    requires x in s
    ensures IndexOf(s + t, x) == IndexOf(s, x)
  {
    var k := IndexOf(s, x);
    assert (s + t)[k] == x;
  }

  /** The distinct elements of s in order of first appearance: the vector the
      `find`-then-`push_back` loops build. */
  function Dedup<T(==,!new)>(s: seq<T>): (d: seq<T>)
    ensures forall x :: x in d <==> x in s
  {
    if |s| == 0 then []
    else
      var d := Dedup(s[..|s| - 1]);
      var x := s[|s| - 1];
      assert s == s[..|s| - 1] + [x];
      if x in d then d else d + [x]
  }

  /** Dedup holds every element once, in the order of first appearance in s. */
  lemma {:induction false} DedupDistinctInOrder<T(!new)>(s: seq<T>)
    ensures forall i, j :: 0 <= i < j < |Dedup(s)| ==> Dedup(s)[i] != Dedup(s)[j]
    ensures forall i, j :: 0 <= i < j < |Dedup(s)| ==> IndexOf(s, Dedup(s)[i]) < IndexOf(s, Dedup(s)[j])
  {
    if |s| > 0 {
      var p := s[..|s| - 1];
      var x := s[|s| - 1];
      assert s == p + [x];
      DedupDistinctInOrder(p);
      var d := Dedup(p);
      forall y | y in p ensures IndexOf(s, y) == IndexOf(p, y) {
        IndexOfPrefix(p, [x], y);
      }
      if x in d {
        assert Dedup(s) == d;
        forall i, j | 0 <= i < j < |d| ensures IndexOf(s, d[i]) < IndexOf(s, d[j]) {
          assert d[i] in p && d[j] in p;
          assert IndexOf(p, d[i]) < IndexOf(p, d[j]);
        }
      } else {
        var k := IndexOf(s, x);
        assert x !in p;
        assert k == |p|;
        var e := d + [x];
        assert Dedup(s) == e;
        forall i, j | 0 <= i < j < |e| ensures IndexOf(s, e[i]) < IndexOf(s, e[j]) {
          assert e[i] == d[i] && d[i] in p;
          assert IndexOf(s, e[i]) == IndexOf(p, d[i]) < |p|;
          if j < |d| {
            assert e[j] == d[j] && d[j] in p;
            assert IndexOf(p, d[i]) < IndexOf(p, d[j]);
          } else {
            assert e[j] == x;
          }
        }
      }
    }
  }

  /** De-duplicating a longer input only appends: earlier ids never move. */
  lemma {:induction false} DedupPrefix<T(!new)>(s: seq<T>, i: nat)
    requires i <= |s|
    ensures Dedup(s[..i]) <= Dedup(s)
  {
    if i < |s| {
      assert s[..|s| - 1][..i] == s[..i];
      DedupPrefix(s[..|s| - 1], i);
    } else {
      assert s[..i] == s;
    }
  }

  /** Once x has appeared, its id (position in the de-duplicated table) is fixed. */
  lemma IdStable<T(!new)>(s: seq<T>, i: nat, x: T)
    requires i <= |s| && x in s[..i]
    ensures x in Dedup(s[..i]) && x in Dedup(s)
    ensures IndexOf(Dedup(s[..i]), x) == IndexOf(Dedup(s), x)
  {
    var a, b := Dedup(s[..i]), Dedup(s);
    DedupPrefix(s, i);
    assert b == a + b[|a|..];
    IndexOfPrefix(a, b[|a|..], x);
  }
}

=== FILE: common.dfy ===
/** The shared numeric primitives of common.h over exact reals: the feature
    matrix, squared Euclidean distance, the random row permutation (with the
    shuffle's random draws passed in), row means and the (weighted) scatter
    matrix that every covariance in the toolkit is built from. */
module Common {
  import opened Algorithms

  /** A row vector of features. */
  type Point = seq<real>

  /** A dense matrix held as its rows; `nCols` is the column count even when
      there are no rows, as for an Eigen matrix. */
  datatype Matrix = Matrix(nCols: nat, rows: seq<Point>) {
    /** Rectangular: every row has nCols entries. */
    ghost predicate Valid()
    {
      forall i :: 0 <= i < |rows| ==> |rows[i]| == nCols
    }
  }

  /** Column c of X as a sequence. */
  function Column(X: Matrix, c: nat): (col: seq<real>)
    requires X.Valid() && c < X.nCols
    ensures |col| == |X.rows| && forall i :: 0 <= i < |X.rows| ==> col[i] == X.rows[i][c]
  {
    seq(|X.rows|, i requires 0 <= i < |X.rows| => X.rows[i][c])
  }

  /* ------------------------------------------------------------ distance */

  /** The product of two positive reals is positive. */
  lemma MulPositive(x: real, y: real, z: real)
    requires x > 0.0 && y > 0.0 && z == x * y
    ensures z > 0.0
  {
  }

  /** The product of two negative reals is positive. */
  lemma MulNegative(x: real, y: real, z: real)
    requires x < 0.0 && y < 0.0 && z == x * y
    ensures z > 0.0
  {
  }

  /** x * x, never negative. */
  function Square(x: real): (r: real)
    ensures r >= 0.0
  {
    x * x
  }

  /** A non-zero real has a positive square. */
  lemma SquarePositive(x: real)
    requires x != 0.0
    ensures Square(x) > 0.0
  {
    if x > 0.0 {
      MulPositive(x, x, Square(x));
    } else {
      MulNegative(x, x, Square(x));
    }
  }

  /** Squared Euclidean distance, the square of euclidean_norm. Because sqrt is
      strictly increasing, every nearest/farthest choice made on it picks the
      same index as one made on the norm. Entries beyond the shorter point are
      ignored (the source only ever compares points of equal length). */
  function SqDist(p: Point, q: Point): (d: real)
    ensures d >= 0.0
  {
    if |p| == 0 || |q| == 0 then 0.0
    else Square(p[0] - q[0]) + SqDist(p[1..], q[1..])
  }

  /** Distance from x to each point of cs, in order. */
  function Distances(cs: seq<Point>, x: Point): (d: seq<real>)
    ensures |d| == |cs| && forall i :: 0 <= i < |cs| ==> d[i] == SqDist(x, cs[i])
  {
    seq(|cs|, i requires 0 <= i < |cs| => SqDist(x, cs[i]))
  }

  /** The distance is symmetric. */
  lemma {:induction false} SqDistSymmetric(p: Point, q: Point)
    ensures SqDist(p, q) == SqDist(q, p)
  {
    if |p| > 0 && |q| > 0 {
      SqDistSymmetric(p[1..], q[1..]);
      assert Square(p[0] - q[0]) == Square(q[0] - p[0]);
    }
  }

  /** For points of the same length, the distance is zero exactly when they are equal. */
  lemma {:induction false} SqDistZeroIffEqual(p: Point, q: Point)
    requires |p| == |q|
    ensures SqDist(p, q) == 0.0 <==> p == q
  {
    if |p| > 0 {
      SqDistZeroIffEqual(p[1..], q[1..]);
      if p[0] != q[0] {
        SquarePositive(p[0] - q[0]);
      } else if p[1..] == q[1..] {
        assert p == [p[0]] + p[1..] && q == [q[0]] + q[1..];
      } else {
        assert p != q;
      }
    }
  }

  /* --------------------------------------------------------- permutations */

  /** 0, 1, ..., n-1: what std::iota writes into a vector of size n. */
  function Iota(n: nat): (s: seq<nat>)
    ensures |s| == n && forall i :: 0 <= i < n ==> s[i] == i
  {
    seq(n, i requires 0 <= i => i)
  }

  /** p holds each of 0..n-1 exactly once. */
  ghost predicate IsPermutation(p: seq<nat>, n: nat)
  {
    multiset(p) == multiset(Iota(n))
  }

  /** Every value below n occurs once in 0..n-1, every other value never. */
  lemma {:induction false} IotaCount(n: nat, v: int)
    ensures multiset(Iota(n))[v] == if 0 <= v < n then 1 else 0
  {
    if n > 0 {
      assert Iota(n) == Iota(n - 1) + [n - 1];
      IotaCount(n - 1, v);
    }
  }

  /** What "a permutation of 0..n-1" gives a caller: length n, every entry
      below n, no entry twice, and every value below n present. */
  lemma PermutationFacts(p: seq<nat>, n: nat)
    requires IsPermutation(p, n)
    ensures |p| == n
    ensures forall i :: 0 <= i < |p| ==> p[i] < n
    ensures forall i, j :: 0 <= i < j < |p| ==> p[i] != p[j]
    ensures forall v :: 0 <= v < n ==> v in p
  {
    PermutationBelow(p, n);
    forall i, j | 0 <= i < j < |p| ensures p[i] != p[j] {
      if p[i] == p[j] {
        assert p == p[..j] + p[j..];
        assert p[i] in multiset(p[..j]) && p[j] in multiset(p[j..]);
        assert multiset(p)[p[i]] >= 2;
        IotaCount(n, p[i]);
      }
    }
    forall v | 0 <= v < n ensures v in p {
      PermutationHas(p, n, v);
    }
  }

  /** A permutation of 0..n-1 has length n and only entries below n. */
  lemma PermutationBelow(p: seq<nat>, n: nat)
    requires IsPermutation(p, n)
    ensures |p| == n && forall i :: 0 <= i < |p| ==> p[i] < n
  {
    assert |multiset(p)| == |p|;
    forall i | 0 <= i < |p| ensures p[i] < n {
      assert p[i] in multiset(p);
      IotaCount(n, p[i]);
    }
  }

  /** A permutation of 0..n-1 holds each value below n. */
  lemma PermutationHas(p: seq<nat>, n: nat, v: nat)
    requires IsPermutation(p, n) && v < n
    ensures v in p
  {
    IotaCount(n, v);
    assert v in multiset(p);
  }

  /** The random draws std::shuffle makes for a vector of size n: for each
      position i it swaps with a position draws[i] in 0..i. */
  ghost predicate ValidDraws(draws: seq<nat>, n: nat)
  {
    |draws| == n && forall i :: 0 <= i < n ==> draws[i] <= i
  }

  /** generate_random_index: fill 0..size-1 with std::iota, then shuffle in
      place by the swaps whose targets the clock-seeded engine would draw. */
  method GenerateRandomIndex(size: nat, draws: seq<nat>) returns (perm: seq<nat>)
    requires ValidDraws(draws, size)
    ensures IsPermutation(perm, size)
  {
    var a := new nat[size](i requires 0 <= i => i);
    assert a[..] == Iota(size);
    var i := size;
    while i > 1
      invariant 0 <= i <= size
      invariant multiset(a[..]) == multiset(Iota(size))
    {
      i := i - 1;
      var j := draws[i];
      a[i], a[j] := a[j], a[i];
    }
    perm := a[..];
  }

  /* ------------------------------------------------------- means, scatter */

  /** Every listed index names a row of X. */
  ghost predicate RowsIn(X: Matrix, idx: seq<nat>)
  {
    forall j :: 0 <= j < |idx| ==> idx[j] < |X.rows|
  }

  /** Running vector sum `sum += X.row(idx[j])` over the listed rows. */
  function SumRows(X: Matrix, idx: seq<nat>): (s: Point)
    requires X.Valid() && RowsIn(X, idx)
    ensures |s| == X.nCols
  {
    if |idx| == 0 then seq(X.nCols, _ => 0.0)
    else VecAdd(SumRows(X, idx[..|idx| - 1]), X.rows[idx[|idx| - 1]])
  }

  /** Coordinate c of the running sum is the sum of coordinate c over the rows. */
  lemma {:induction false} SumRowsCoord(X: Matrix, idx: seq<nat>, c: nat)
    requires X.Valid() && RowsIn(X, idx) && c < X.nCols
    ensures SumRows(X, idx)[c] == SumReal(seq(|idx|, j requires 0 <= j < |idx| => X.rows[idx[j]][c]))
  {
    var s := seq(|idx|, j requires 0 <= j < |idx| => X.rows[idx[j]][c]);
    if |idx| > 0 {
      var p := idx[..|idx| - 1];
      SumRowsCoord(X, p, c);
      assert s[..|s| - 1] == seq(|p|, j requires 0 <= j < |p| => X.rows[p[j]][c]);
    }
  }

  /** Coordinate-wise mean of the listed rows: their sum divided by their number. */
  function Mean(X: Matrix, idx: seq<nat>): (m: Point)
    requires X.Valid() && RowsIn(X, idx) && |idx| > 0
    ensures |m| == X.nCols
    ensures forall c :: 0 <= c < X.nCols ==>
      m[c] == SumReal(seq(|idx|, j requires 0 <= j < |idx| => X.rows[idx[j]][c])) / |idx| as real
  {
    var m := VecDiv(SumRows(X, idx), |idx| as real);
    assert forall c :: 0 <= c < X.nCols ==>
      m[c] == SumReal(seq(|idx|, j requires 0 <= j < |idx| => X.rows[idx[j]][c])) / |idx| as real by {
      forall c | 0 <= c < X.nCols
        ensures m[c] == SumReal(seq(|idx|, j requires 0 <= j < |idx| => X.rows[idx[j]][c])) / |idx| as real
      {
        SumRowsCoord(X, idx, c);
      }
    }
    m
  }

  /** Mean of all rows (X.colwise().mean()). */
  function ColMean(X: Matrix): (m: Point)
    requires X.Valid() && |X.rows| > 0
    ensures |m| == X.nCols
  {
    Mean(X, Iota(|X.rows|))
  }

  /** The terms (x_ia - m_a) * w_i * (x_ib - m_b), one per row i. */
  function ScatterTerms(X: Matrix, w: seq<real>, m: Point, a: nat, b: nat): (t: seq<real>)
    requires X.Valid() && |w| == |X.rows| && |m| == X.nCols && a < X.nCols && b < X.nCols
    ensures |t| == |X.rows|
    ensures forall i :: 0 <= i < |X.rows| ==> t[i] == (X.rows[i][a] - m[a]) * w[i] * (X.rows[i][b] - m[b])
  {
    seq(|X.rows|, i requires 0 <= i < |X.rows| => (X.rows[i][a] - m[a]) * w[i] * (X.rows[i][b] - m[b]))
  }

  /** Entry (a, b) of the weighted scatter about m: the sum of its terms. */
  function ScatterEntry(X: Matrix, w: seq<real>, m: Point, a: nat, b: nat): real
    requires X.Valid() && |w| == |X.rows| && |m| == X.nCols && a < X.nCols && b < X.nCols
  {
    SumReal(ScatterTerms(X, w, m, a, b))
  }

  /** The scatter is the same read either way round. */
  lemma ScatterEntrySymmetric(X: Matrix, w: seq<real>, m: Point, a: nat, b: nat)
    requires X.Valid() && |w| == |X.rows| && |m| == X.nCols && a < X.nCols && b < X.nCols
    ensures ScatterEntry(X, w, m, a, b) == ScatterEntry(X, w, m, b, a)
  {
    var s1, s2 := ScatterTerms(X, w, m, a, b), ScatterTerms(X, w, m, b, a);
    forall i | 0 <= i < |X.rows| ensures s1[i] == s2[i] {
      var u, v := X.rows[i][a] - m[a], X.rows[i][b] - m[b];
      assert u * w[i] * v == v * w[i] * u;
    }
    assert s1 == s2;
  }

  ghost predicate IsSquare(S: Matrix, d: nat)
  {
    S.nCols == d && |S.rows| == d && S.Valid()
  }

  ghost predicate IsSymmetric(S: Matrix)
    requires IsSquare(S, S.nCols)
  {
    forall a, b :: 0 <= a < S.nCols && 0 <= b < S.nCols ==> S.rows[a][b] == S.rows[b][a]
  }

  /** Row a of the scatter matrix divided by divisor. */
  function ScatterRow(X: Matrix, w: seq<real>, m: Point, divisor: real, a: nat): (r: seq<real>)
    requires X.Valid() && |w| == |X.rows| && |m| == X.nCols && divisor != 0.0 && a < X.nCols
    ensures |r| == X.nCols
    ensures forall b :: 0 <= b < X.nCols ==> r[b] == ScatterEntry(X, w, m, a, b) / divisor
  {
    seq(X.nCols, b requires 0 <= b < X.nCols => ScatterEntry(X, w, m, a, b) / divisor)
  }

  /** centered^T * diag(w) * centered / divisor, with centered = X - m row-wise. */
  function Scatter(X: Matrix, w: seq<real>, m: Point, divisor: real): (S: Matrix)
    requires X.Valid() && |w| == |X.rows| && |m| == X.nCols && divisor != 0.0
    ensures IsSquare(S, X.nCols) && IsSymmetric(S)
    ensures forall a, b :: 0 <= a < X.nCols && 0 <= b < X.nCols ==> S.rows[a][b] == ScatterEntry(X, w, m, a, b) / divisor
  {
    var d := X.nCols;
    var S := Matrix(d, seq(d, a requires 0 <= a < d => ScatterRow(X, w, m, divisor, a)));
    assert forall a, b :: 0 <= a < d && 0 <= b < d ==> S.rows[a][b] == S.rows[b][a] by {
      forall a, b | 0 <= a < d && 0 <= b < d ensures S.rows[a][b] == S.rows[b][a] {
        ScatterEntrySymmetric(X, w, m, a, b);
      }
    }
    S
  }

  /** A density N(x | mean, covariance), as multivariate_normal computes it;
      its matrix inverse, determinant and exponential are not part of this
      model. */
  type Density = (Point, Point, Matrix) -> real

  /** phi[k] * N(x | mu[k], sigma[k]) for every component k: the mixture
      terms of the E-step and the prior-weighted class densities of naive
      Bayes. */
  function Weighted(x: Point, phi: seq<real>, mu: seq<Point>, sigma: seq<Matrix>, pdf: Density): (w: seq<real>)
    requires |mu| == |phi| && |sigma| == |phi|
    ensures |w| == |phi| && forall k :: 0 <= k < |phi| ==> w[k] == phi[k] * pdf(x, mu[k], sigma[k])
  {
    seq(|phi|, k requires 0 <= k < |phi| => phi[k] * pdf(x, mu[k], sigma[k]))
  }

  /** A weight of one for each of n rows. */
  function Ones(n: nat): (w: seq<real>)
    ensures |w| == n
  {
    seq(n, _ => 1.0)
  }

  /** covariance_matrix: sample covariance of the rows, divided by rows - 1; a
      D x D symmetric matrix. It needs two rows: with one the source divides by zero. */
  function Covariance(X: Matrix): (S: Matrix)
    requires X.Valid() && |X.rows| >= 2
    ensures IsSquare(S, X.nCols) && IsSymmetric(S)
    ensures forall a, b :: 0 <= a < X.nCols && 0 <= b < X.nCols ==>
      S.rows[a][b] == ScatterEntry(X, Ones(|X.rows|), ColMean(X), a, b) / (|X.rows| - 1) as real
  {
    Scatter(X, Ones(|X.rows|), ColMean(X), (|X.rows| - 1) as real)
  }

  /** The rows of X listed in idx, as a matrix with X's column count. */
  function SelectRows(X: Matrix, idx: seq<nat>): (Y: Matrix)
    requires X.Valid() && RowsIn(X, idx)
    ensures Y.Valid() && Y.nCols == X.nCols && |Y.rows| == |idx|
    ensures forall j :: 0 <= j < |idx| ==> Y.rows[j] == X.rows[idx[j]]
  {
    Matrix(X.nCols, seq(|idx|, j requires 0 <= j < |idx| => X.rows[idx[j]]))
  }
}

=== FILE: decision_tree.dfy ===
/** Classification tree grown greedily on questions "feature col >= value".
    Each node keeps the class counts of the training rows that reach it;
    a node is split on the question with the best information gain when
    that gain is at least MinGain, and prediction walks a row down to a
    leaf and reports the leaf's most frequent class. The impurity measure
    (gini / entropy and info_gain) is a parameter of the model. */
module DecisionTreeModel {
  import opened Results
  import opened Algorithms
  import opened Common

  /** The test "feature `col` is at least `value`", with the gain it achieved. */
  datatype Question = Question(col: nat, value: real, gain: real)

  /** What find_best_question starts from, and returns when no question qualifies. */
  const NoQuestion := Question(0, 0.0, 0.0)

  /** build_tree splits a node only when its best question gains at least this much. */
  const MinGain: real := 0.2

  /** Information gain of sending a node's rows to (left, right). The rows'
      labels are fixed, so the gain depends only on the two lists. */
  type Gain = (seq<nat>, seq<nat>) -> real

  /** Question::match: the row answers "yes" when its feature reaches the value. */
  predicate Match(q: Question, x: Point)
    requires q.col < |x|
  {
    x[q.col] >= q.value
  }

  /* ---------------------------------------------------------- split_node */

  /** The rows of `split`, in their order, whose answer to q is `answer`. */
  function Side(q: Question, X: Matrix, split: seq<nat>, answer: bool): (s: seq<nat>)
    requires X.Valid() && RowsIn(X, split) && q.col < X.nCols
    ensures |s| <= |split| && RowsIn(X, s)
    ensures forall k :: 0 <= k < |s| ==> Match(q, X.rows[s[k]]) == answer
  {
    if |split| == 0 then []
    else
      var i := split[|split| - 1];
      Side(q, X, split[..|split| - 1], answer) + (if Match(q, X.rows[i]) == answer then [i] else [])
  }

  /** Splitting distributes over concatenation, so each side keeps the rows' order. */
  lemma {:induction false} SideKeepsOrder(q: Question, X: Matrix, a: seq<nat>, b: seq<nat>, answer: bool)
    requires X.Valid() && RowsIn(X, a) && RowsIn(X, b) && q.col < X.nCols
    ensures RowsIn(X, a + b)
    ensures Side(q, X, a + b, answer) == Side(q, X, a, answer) + Side(q, X, b, answer)
  {
    assert RowsIn(X, a + b) by {
      forall j | 0 <= j < |a + b| ensures (a + b)[j] < |X.rows| {
        if j >= |a| { assert (a + b)[j] == b[j - |a|]; }
      }
    }
    if |b| > 0 {
      var p := b[..|b| - 1];
      assert (a + b)[..|a + b| - 1] == a + p;
      SideKeepsOrder(q, X, a, p, answer);
    } else {
      assert a + b == a;
    }
  }

  /** Every row of the node lands on the side of its answer. */
  lemma {:induction false} SideMembers(q: Question, X: Matrix, split: seq<nat>, j: nat)
    requires X.Valid() && RowsIn(X, split) && q.col < X.nCols && j < |split|
    ensures split[j] in Side(q, X, split, Match(q, X.rows[split[j]]))
  {
    var p := split[..|split| - 1];
    if j < |p| {
      assert split[j] == p[j];
      SideMembers(q, X, p, j);
    }
  }

  /** split_node: one pass over the node's rows, pushing each to the side of its answer. */
  method SplitNode(q: Question, X: Matrix, split: seq<nat>) returns (left: seq<nat>, right: seq<nat>)
    requires X.Valid() && RowsIn(X, split) && q.col < X.nCols
    ensures left == Side(q, X, split, true) && right == Side(q, X, split, false)
  {
    left, right := [], [];
    for j := 0 to |split|
      invariant left == Side(q, X, split[..j], true)
      invariant right == Side(q, X, split[..j], false)
    {
      assert split[..j + 1][..j] == split[..j];
      if Match(q, X.rows[split[j]]) {
        left := left + [split[j]];
      } else {
        right := right + [split[j]];
      }
    }
    assert split[..|split|] == split;
  }

  /* --------------------------------------------------------- count_class */

  /** Class counts of a node: one entry per class 0..max(Y), the largest label
      over ALL of Y, counting how many of the node's rows carry that label. */
  function ClassCounts(Y: seq<nat>, split: seq<nat>): (counts: seq<nat>)
    requires |Y| > 0 && AllBelow(split, |Y|)
    ensures |counts| == MaxNat(Y) + 1
    ensures forall c :: 0 <= c < |counts| ==> counts[c] == multiset(Pick<nat>(Y, split))[c]
  {
    Histogram(Pick(Y, split), MaxNat(Y) + 1)
  }

  /** The counts of a node add up to the number of its rows. */
  lemma ClassCountsTotal(Y: seq<nat>, split: seq<nat>)
    requires |Y| > 0 && AllBelow(split, |Y|)
    ensures SumNat(ClassCounts(Y, split)) == |split|
  {
    HistogramTotal(Pick(Y, split), MaxNat(Y) + 1);
  }

  /** count_class: size the table by max(Y) + 1, then one increment per row of the node. */
  method CountClass(Y: seq<nat>, split: seq<nat>) returns (counts: seq<nat>)
    requires |Y| > 0 && AllBelow(split, |Y|)
    ensures counts == ClassCounts(Y, split)
  {
    var n := MaxNat(Y) + 1;
    ghost var labels := Pick(Y, split);
    assert AllBelow(labels, n);
    counts := seq(n, _ => 0);
    for j := 0 to |split|
      invariant counts == Histogram(labels[..j], n)
    {
      var y := Y[split[j]];
      assert labels[..j + 1][..j] == labels[..j] && labels[j] == y;
      assert Histogram(labels[..j + 1], n) == counts[y := counts[y] + 1];
      counts := counts[y := counts[y] + 1];
    }
    assert labels[..|split|] == labels;
  }

  /** Sending rows to the two sides splits the class counts entry by entry. */
  lemma {:induction false} SideLabels(q: Question, X: Matrix, Y: seq<nat>, split: seq<nat>)
    requires X.Valid() && |Y| == |X.rows| && RowsIn(X, split) && q.col < X.nCols
    ensures multiset(Pick(Y, Side(q, X, split, true))) + multiset(Pick(Y, Side(q, X, split, false)))
         == multiset(Pick(Y, split))
  {
    if |split| > 0 {
      var p := split[..|split| - 1];
      var i := split[|split| - 1];
      SideLabels(q, X, Y, p);
      assert Pick(Y, split) == Pick(Y, p) + [Y[i]];
      var a, b := Side(q, X, p, true), Side(q, X, p, false);
      if Match(q, X.rows[i]) {
        assert Side(q, X, split, true) == a + [i];
        assert Pick(Y, a + [i]) == Pick(Y, a) + [Y[i]];
        assert Side(q, X, split, false) == b;
      } else {
        assert Side(q, X, split, false) == b + [i];
        assert Pick(Y, b + [i]) == Pick(Y, b) + [Y[i]];
        assert Side(q, X, split, true) == a;
      }
    }
  }

  /** The two sides partition the node's rows: the labels of a row are its
      own index under Iota. */
  lemma SidePartition(q: Question, X: Matrix, split: seq<nat>)
    requires X.Valid() && RowsIn(X, split) && q.col < X.nCols
    ensures multiset(Side(q, X, split, true)) + multiset(Side(q, X, split, false)) == multiset(split)
  {
    var ids := Iota(|X.rows|);
    SideLabels(q, X, ids, split);
    assert Pick(ids, split) == split;
    assert Pick(ids, Side(q, X, split, true)) == Side(q, X, split, true);
    assert Pick(ids, Side(q, X, split, false)) == Side(q, X, split, false);
  }

  /** The class counts of a node are those of its two sides added entry by entry. */
  lemma SideCounts(q: Question, X: Matrix, Y: seq<nat>, split: seq<nat>)
    requires X.Valid() && |Y| == |X.rows| && |Y| > 0 && RowsIn(X, split) && q.col < X.nCols
    ensures forall k :: 0 <= k <= MaxNat(Y) ==>
      ClassCounts(Y, split)[k] == ClassCounts(Y, Side(q, X, split, true))[k] + ClassCounts(Y, Side(q, X, split, false))[k]
  {
    SideLabels(q, X, Y, split);
  }

  /* --------------------------------------------------- get_unique_values */

  /** Feature c of the listed rows, in their order. */
  function ColumnValues(X: Matrix, split: seq<nat>, c: nat): (v: seq<real>)
    requires X.Valid() && RowsIn(X, split) && c < X.nCols
    ensures |v| == |split| && forall j :: 0 <= j < |split| ==> v[j] == X.rows[split[j]][c]
  {
    seq(|split|, j requires 0 <= j < |split| => X.rows[split[j]][c])
  }

  /** get_unique_values: keep a value the first time it is met. The result is
      Dedup of the column, so it holds each value once, in order of first appearance. */
  method UniqueValues(X: Matrix, split: seq<nat>, c: nat) returns (unique: seq<real>)
    requires X.Valid() && RowsIn(X, split) && c < X.nCols
    ensures unique == Dedup(ColumnValues(X, split, c))
  {
    ghost var v := ColumnValues(X, split, c);
    unique := [];
    for j := 0 to |split|
      invariant unique == Dedup(v[..j])
    {
      assert v[..j + 1][..j] == v[..j];
      var x := X.rows[split[j]][c];
      if x !in unique {
        unique := unique + [x];
      }
    }
    assert v[..|split|] == v;
  }

  /* ---------------------------------------------------- erase_taken_col */

  /** cols with every occurrence of c removed, order kept. */
  function Without(cols: seq<nat>, c: nat): (r: seq<nat>)
    ensures |r| <= |cols|
    ensures forall x :: x in r <==> x in cols && x != c
  {
    if |cols| == 0 then []
    else
      var p := cols[..|cols| - 1];
      var x := cols[|cols| - 1];
      assert cols == p + [x];
      Without(p, c) + (if x != c then [x] else [])
  }

  /** Erasing a column that is present strictly shortens the list: the recursion's measure. */
  lemma {:induction false} WithoutShrinks(cols: seq<nat>, c: nat)
    requires c in cols
    ensures |Without(cols, c)| < |cols|
  {
    var p := cols[..|cols| - 1];
    assert cols == p + [cols[|cols| - 1]];
    if cols[|cols| - 1] != c {
      WithoutShrinks(p, c);
    }
  }

  /** Erasing keeps every remaining column below the bound the list had. */
  lemma {:induction false} WithoutBelow(cols: seq<nat>, c: nat, d: nat)
    requires AllBelow(cols, d)
    ensures AllBelow(Without(cols, c), d)
  {
    if |cols| > 0 {
      WithoutBelow(cols[..|cols| - 1], c, d);
    }
  }

  /** erase_taken_col: copy every column except the one the question used. */
  method EraseTakenCol(q: Question, cols: seq<nat>) returns (rest: seq<nat>)
    ensures rest == Without(cols, q.col)
  {
    rest := [];
    for j := 0 to |cols|
      invariant rest == Without(cols[..j], q.col)
    {
      assert cols[..j + 1][..j] == cols[..j];
      if cols[j] != q.col {
        rest := rest + [cols[j]];
      }
    }
    assert cols[..|cols|] == cols;
  }

  /* ------------------------------------------------- find_best_question */

  /** A question find_best_question tries: a column and one of its values at the node. */
  datatype Candidate = Candidate(col: nat, value: real)

  function Asked(c: Candidate): Question
  {
    Question(c.col, c.value, 0.0)
  }

  /** The questions tried for column c, in the order of its unique values. */
  function ColumnCandidates(X: Matrix, split: seq<nat>, c: nat): (cs: seq<Candidate>)
    requires X.Valid() && RowsIn(X, split) && c < X.nCols
    ensures var u := Dedup(ColumnValues(X, split, c));
      |cs| == |u| && forall k :: 0 <= k < |u| ==> cs[k] == Candidate(c, u[k])
  {
    var u := Dedup(ColumnValues(X, split, c));
    seq(|u|, k requires 0 <= k < |u| => Candidate(c, u[k]))
  }

  /** Every question tried at a node, column by column in the order of cols. */
  function Candidates(X: Matrix, split: seq<nat>, cols: seq<nat>): (cs: seq<Candidate>)
    requires X.Valid() && RowsIn(X, split) && AllBelow(cols, X.nCols)
    ensures forall k :: 0 <= k < |cs| ==> cs[k].col in cols && cs[k].col < X.nCols
  {
    if |cols| == 0 then []
    else
      var p := cols[..|cols| - 1];
      var tail := ColumnCandidates(X, split, cols[|cols| - 1]);
      var head := Candidates(X, split, p);
      assert forall k :: 0 <= k < |head| ==> head[k].col in cols by {
        forall k | 0 <= k < |head| ensures head[k].col in cols {
          var x :| x in p && x == head[k].col;
          assert cols == p + [cols[|cols| - 1]];
        }
      }
      head + tail
  }

  /** A question is only scored when both sides are non-empty. */
  predicate Qualifies(X: Matrix, split: seq<nat>, c: Candidate)
    requires X.Valid() && RowsIn(X, split) && c.col < X.nCols
  {
    |Side(Asked(c), X, split, true)| > 0 && |Side(Asked(c), X, split, false)| > 0
  }

  function GainOf(X: Matrix, split: seq<nat>, c: Candidate, gain: Gain): real
    requires X.Valid() && RowsIn(X, split) && c.col < X.nCols
  {
    gain(Side(Asked(c), X, split, true), Side(Asked(c), X, split, false))
  }

  ghost predicate ColsBelow(cs: seq<Candidate>, d: nat)
  {
    forall k :: 0 <= k < |cs| ==> cs[k].col < d
  }

  /** One step of the scan: a qualifying candidate replaces `best` when its
      gain is at least as large. */
  function Consider(X: Matrix, split: seq<nat>, best: Question, c: Candidate, gain: Gain): Question
    requires X.Valid() && RowsIn(X, split) && c.col < X.nCols
  {
    if Qualifies(X, split, c) && GainOf(X, split, c, gain) >= best.gain
    then Question(c.col, c.value, GainOf(X, split, c, gain))
    else best
  }

  /** The scan over the candidates cs, in order, from the question `start`. */
  function Scan(X: Matrix, split: seq<nat>, cs: seq<Candidate>, gain: Gain, start: Question): Question
    requires X.Valid() && RowsIn(X, split) && ColsBelow(cs, X.nCols)
  {
    if |cs| == 0 then start
    else Consider(X, split, Scan(X, split, cs[..|cs| - 1], gain, start), cs[|cs| - 1], gain)
  }

  /** Scanning a concatenation is scanning the second part from where the first stopped. */
  lemma {:induction false} ScanAppend(X: Matrix, split: seq<nat>, a: seq<Candidate>, b: seq<Candidate>, gain: Gain, start: Question)
    requires X.Valid() && RowsIn(X, split) && ColsBelow(a, X.nCols) && ColsBelow(b, X.nCols)
    ensures ColsBelow(a + b, X.nCols)
    ensures Scan(X, split, a + b, gain, start) == Scan(X, split, b, gain, Scan(X, split, a, gain, start))
  {
    if |b| == 0 {
      assert a + b == a;
    } else {
      var p := b[..|b| - 1];
      assert (a + b)[..|a + b| - 1] == a + p;
      ScanAppend(X, split, a, p, gain, start);
    }
  }

  /** The question find_best_question returns for the candidates cs. */
  function BestOf(X: Matrix, split: seq<nat>, cs: seq<Candidate>, gain: Gain): Question
    requires X.Valid() && RowsIn(X, split) && ColsBelow(cs, X.nCols)
  {
    Scan(X, split, cs, gain, NoQuestion)
  }

  /** b is candidate k with its gain, and no qualifying candidate after k
      reaches that gain (a later tie would have replaced it). */
  ghost predicate ChosenAt(X: Matrix, split: seq<nat>, cs: seq<Candidate>, gain: Gain, b: Question, k: int)
    requires X.Valid() && RowsIn(X, split) && ColsBelow(cs, X.nCols)
  {
    0 <= k < |cs| && Qualifies(X, split, cs[k])
    && b == Question(cs[k].col, cs[k].value, GainOf(X, split, cs[k], gain))
    && forall j :: k < j < |cs| && Qualifies(X, split, cs[j]) ==> GainOf(X, split, cs[j], gain) < b.gain
  }

  /** The selected question has the largest gain among the qualifying ones and
      never a negative gain. */
  lemma {:induction false} BestOfIsMax(X: Matrix, split: seq<nat>, cs: seq<Candidate>, gain: Gain)
    requires X.Valid() && RowsIn(X, split) && ColsBelow(cs, X.nCols)
    ensures BestOf(X, split, cs, gain).gain >= 0.0
    ensures forall k :: 0 <= k < |cs| && Qualifies(X, split, cs[k]) ==>
      GainOf(X, split, cs[k], gain) <= BestOf(X, split, cs, gain).gain
  {
    if |cs| > 0 {
      var p := cs[..|cs| - 1];
      BestOfIsMax(X, split, p, gain);
      assert forall k :: 0 <= k < |p| ==> cs[k] == p[k];
    }
  }

  /** The selected question is the LAST qualifying candidate reaching its gain;
      when no candidate has a non-negative gain the default question (column 0,
      value 0, gain 0) stays. */
  lemma {:induction false} BestOfIsLast(X: Matrix, split: seq<nat>, cs: seq<Candidate>, gain: Gain)
    requires X.Valid() && RowsIn(X, split) && ColsBelow(cs, X.nCols)
    ensures BestOf(X, split, cs, gain) == NoQuestion
      || exists k :: ChosenAt(X, split, cs, gain, BestOf(X, split, cs, gain), k)
  {
    if |cs| > 0 {
      var p := cs[..|cs| - 1];
      var n := |cs| - 1;
      BestOfIsLast(X, split, p, gain);
      var prev := BestOf(X, split, p, gain);
      var b := BestOf(X, split, cs, gain);
      if Qualifies(X, split, cs[n]) && GainOf(X, split, cs[n], gain) >= prev.gain {
        assert ChosenAt(X, split, cs, gain, b, n);
      } else if prev != NoQuestion {
        var k :| ChosenAt(X, split, p, gain, prev, k);
        assert b == prev;
        assert forall j :: 0 <= j < |p| ==> cs[j] == p[j];
        assert ChosenAt(X, split, cs, gain, b, k);
      }
    }
  }

  /** A question gaining at least MinGain was really tried, so its column is in cols. */
  lemma TakenColumn(X: Matrix, split: seq<nat>, cols: seq<nat>, gain: Gain)
    requires X.Valid() && RowsIn(X, split) && AllBelow(cols, X.nCols)
    requires BestOf(X, split, Candidates(X, split, cols), gain).gain >= MinGain
    ensures BestOf(X, split, Candidates(X, split, cols), gain).col in cols
  {
    var cs := Candidates(X, split, cols);
    BestOfIsLast(X, split, cs, gain);
    var k :| ChosenAt(X, split, cs, gain, BestOf(X, split, cs, gain), k);
  }

  /** The inner loop of find_best_question over the unique values of column c:
      score each question when both sides are non-empty and keep it on a gain
      at least the best so far. */
  method ScanColumn(X: Matrix, split: seq<nat>, c: nat, gain: Gain, start: Question) returns (best: Question)
    requires X.Valid() && RowsIn(X, split) && c < X.nCols
    ensures best == Scan(X, split, ColumnCandidates(X, split, c), gain, start)
  {
    var unique := UniqueValues(X, split, c);
    ghost var here := ColumnCandidates(X, split, c);
    best := start;
    for j := 0 to |unique|
      invariant best == Scan(X, split, here[..j], gain, start)
    {
      ghost var cand, prev := here[j], best;
      assert here[..j + 1][..j] == here[..j];
      assert Scan(X, split, here[..j + 1], gain, start) == Consider(X, split, prev, cand, gain);
      var q := Question(c, unique[j], 0.0);
      assert q == Asked(cand);
      var left, right := SplitNode(q, X, split);
      if |left| > 0 && |right| > 0 {
        var g := gain(left, right);
        if g >= best.gain {
          best := Question(c, unique[j], g);
        }
      }
      assert best == Consider(X, split, prev, cand, gain);
    }
    assert here[..|unique|] == here;
  }

  /** find_best_question: start from the default question and scan the columns in order. */
  method FindBestQuestion(X: Matrix, split: seq<nat>, cols: seq<nat>, gain: Gain) returns (best: Question)
    requires X.Valid() && RowsIn(X, split) && AllBelow(cols, X.nCols)
    ensures best == BestOf(X, split, Candidates(X, split, cols), gain)
  {
    best := NoQuestion;
    for i := 0 to |cols|
      invariant best == BestOf(X, split, Candidates(X, split, cols[..i]), gain)
    {
      assert cols[..i + 1][..i] == cols[..i];
      ScanAppend(X, split, Candidates(X, split, cols[..i]), ColumnCandidates(X, split, cols[i]), gain, NoQuestion);
      best := ScanColumn(X, split, cols[i], gain, best);
    }
    assert cols[..|cols|] == cols;
  }

  /* ---------------------------------------------------------- build_tree */

  /** A node with its class counts; an inner node also has its question and
      both children (build_tree gives a node both children or none). */
  datatype Tree =
    | Leaf(counts: seq<nat>)
    | Inner(counts: seq<nat>, q: Question, left: Tree, right: Tree)

  function Height(t: Tree): nat
  {
    match t
    case Leaf(_) => 0
    case Inner(_, _, l, r) => 1 + if Height(l) < Height(r) then Height(r) else Height(l)
  }

  /** Every question asks about a feature below d. */
  ghost predicate ColumnsBelow(t: Tree, d: nat)
  {
    match t
    case Leaf(_) => true
    case Inner(_, q, l, r) => q.col < d && ColumnsBelow(l, d) && ColumnsBelow(r, d)
  }

  /** Every node counts n classes, every split gained at least MinGain, and a
      node's counts are its children's counts added entry by entry. */
  ghost predicate Consistent(t: Tree, n: nat)
  {
    |t.counts| == n &&
    match t
    case Leaf(_) => true
    case Inner(c, q, l, r) =>
      q.gain >= MinGain && Consistent(l, n) && Consistent(r, n)
      && forall k :: 0 <= k < n ==> c[k] == l.counts[k] + r.counts[k]
  }

  /** t is the tree build_tree grows for the rows `split` and the columns
      `cols`: every node holds the class counts of its rows; it has children
      exactly when its best question gains at least MinGain; then it asks that
      question, and its children are grown from the "yes" and the "no" rows
      with the question's column erased. */
  ghost predicate Grown(t: Tree, X: Matrix, Y: seq<nat>, split: seq<nat>, cols: seq<nat>, gain: Gain)
    requires X.Valid() && |Y| == |X.rows| && |Y| > 0 && RowsIn(X, split) && AllBelow(cols, X.nCols)
    decreases t
  {
    var best := BestOf(X, split, Candidates(X, split, cols), gain);
    t.counts == ClassCounts(Y, split) &&
    match t
    case Leaf(_) => best.gain < MinGain
    case Inner(_, q, l, r) =>
      best.gain >= MinGain && q == best &&
      (TakenColumn(X, split, cols, gain);
       WithoutBelow(cols, q.col, X.nCols);
       Grown(l, X, Y, Side(q, X, split, true), Without(cols, q.col), gain)
       && Grown(r, X, Y, Side(q, X, split, false), Without(cols, q.col), gain))
  }

  /** The rows, the columns and the gain determine the grown tree. */
  lemma {:induction false} GrownUnique(t: Tree, u: Tree, X: Matrix, Y: seq<nat>, split: seq<nat>, cols: seq<nat>, gain: Gain)
    requires X.Valid() && |Y| == |X.rows| && |Y| > 0 && RowsIn(X, split) && AllBelow(cols, X.nCols)
    requires Grown(t, X, Y, split, cols, gain) && Grown(u, X, Y, split, cols, gain)
    ensures t == u
    decreases t
  {
    if t.Inner? {
      var q := t.q;
      TakenColumn(X, split, cols, gain);
      WithoutBelow(cols, q.col, X.nCols);
      GrownUnique(t.left, u.left, X, Y, Side(q, X, split, true), Without(cols, q.col), gain);
      GrownUnique(t.right, u.right, X, Y, Side(q, X, split, false), Without(cols, q.col), gain);
    }
  }

  /** build_tree: count the node's classes, pick the best question, and split
      on it (recursing with that column erased) when its gain reaches MinGain. */
  method BuildTree(X: Matrix, Y: seq<nat>, split: seq<nat>, cols: seq<nat>, gain: Gain) returns (node: Tree)
    requires X.Valid() && |Y| == |X.rows| && |Y| > 0 && RowsIn(X, split) && AllBelow(cols, X.nCols)
    ensures Grown(node, X, Y, split, cols, gain)
    ensures node.counts == ClassCounts(Y, split)
    ensures node.Inner? <==> BestOf(X, split, Candidates(X, split, cols), gain).gain >= MinGain
    ensures node.Inner? ==> node.q == BestOf(X, split, Candidates(X, split, cols), gain)
    ensures Consistent(node, MaxNat(Y) + 1) && ColumnsBelow(node, X.nCols)
    ensures Height(node) <= |cols|
    decreases |cols|
  {
    var counts := CountClass(Y, split);
    var q := FindBestQuestion(X, split, cols, gain);
    if q.gain >= MinGain {
      TakenColumn(X, split, cols, gain);
      WithoutShrinks(cols, q.col);
      WithoutBelow(cols, q.col, X.nCols);
      var left, right := SplitNode(q, X, split);
      var rest := EraseTakenCol(q, cols);
      var l := BuildTree(X, Y, left, rest, gain);
      var r := BuildTree(X, Y, right, rest, gain);
      SideCounts(q, X, Y, split);
      node := Inner(counts, q, l, r);
    } else {
      node := Leaf(counts);
    }
  }

  /* ---------------------------------------------- find_leaf_node, predict */

  /** The leaf a row reaches: go left on a "yes", right on a "no". */
  function LeafOf(t: Tree, x: Point): (leaf: Tree)
    requires ColumnsBelow(t, |x|)
    ensures leaf.Leaf?
  {
    match t
    case Leaf(_) => t
    case Inner(_, q, l, r) => if Match(q, x) then LeafOf(l, x) else LeafOf(r, x)
  }

  /** The leaf a row reaches counts the same classes, none more often than the node it started from. */
  lemma {:induction false} LeafOfCounts(t: Tree, x: Point, n: nat)
    requires ColumnsBelow(t, |x|) && Consistent(t, n)
    ensures |LeafOf(t, x).counts| == n
    ensures forall k :: 0 <= k < n ==> LeafOf(t, x).counts[k] <= t.counts[k]
  {
    match t
    case Leaf(_) =>
    case Inner(_, q, l, r) =>
      if Match(q, x) { LeafOfCounts(l, x, n); } else { LeafOfCounts(r, x, n); }
  }

  /** find_leaf_node: descend while the node has children. */
  method FindLeafNode(x: Point, root: Tree) returns (leaf: Tree)
    requires ColumnsBelow(root, |x|)
    ensures leaf == LeafOf(root, x)
  {
    var node := root;
    while node.Inner?
      invariant ColumnsBelow(node, |x|) && LeafOf(node, x) == LeafOf(root, x)
      decreases node
    {
      if Match(node.q, x) {
        node := node.left;
      } else {
        node := node.right;
      }
    }
    leaf := node;
  }

  /** DecisionTree: the root is null until fit. The ghost fields record the
      number of classes and features the tree was grown on. */
  class DecisionTree {
    var root: Option<Tree>
    ghost var classes: nat
    ghost var features: nat

    ghost predicate Valid()
      reads this
    {
      root.Some? ==> classes > 0 && Consistent(root.value, classes) && ColumnsBelow(root.value, features)
    }

    constructor()
      ensures Valid() && root == None
    {
      root := None;
      classes := 0;
      features := 0;
    }

    /** fit: grow the tree from all rows and all columns. */
    method Fit(X: Matrix, Y: seq<nat>, gain: Gain)
      requires X.Valid() && |Y| == |X.rows| && |Y| > 0
      modifies this
      ensures Valid() && root.Some?
      ensures classes == MaxNat(Y) + 1 && features == X.nCols
      ensures Grown(root.value, X, Y, Iota(|Y|), Iota(X.nCols), gain)
      ensures root.value.counts == ClassCounts(Y, Iota(|Y|))
      ensures Height(root.value) <= X.nCols
    {
      var tree := BuildTree(X, Y, Iota(|Y|), Iota(X.nCols), gain);
      root := Some(tree);
      classes := MaxNat(Y) + 1;
      features := X.nCols;
    }

    /** predict: each row gets the first most frequent class of the leaf it reaches. */
    method Predict(X: Matrix) returns (labels: seq<nat>)
      requires Valid() && root.Some? && X.Valid() && X.nCols == features
      ensures |labels| == |X.rows|
      ensures forall i :: 0 <= i < |X.rows| ==>
        labels[i] < classes && IsFirstMax(AsReals(LeafOf(root.value, X.rows[i]).counts), labels[i])
    {
      labels := [];
      for i := 0 to |X.rows|
        invariant |labels| == i
        invariant forall j :: 0 <= j < i ==>
          labels[j] < classes && IsFirstMax(AsReals(LeafOf(root.value, X.rows[j]).counts), labels[j])
      {
        var leaf := FindLeafNode(X.rows[i], root.value);
        LeafOfCounts(root.value, X.rows[i], classes);
        labels := labels + [ArgMax(AsReals(leaf.counts))];
      }
    }
  }
}

=== FILE: file_manage.dfy ===
/** CSV reading of headers/file_manage.h: splitting a line into its comma
    fields as `getline(ss, str, ',')` does, the row/column count of a file,
    the numeric-token test and read_csv, which skips the header line and
    turns every later record into a row of features and one label. The file
    is given as its lines; `std::stof` is a parameter. */
module FileManage {
  import opened Results
  import opened Algorithms

  /** What the readers leave behind: the shape the feature matrix and the
      label vector were resized to, and the entries the loops wrote. An entry
      absent from a map was never written (Eigen leaves it uninitialised). */
  datatype Table<L> = Table(rows: nat, cols: nat, features: map<(nat, nat), real>, labels: map<nat, L>)

  /* ------------------------------------------------------------ fields */

  /** Where getline(ss, str, ',') started at pos stops: the first comma at or
      after pos, or the end of the line. */
  function NextComma(line: string, pos: nat): (e: nat)
    requires pos <= |line|
    ensures pos <= e <= |line|
    ensures e < |line| ==> line[e] == ','
    ensures forall i :: pos <= i < e ==> line[i] != ','
    decreases |line| - pos
  {
    if pos == |line| || line[pos] == ',' then pos else NextComma(line, pos + 1)
  }

  /** The pieces the getline loop yields from position pos on. A call
      succeeds while some character is left: it yields the text up to the
      next comma and consumes that comma. */
  function FieldsFrom(line: string, pos: nat): seq<string>
    requires pos <= |line| + 1
    decreases |line| + 1 - pos
  {
    if pos >= |line| then []
    else
      var e := NextComma(line, pos);
      [line[pos..e]] + FieldsFrom(line, e + 1)
  }

  /** The fields of a line; only the empty line has none. */
  function Fields(line: string): (fs: seq<string>)
    ensures |fs| == 0 <==> |line| == 0
  {
    FieldsFrom(line, 0)
  }

  /** The fields joined back with commas. */
  function Join(fs: seq<string>): string
  {
    if |fs| == 0 then [] else if |fs| == 1 then fs[0] else fs[0] + [','] + Join(fs[1..])
  }

  /** A comma closing the line: it ends the last field without starting another. */
  function TrailingComma(line: string): string
  {
    if |line| > 0 && line[|line| - 1] == ',' then [','] else []
  }

  lemma JoinCons(a: string, rest: seq<string>)
    requires |rest| > 0
    ensures Join([a] + rest) == a + [','] + Join(rest)
  {
    assert ([a] + rest)[1..] == rest;
  }

  /** Past the end of the line the getline loop yields nothing. */
  lemma FieldsFromEnd(line: string, pos: nat)
    requires |line| <= pos <= |line| + 1
    ensures FieldsFrom(line, pos) == []
  {
  }

  /** A single field joined with what follows it. */
  lemma JoinSingle(fs: seq<string>, x: string, t: string, whole: string)
    requires fs == [x] + [] && whole == x + t
    ensures Join(fs) + t == whole
  {
    assert fs == [x];
  }

  /** The case where no comma follows pos: one field, and no closing comma. */
  lemma JoinLastField(line: string, pos: nat)
    requires pos < |line| && NextComma(line, pos) == |line|
    ensures Join(FieldsFrom(line, pos)) + TrailingComma(line) == line[pos..]
  {
    var piece := line[pos..|line|];
    assert FieldsFrom(line, pos) == [piece] + [] by {
      FieldsFromUnfold(line, pos);
      FieldsFromEnd(line, |line| + 1);
    }
    assert line[pos..] == piece + TrailingComma(line) by {
      assert line[|line| - 1] != ',';
      assert TrailingComma(line) == [];
    }
    JoinSingle(FieldsFrom(line, pos), piece, TrailingComma(line), line[pos..]);
  }

  /** The case where the comma after pos closes the line. */
  lemma JoinClosingComma(line: string, pos: nat)
    requires pos < |line| && NextComma(line, pos) == |line| - 1
    ensures Join(FieldsFrom(line, pos)) + TrailingComma(line) == line[pos..]
  {
    var e := |line| - 1;
    var piece := line[pos..e];
    assert FieldsFrom(line, pos) == [piece] + [] by {
      FieldsFromUnfold(line, pos);
      FieldsFromEnd(line, e + 1);
    }
    assert line[pos..] == piece + TrailingComma(line) by {
      assert TrailingComma(line) == [','];
      assert line[pos..] == line[pos..e] + line[e..];
    }
    JoinSingle(FieldsFrom(line, pos), piece, TrailingComma(line), line[pos..]);
  }

  lemma SplitAtComma(line: string, pos: nat, e: nat)
    requires pos <= e < |line| && line[e] == ','
    ensures line[pos..] == line[pos..e] + ([','] + line[e + 1..])
  {
    assert line[pos..] == line[pos..e] + line[e..];
    assert line[e..] == [','] + line[e + 1..];
  }

  /** One step of the getline loop: the field up to the next comma, then
      the fields after it. */
  lemma FieldsFromUnfold(line: string, pos: nat)
    requires pos < |line|
    ensures FieldsFrom(line, pos) == [line[pos..NextComma(line, pos)]] + FieldsFrom(line, NextComma(line, pos) + 1)
  {
  }

  lemma JoinGlue(line: string, pos: nat, e: nat, rest: seq<string>, t: string)
    requires pos <= e && e + 1 < |line| && line[e] == ','
    requires |rest| > 0 && Join(rest) + t == line[e + 1..]
    ensures Join([line[pos..e]] + rest) + t == line[pos..]
  {
    var piece := line[pos..e];
    JoinCons(piece, rest);
    assert piece + [','] + Join(rest) + t == piece + ([','] + (Join(rest) + t));
    SplitAtComma(line, pos, e);
  }

  /** The case where a comma inside the line ends the first field: the
      first field, that comma, and the rest of the line. */
  lemma JoinInnerComma(line: string, pos: nat)
    requires pos < |line| && NextComma(line, pos) + 1 < |line|
    requires Join(FieldsFrom(line, NextComma(line, pos) + 1)) + TrailingComma(line) == line[NextComma(line, pos) + 1..]
    ensures Join(FieldsFrom(line, pos)) + TrailingComma(line) == line[pos..]
  {
    var e := NextComma(line, pos);
    var rest := FieldsFrom(line, e + 1);
    FieldsFromUnfold(line, pos);
    FieldsFromUnfold(line, e + 1);
    JoinGlue(line, pos, e, rest, TrailingComma(line));
  }

  lemma {:induction false} JoinFieldsFrom(line: string, pos: nat)
    requires pos < |line|
    ensures Join(FieldsFrom(line, pos)) + TrailingComma(line) == line[pos..]
    decreases |line| - pos
  {
    var e := NextComma(line, pos);
    if e == |line| {
      JoinLastField(line, pos);
    } else if e + 1 == |line| {
      JoinClosingComma(line, pos);
    } else {
      JoinFieldsFrom(line, e + 1);
      JoinInnerComma(line, pos);
    }
  }

  /** Splitting loses nothing: the fields joined with commas, plus a comma
      that closed the line, give the line back. */
  lemma FieldsRoundTrip(line: string)
    ensures Join(Fields(line)) + TrailingComma(line) == line
  {
    if |line| > 0 {
      JoinFieldsFrom(line, 0);
    }
  }

  lemma {:induction false} FieldsFromHaveNoComma(line: string, pos: nat)
    requires pos <= |line| + 1
    ensures forall f :: f in FieldsFrom(line, pos) ==> ',' !in f
    decreases |line| + 1 - pos
  {
    if pos < |line| {
      var e := NextComma(line, pos);
      forall i | 0 <= i < e - pos
        ensures line[pos..e][i] != ','
      {
        assert line[pos..e][i] == line[pos + i];
      }
      FieldsFromHaveNoComma(line, e + 1);
    }
  }

  /** No field holds a comma. */
  lemma FieldsHaveNoComma(line: string)
    ensures forall f :: f in Fields(line) ==> ',' !in f
  {
    FieldsFromHaveNoComma(line, 0);
  }

  lemma {:induction false} NextCommaAppend(line: string, pos: nat)
    requires pos <= |line|
    ensures NextComma(line + [','], pos) == NextComma(line, pos)
    decreases |line| - pos
  {
    if pos < |line| && line[pos] != ',' {
      NextCommaAppend(line, pos + 1);
    }
  }

  lemma SliceOfAppend(line: string, x: string, pos: nat, e: nat)
    requires pos <= e <= |line|
    ensures (line + x)[pos..e] == line[pos..e]
  {
  }

  lemma {:induction false} TrailingCommaFrom(line: string, pos: nat)
    requires pos < |line| && line[|line| - 1] != ','
    ensures FieldsFrom(line + [','], pos) == FieldsFrom(line, pos)
    decreases |line| - pos
  {
    var l2 := line + [','];
    var e := NextComma(line, pos);
    NextCommaAppend(line, pos);
    FieldsFromUnfold(l2, pos);
    FieldsFromUnfold(line, pos);
    SliceOfAppend(line, [','], pos, e);
    if e < |line| {
      TrailingCommaFrom(line, e + 1);
    } else {
      FieldsFromEnd(l2, e + 1);
      FieldsFromEnd(line, e + 1);
    }
  }

  /** A comma at the end of a line adds no field. */
  lemma TrailingCommaAddsNoField(line: string)
    requires |line| > 0 && line[|line| - 1] != ','
    ensures Fields(line + [',']) == Fields(line)
  {
    TrailingCommaFrom(line, 0);
  }

  /** The inner loop of count_row_col: one count per successful getline. */
  method CountFields(line: string) returns (col: nat)
    ensures col == |Fields(line)|
  {
    col := 0;
    var pos := 0;
    while pos < |line|
      invariant pos <= |line| + 1
      invariant col + |FieldsFrom(line, pos)| == |Fields(line)|
      decreases |line| + 1 - pos
    {
      var e := NextComma(line, pos);
      col := col + 1;
      pos := e + 1;
    }
  }

  /* ------------------------------------------------------ count_row_col */

  datatype CountError = RaggedRows

  /** The counts count_row_col reports. */
  datatype Counts = Counts(nRow: nat, nCol: nat)

  /** The field count of the last line, 0 for no lines. */
  function LastCount(lines: seq<string>): nat
  {
    if |lines| == 0 then 0 else |Fields(lines[|lines| - 1])|
  }

  /** count_row_col's check: each line either follows a line without fields
      or has as many fields as the line before. */
  ghost predicate RowsAgree(lines: seq<string>)
  {
    forall k :: 0 < k < |lines| ==> |Fields(lines[k - 1])| == 0 || |Fields(lines[k - 1])| == |Fields(lines[k])|
  }

  /** count_row_col: n_row counts the lines, n_col ends as the last line's
      field count, and a line whose count differs from a non-zero count of
      the line before stops it. */
  method CountRowCol(lines: seq<string>) returns (r: Result<Counts, CountError>)
    ensures r.Err? <==> !RowsAgree(lines)
    ensures r.Ok? ==> r.value == Counts(|lines|, LastCount(lines))
  {
    var nRow, nCol, col := 0, 0, 0;
    for k := 0 to |lines|
      invariant nRow == k && col == 0
      invariant nCol == LastCount(lines[..k])
      invariant RowsAgree(lines[..k])
    {
      col := CountFields(lines[k]);
      nRow := nRow + 1;
      if nCol != 0 && nCol != col {
        assert lines[k - 1] == lines[..k][k - 1];
        return Err(RaggedRows);
      }
      nCol := col;
      col := 0;
      assert lines[..k + 1][..k] == lines[..k];
    }
    assert lines[..|lines|] == lines;
    return Ok(Counts(nRow, nCol));
  }

  /** Once a line has fields, every later line of an agreeing file has as many. */
  lemma {:induction false} AgreeingRowsShareWidth(lines: seq<string>, i: nat, j: nat)
    requires RowsAgree(lines) && i <= j < |lines| && |Fields(lines[i])| != 0
    ensures |Fields(lines[j])| == |Fields(lines[i])|
  {
    if i < j {
      AgreeingRowsShareWidth(lines, i, j - 1);
    }
  }

  /** count_row_col fails exactly when some line's count differs from the
      non-zero count of a line before it. */
  lemma RaggedIffMismatch(lines: seq<string>)
    ensures !RowsAgree(lines) <==>
      exists i, j :: 0 <= i < j < |lines| && |Fields(lines[i])| != 0 && |Fields(lines[j])| != |Fields(lines[i])|
  {
    if RowsAgree(lines) {
      forall i, j | 0 <= i < j < |lines| && |Fields(lines[i])| != 0
        ensures |Fields(lines[j])| == |Fields(lines[i])|
      {
        AgreeingRowsShareWidth(lines, i, j);
      }
    } else {
      var k :| 0 < k < |lines| && !(|Fields(lines[k - 1])| == 0 || |Fields(lines[k - 1])| == |Fields(lines[k])|);
      assert k - 1 < k;
    }
  }

  /** In an agreeing file whose last line has fields, every non-empty line
      has as many fields as the last. */
  lemma RecordWidths(lines: seq<string>)
    requires RowsAgree(lines) && LastCount(lines) > 0
    ensures forall w :: w in lines && |w| > 0 ==> |Fields(w)| == LastCount(lines)
  {
    forall w | w in lines && |w| > 0
      ensures |Fields(w)| == LastCount(lines)
    {
      var i :| 0 <= i < |lines| && lines[i] == w;
      AgreeingRowsShareWidth(lines, i, |lines| - 1);
    }
  }

  /* ---------------------------------------------------------- is_number */

  predicate IsDigit(c: char)
  {
    '0' <= c <= '9'
  }

  /** Every character is a digit or a point. */
  predicate Numeric(s: string)
  {
    forall i :: 0 <= i < |s| ==> IsDigit(s[i]) || s[i] == '.'
  }

  /** is_number: the first character that is neither a digit nor a point
      makes it false. */
  method IsNumber(s: string) returns (b: bool)
    ensures b <==> Numeric(s)
  {
    for i := 0 to |s|
      invariant forall j :: 0 <= j < i ==> IsDigit(s[j]) || s[j] == '.'
    {
      if !IsDigit(s[i]) && s[i] != '.' {
        return false;
      }
    }
    return true;
  }

  /** The test accepts the empty text and several points, and rejects a sign. */
  lemma NumericExamples()
    ensures Numeric("") && Numeric("1.2.3") && !Numeric("-1")
  {
    assert !IsDigit("-1"[0]);
  }

  /* ------------------------------------------------------ label interning */

  /** One step of the find-then-push_back table: a text already in the table
      gets its position, a new text is appended and gets the last position;
      the table stays the distinct texts seen, in order of first appearance. */
  method Intern(ghost seen: seq<string>, table: seq<string>, s: string) returns (id: nat, table': seq<string>)
    requires table == Dedup(seen)
    ensures table' == Dedup(seen + [s])
    ensures s in table' && id == IndexOf(table', s)
    ensures forall x :: x in table ==> x in table' && IndexOf(table', x) == IndexOf(table, x)
  {
    assert (seen + [s])[..|seen|] == seen;
    if s in table {
      id := IndexOf(table, s);
      table' := table;
    } else {
      table' := table + [s];
      id := |table'| - 1;
      forall x | x in table
        ensures IndexOf(table', x) == IndexOf(table, x)
      {
        IndexOfPrefix(table, [s], x);
      }
    }
  }

  /** The ids the table hands out: below the number of distinct texts, equal
      exactly for equal texts, and the next unused id for a text not seen
      before. */
  lemma LabelIds(texts: seq<string>, i: nat, j: nat)
    requires i < |texts| && j < |texts|
    ensures IndexOf(Dedup(texts), texts[i]) < |Dedup(texts)|
    ensures texts[i] == texts[j] <==> IndexOf(Dedup(texts), texts[i]) == IndexOf(Dedup(texts), texts[j])
    ensures texts[i] !in texts[..i] ==> IndexOf(Dedup(texts), texts[i]) == |Dedup(texts[..i])|
  {
    var x := texts[i];
    assert texts[..i + 1][..i] == texts[..i];
    assert x in texts[..i + 1];
    IdStable(texts, i + 1, x);
    if x !in texts[..i] {
      var d := Dedup(texts[..i]);
      assert Dedup(texts[..i + 1]) == d + [x];
      assert (d + [x])[|d|] == x;
    }
  }

  /** Every id below the number of distinct texts belongs to some text. */
  lemma IdsAreDense(texts: seq<string>, k: nat)
    requires k < |Dedup(texts)|
    ensures exists i :: 0 <= i < |texts| && IndexOf(Dedup(texts), texts[i]) == k
  {
    var d := Dedup(texts);
    var i :| 0 <= i < |texts| && texts[i] == d[k];
    assert IndexOf(d, d[k]) == k;
  }

  /* ----------------------------------------------------------- read_csv */

  /** The words `fin >> line` reads after the header: the non-empty lines. */
  function Records(body: seq<string>): (recs: seq<string>)
    ensures |recs| <= |body|
    ensures forall i :: 0 <= i < |recs| ==> recs[i] in body && |recs[i]| > 0
  {
    if |body| == 0 then []
    else
      var last := body[|body| - 1];
      Records(body[..|body| - 1]) + (if |last| == 0 then [] else [last])
  }

  /** One more line of the body adds it to the records unless it is empty. */
  lemma RecordsStep(lines: seq<string>, i: nat)
    requires 1 <= i < |lines|
    ensures Records(lines[1..i + 1]) == Records(lines[1..i]) + (if |lines[i]| == 0 then [] else [lines[i]])
  {
    assert lines[1..i + 1][..i - 1] == lines[1..i];
  }

  /** Every record of an agreeing file has as many fields as its last line. */
  lemma RecordsWidth(lines: seq<string>)
    requires RowsAgree(lines) && LastCount(lines) > 0
    ensures forall i :: 0 <= i < |Records(lines[1..])| ==> |Fields(Records(lines[1..])[i])| == LastCount(lines)
  {
    RecordWidths(lines);
    var recs := Records(lines[1..]);
    forall i | 0 <= i < |recs|
      ensures |Fields(recs[i])| == LastCount(lines)
    {
      var j :| 0 <= j < |lines[1..]| && lines[1..][j] == recs[i];
      assert lines[j + 1] == recs[i];
    }
  }

  /** Field nC - 1 of every record: the text read_csv takes as the label. */
  ghost function LabelTexts(recs: seq<string>, nC: nat): seq<string>
    requires nC >= 1 && forall i :: 0 <= i < |recs| ==> |Fields(recs[i])| >= nC
  {
    seq(|recs|, i requires 0 <= i < |recs| => Fields(recs[i])[nC - 1])
  }

  /** The non-numeric texts, in order. */
  function NonNumeric(texts: seq<string>): (nn: seq<string>)
    ensures forall x :: x in nn ==> x in texts && !Numeric(x)
  {
    if |texts| == 0 then []
    else
      var x := texts[|texts| - 1];
      NonNumeric(texts[..|texts| - 1]) + (if Numeric(x) then [] else [x])
  }

  lemma {:induction false} NonNumericHas(texts: seq<string>, r: nat)
    requires r < |texts| && !Numeric(texts[r])
    ensures texts[r] in NonNumeric(texts)
  {
    var p := texts[..|texts| - 1];
    if r < |texts| - 1 {
      assert p[r] == texts[r];
      NonNumericHas(p, r);
    }
  }

  /** The label read_csv stores for the text of record r: a numeric text as
      its value, any other text as its id, the position of its first
      appearance among the distinct non-numeric texts. */
  ghost function LabelValue(texts: seq<string>, r: nat, stof: string -> real): real
    requires r < |texts|
  {
    if Numeric(texts[r]) then stof(texts[r])
    else
      NonNumericHas(texts, r);
      LabelOf(texts[r], Dedup(NonNumeric(texts)), stof)
  }

  /** Row r of the features holds the values of the first nC - 1 fields of
      record r, and no other cell is written. */
  ghost predicate FeatureCells(recs: seq<string>, nC: nat, stof: string -> real, features: map<(nat, nat), real>)
    requires forall j :: 0 <= j < |recs| ==> |Fields(recs[j])| >= nC
  {
    (forall k: (nat, nat) :: k in features <==> k.0 < |recs| && k.1 < nC - 1)
    && (forall k: (nat, nat) :: k in features ==> features[k] == stof(Fields(recs[k.0])[k.1]))
  }

  /** Entry r of the labels is the label stored for the text of record r. */
  ghost predicate LabelCells(texts: seq<string>, stof: string -> real, labels: map<nat, real>)
  {
    (forall r: nat :: r in labels <==> r < |texts|)
    && (forall r: nat :: r in labels ==> labels[r] == LabelValue(texts, r, stof))
  }

  /** What read_csv leaves behind for the lines of a file: n_row is the line
      count less the header and n_col the field count less the label; record
      r fills columns 0 .. n_col - 2 of row r from its first fields, takes
      field n_col - 1 as its label text, and column n_col - 1 of the matrix
      is never written. */
  ghost predicate Loaded(lines: seq<string>, stof: string -> real, t: Table<real>)
    requires RowsAgree(lines) && LastCount(lines) >= 2
  {
    RecordsWidth(lines);
    var recs := Records(lines[1..]);
    var nC := LastCount(lines) - 1;
    t.rows == |lines| - 1 && t.cols == nC
    && FeatureCells(recs, nC, stof, t.features)
    && LabelCells(LabelTexts(recs, nC), stof, t.labels)
  }

  /** The feature loop of one record: fields go to columns 0, 1, ... of the
      row until the column reaches nC - 1, where the loop stops with that
      field in hand as the label text. */
  method ReadFeatures(fs: seq<string>, nC: nat, row: nat, features: map<(nat, nat), real>, stof: string -> real)
    returns (features': map<(nat, nat), real>, str: string)
    requires 1 <= nC <= |fs|
    ensures str == fs[nC - 1]
    ensures forall k: (nat, nat) :: k in features' <==> k in features || (k.0 == row && k.1 < nC - 1)
    ensures forall k: (nat, nat) :: k in features' ==>
      features'[k] == if k.0 == row && k.1 < nC - 1 then stof(fs[k.1]) else features[k]
  {
    features' := features;
    var col := 0;
    while col != nC - 1
      invariant col <= nC - 1
      invariant forall k: (nat, nat) :: k in features' <==> k in features || (k.0 == row && k.1 < col)
      invariant forall k: (nat, nat) :: k in features' ==>
        features'[k] == if k.0 == row && k.1 < col then stof(fs[k.1]) else features[k]
      decreases nC - 1 - col
    {
      features' := features'[(row, col) := stof(fs[col])];
      col := col + 1;
    }
    str := fs[col];
  }

  /** The rows read_csv has filled from the records recs, whose label texts
      are texts: rows 0 .. |recs| - 1, columns 0 .. nC - 2. */
  ghost predicate RowsFilled(recs: seq<string>, texts: seq<string>, nC: nat, stof: string -> real,
                             features: map<(nat, nat), real>)
  {
    nC >= 1 && |texts| == |recs|
    && (forall j :: 0 <= j < |recs| ==> |Fields(recs[j])| == nC + 1 && texts[j] == Fields(recs[j])[nC - 1])
    && FeatureCells(recs, nC, stof, features)
  }

  /** The label stored for the text x, given the table of distinct
      non-numeric texts: its value when numeric, its position otherwise. */
  function LabelOf(x: string, table: seq<string>, stof: string -> real): real
    requires Numeric(x) || x in table
  {
    if Numeric(x) then stof(x) else IndexOf(table, x) as real
  }

  /** The labels stored for the label texts so far, with the table of
      distinct non-numeric texts in order of first appearance. */
  ghost predicate LabelsFilled(texts: seq<string>, stof: string -> real, labels: map<nat, real>, strLabels: seq<string>)
  {
    strLabels == Dedup(NonNumeric(texts))
    && (forall j :: 0 <= j < |texts| ==> Numeric(texts[j]) || texts[j] in strLabels)
    && (forall j: nat :: j in labels <==> j < |texts|)
    && (forall j: nat :: j in labels ==> labels[j] == LabelOf(texts[j], strLabels, stof))
  }

  ghost predicate Filled(recs: seq<string>, texts: seq<string>, nC: nat, stof: string -> real,
                         features: map<(nat, nat), real>, labels: map<nat, real>, strLabels: seq<string>)
  {
    RowsFilled(recs, texts, nC, stof, features) && LabelsFilled(texts, stof, labels, strLabels)
  }

  lemma KeysExtend<V>(m: map<nat, V>, m': map<nat, V>, n: nat, v: V)
    requires forall j: nat :: j in m <==> j < n
    requires m' == m[n := v]
    ensures forall j: nat :: j in m' <==> j < n + 1
  {
  }

  /** The label part of the loop body: a numeric text is stored as its
      value, any other text as its id in the table. */
  method StoreLabel(str: string, row: nat, stof: string -> real, labels: map<nat, real>, strLabels: seq<string>,
                    ghost texts: seq<string>)
    returns (labels': map<nat, real>, strLabels': seq<string>)
    requires LabelsFilled(texts, stof, labels, strLabels) && row == |texts|
    ensures LabelsFilled(texts + [str], stof, labels', strLabels')
  {
    ghost var texts' := texts + [str];
    assert texts'[..|texts|] == texts;
    var isNumber := IsNumber(str);
    var v: real;
    if isNumber {
      assert NonNumeric(texts') == NonNumeric(texts);
      v := stof(str);
      strLabels' := strLabels;
    } else {
      assert NonNumeric(texts') == NonNumeric(texts) + [str];
      var id;
      id, strLabels' := Intern(NonNumeric(texts), strLabels, str);
      v := id as real;
    }
    assert forall x :: x in strLabels ==> x in strLabels' && IndexOf(strLabels', x) == IndexOf(strLabels, x);
    labels' := labels[row := v];
    KeysExtend(labels, labels', row, v);
    forall j: nat | j in labels'
      ensures labels'[j] == LabelOf(texts'[j], strLabels', stof)
    {
      if j < row {
        var x := texts[j];
        assert texts'[j] == x && labels'[j] == labels[j];
        if !Numeric(x) {
          assert IndexOf(strLabels', x) == IndexOf(strLabels, x);
        }
      }
    }
  }

  lemma LabelsFilledCells(texts: seq<string>, stof: string -> real, labels: map<nat, real>, strLabels: seq<string>)
    requires LabelsFilled(texts, stof, labels, strLabels)
    ensures LabelCells(texts, stof, labels)
  {
    forall r: nat | r in labels
      ensures labels[r] == LabelValue(texts, r, stof)
    {
    }
  }

  /** Once every record is read, the state is what Loaded describes. */
  lemma FilledIsLoaded(lines: seq<string>, stof: string -> real, texts: seq<string>,
                       features: map<(nat, nat), real>, labels: map<nat, real>, strLabels: seq<string>)
    requires RowsAgree(lines) && LastCount(lines) >= 2
    requires Filled(Records(lines[1..]), texts, LastCount(lines) - 1, stof, features, labels, strLabels)
    ensures Loaded(lines, stof, Table(|lines| - 1, LastCount(lines) - 1, features, labels))
  {
    RecordsWidth(lines);
    assert texts == LabelTexts(Records(lines[1..]), LastCount(lines) - 1);
    LabelsFilledCells(texts, stof, labels, strLabels);
  }

  /** The body of the `while (fin >> line)` loop: one record fills row
      |recs|, its features through the feature loop and its label as a
      number or an interned id. */
  method ReadRecord(rec: string, nC: nat, row: nat, stof: string -> real,
                    features: map<(nat, nat), real>, labels: map<nat, real>, strLabels: seq<string>,
                    ghost recs: seq<string>, ghost texts: seq<string>)
    returns (features': map<(nat, nat), real>, labels': map<nat, real>, strLabels': seq<string>, ghost texts': seq<string>)
    requires Filled(recs, texts, nC, stof, features, labels, strLabels)
    requires row == |recs| && |Fields(rec)| == nC + 1
    ensures texts' == texts + [Fields(rec)[nC - 1]]
    ensures Filled(recs + [rec], texts', nC, stof, features', labels', strLabels')
  {
    var str;
    features', str := ReadFeatures(Fields(rec), nC, row, features, stof);
    texts' := texts + [str];
    ghost var recs' := recs + [rec];
    assert forall j :: 0 <= j < |recs| ==> recs'[j] == recs[j];
    assert RowsFilled(recs', texts', nC, stof, features');
    labels', strLabels' := StoreLabel(str, row, stof, labels, strLabels, texts);
  }

  /** The `while (fin >> line)` loop of read_csv: every non-empty line after
      the header is read as a record of nC + 1 fields. */
  method ReadRecords(lines: seq<string>, nC: nat, stof: string -> real)
    returns (features: map<(nat, nat), real>, labels: map<nat, real>, strLabels: seq<string>, ghost texts: seq<string>)
    requires |lines| >= 1 && nC >= 1
    requires forall w :: w in lines && |w| > 0 ==> |Fields(w)| == nC + 1
    ensures Filled(Records(lines[1..]), texts, nC, stof, features, labels, strLabels)
  {
    features := map[];
    labels := map[];
    strLabels := [];
    texts := [];
    var row := 0;
    ghost var recs: seq<string> := [];
    for i := 1 to |lines|
      invariant recs == Records(lines[1..i]) && row == |recs|
      invariant Filled(recs, texts, nC, stof, features, labels, strLabels)
    {
      RecordsStep(lines, i);
      var line := lines[i];
      if |line| == 0 {
        continue;
      }
      features, labels, strLabels, texts := ReadRecord(line, nC, row, stof, features, labels, strLabels, recs, texts);
      recs := recs + [line];
      row := row + 1;
    }
    assert lines[1..|lines|] == lines[1..];
  }

  /** read_csv: the counts less one for the header and one for the label
      size the table; each record after the header then fills its row. */
  method ReadCsv(lines: seq<string>, stof: string -> real) returns (r: Result<Table<real>, CountError>)
    requires RowsAgree(lines) ==> LastCount(lines) >= 2
    ensures r.Err? <==> !RowsAgree(lines)
    ensures r.Ok? ==> Loaded(lines, stof, r.value)
  {
    var counts := CountRowCol(lines);
    if counts.Err? {
      return Err(counts.error);
    }
    var nRow: nat := counts.value.nRow - 1;
    var nCol: nat := counts.value.nCol - 1;
    RecordWidths(lines);
    var features, labels, strLabels, texts := ReadRecords(lines, nCol, stof);
    FilledIsLoaded(lines, stof, texts, features, labels, strLabels);
    return Ok(Table(nRow, nCol, features, labels));
  }
}

=== FILE: gaussian_mixture.dfy ===
/** Gaussian mixture fitted by expectation-maximisation
    (src/gaussian_mixture.h). A GaussianMixture object owns K components:
    mixing weights `phi`, means `mu` and covariances `sigma`, and an N x K
    matrix `posterior` of responsibilities. `fit` seeds the components
    (from K-Means or from random rows) and then alternates the E-step and
    the M-step until the log-likelihood settles or 1001 rounds have run.
    The multivariate normal density and the logarithm are parameters: only
    the bookkeeping around them is modelled. */
module GaussianMixtureModel {
  import opened Results
  import opened Algorithms
  import opened Common
  import KMeansModel

  /** Why fit stops without a result. The source exits on a bad option; the
      other cases are where it would divide by zero or index out of range and
      carry on with NaN or undefined values. */
  datatype GmmError =
    | InvalidInit
    | NoComponents
    | TooFewRows
    | KMeansFailed(cause: KMeansModel.KMeansError)
    | SmallCluster
    | ZeroDensity
    | ZeroWeight

  /** How the EM loop ended: the number of E/M rounds run, whether it stopped
      on the tolerance test rather than on the round cap, and the
      log-likelihoods of the last round and of the round before it (0 when
      there was none). */
  datatype FitSummary = FitSummary(rounds: nat, converged: bool, previous: real, current: real)

  /** The loop breaks once the round counter exceeds 1000. */
  const MaxRounds: nat := 1001

  /** Log-likelihood change below which the loop stops. */
  const Tolerance: real := 0.01

  /* ------------------------------------------------------ real arithmetic */

  lemma MulNonNegative(x: real, y: real, z: real)
    requires x >= 0.0 && y >= 0.0 && z == x * y
    ensures z >= 0.0
  {
  }

  lemma RatioInUnit(a: real, s: real, q: real)
    requires 0.0 <= a <= s && s > 0.0 && q == a / s
    ensures 0.0 <= q <= 1.0
  {
  }

  function Abs(x: real): real
  {
    if x < 0.0 then -x else x
  }

  /* --------------------------------------------------------- initial state */

  /** K equal weights 1/K: `RowVectorXf::Constant(K, 1.f / K)`. */
  function Uniform(k: nat): (u: seq<real>)
    requires k > 0
    ensures |u| == k && forall c :: 0 <= c < k ==> u[c] == 1.0 / k as real
  {
    seq(k, _ => 1.0 / k as real)
  }

  /** K equal weights sum to one. */
  lemma UniformSumsToOne(k: nat)
    requires k > 0
    ensures SumReal(Uniform(k)) == 1.0
  {
    SumRealConst(k, 1.0 / k as real);
    assert Uniform(k) == seq(k, _ => 1.0 / k as real);
    DivSelf(k as real, k as real * (1.0 / k as real));
  }

  /** The N x K posterior both initialisers start from: every entry 1/K. */
  function UniformPosterior(n: nat, k: nat): (P: seq<seq<real>>)
    requires k > 0
    ensures |P| == n && forall i :: 0 <= i < n ==> P[i] == Uniform(k)
  {
    seq(n, _ => Uniform(k))
  }

  /* ---------------------------------------------------------------- E-step */

  /** The mixture density of x: the E-step's denominator. */
  function Evidence(x: Point, phi: seq<real>, mu: seq<Point>, sigma: seq<Matrix>, pdf: Density): real
    requires |mu| == |phi| && |sigma| == |phi|
  {
    SumReal(Weighted(x, phi, mu, sigma, pdf))
  }

  /** One posterior row: each weighted density over the mixture density. */
  function Responsibilities(x: Point, phi: seq<real>, mu: seq<Point>, sigma: seq<Matrix>, pdf: Density): (r: seq<real>)
    requires |mu| == |phi| && |sigma| == |phi|
    requires Evidence(x, phi, mu, sigma, pdf) != 0.0
    ensures |r| == |phi|
  {
    VecDiv(Weighted(x, phi, mu, sigma, pdf), Evidence(x, phi, mu, sigma, pdf))
  }

  /** A posterior row sums to one. */
  lemma ResponsibilitiesSumToOne(x: Point, phi: seq<real>, mu: seq<Point>, sigma: seq<Matrix>, pdf: Density)
    requires |mu| == |phi| && |sigma| == |phi|
    requires Evidence(x, phi, mu, sigma, pdf) != 0.0
    ensures SumReal(Responsibilities(x, phi, mu, sigma, pdf)) == 1.0
  {
    SumRealDiv(Weighted(x, phi, mu, sigma, pdf), Evidence(x, phi, mu, sigma, pdf));
  }

  /** With non-negative weights and densities every responsibility lies in [0, 1]. */
  lemma ResponsibilitiesInUnitInterval(x: Point, phi: seq<real>, mu: seq<Point>, sigma: seq<Matrix>, pdf: Density)
    requires |mu| == |phi| && |sigma| == |phi|
    requires Evidence(x, phi, mu, sigma, pdf) != 0.0
    requires forall k :: 0 <= k < |phi| ==> phi[k] >= 0.0 && pdf(x, mu[k], sigma[k]) >= 0.0
    ensures forall k :: 0 <= k < |phi| ==> 0.0 <= Responsibilities(x, phi, mu, sigma, pdf)[k] <= 1.0
  {
    var w := Weighted(x, phi, mu, sigma, pdf);
    var e := Evidence(x, phi, mu, sigma, pdf);
    forall k | 0 <= k < |phi| ensures w[k] >= 0.0 {
      MulNonNegative(phi[k], pdf(x, mu[k], sigma[k]), w[k]);
    }
    forall k | 0 <= k < |phi| ensures 0.0 <= Responsibilities(x, phi, mu, sigma, pdf)[k] <= 1.0 {
      SumRealBound(w, k);
      RatioInUnit(w[k], e, w[k] / e);
    }
  }

  /** Every row of X has a non-zero mixture density. */
  ghost predicate Evident(X: Matrix, phi: seq<real>, mu: seq<Point>, sigma: seq<Matrix>, pdf: Density)
    requires |mu| == |phi| && |sigma| == |phi|
  {
    forall i :: 0 <= i < |X.rows| ==> Evidence(X.rows[i], phi, mu, sigma, pdf) != 0.0
  }

  /** The posterior matrix e_step writes. */
  function Posterior(X: Matrix, phi: seq<real>, mu: seq<Point>, sigma: seq<Matrix>, pdf: Density): (P: seq<seq<real>>)
    requires |mu| == |phi| && |sigma| == |phi|
    requires Evident(X, phi, mu, sigma, pdf)
    ensures |P| == |X.rows|
    ensures forall i :: 0 <= i < |X.rows| ==> P[i] == Responsibilities(X.rows[i], phi, mu, sigma, pdf)
  {
    seq(|X.rows|, i requires 0 <= i < |X.rows| => Responsibilities(X.rows[i], phi, mu, sigma, pdf))
  }

  /** Each posterior row has one entry per component and sums to one. */
  lemma PosteriorRowsSumToOne(X: Matrix, phi: seq<real>, mu: seq<Point>, sigma: seq<Matrix>, pdf: Density)
    requires |mu| == |phi| && |sigma| == |phi|
    requires Evident(X, phi, mu, sigma, pdf)
    ensures Rectangular(Posterior(X, phi, mu, sigma, pdf), |phi|)
    ensures forall i :: 0 <= i < |X.rows| ==> SumReal(Posterior(X, phi, mu, sigma, pdf)[i]) == 1.0
  {
    var P := Posterior(X, phi, mu, sigma, pdf);
    forall i | 0 <= i < |X.rows| ensures SumReal(P[i]) == 1.0 {
      ResponsibilitiesSumToOne(X.rows[i], phi, mu, sigma, pdf);
    }
  }

  /** multivariate_log_likelihood (src/common.h): the sum over rows of the
      logarithm of the mixture density. */
  function LogLikelihood(X: Matrix, phi: seq<real>, mu: seq<Point>, sigma: seq<Matrix>, pdf: Density, log: real -> real): real
    requires |mu| == |phi| && |sigma| == |phi|
  {
    SumReal(seq(|X.rows|, i requires 0 <= i < |X.rows| => log(Evidence(X.rows[i], phi, mu, sigma, pdf))))
  }

  /* ---------------------------------------------------------------- M-step */

  /** Every row of P has k entries. */
  ghost predicate Rectangular(P: seq<seq<real>>, k: nat)
  {
    forall i :: 0 <= i < |P| ==> |P[i]| == k
  }

  /** Column j of P: `posterior.col(j)`. */
  function ColumnOf(P: seq<seq<real>>, j: nat): (col: seq<real>)
    requires forall i :: 0 <= i < |P| ==> j < |P[i]|
    ensures |col| == |P| && forall i :: 0 <= i < |P| ==> col[i] == P[i][j]
  {
    seq(|P|, i requires 0 <= i < |P| => P[i][j])
  }

  /** The column sums N_j of a matrix with k columns. */
  function ColumnSums(P: seq<seq<real>>, k: nat): (s: seq<real>)
    requires Rectangular(P, k)
    ensures |s| == k && forall j :: 0 <= j < k ==> s[j] == SumReal(ColumnOf(P, j))
  {
    seq(k, j requires 0 <= j < k => SumReal(ColumnOf(P, j)))
  }

  /** The row sums of a matrix. */
  function RowSums(P: seq<seq<real>>): (s: seq<real>)
    ensures |s| == |P| && forall i :: 0 <= i < |P| ==> s[i] == SumReal(P[i])
  {
    seq(|P|, i requires 0 <= i < |P| => SumReal(P[i]))
  }

  /** Adding up the column sums gives the same total as adding up the row sums. */
  lemma {:induction false} ColumnSumsTotal(P: seq<seq<real>>, k: nat)
    requires Rectangular(P, k)
    ensures SumReal(ColumnSums(P, k)) == SumReal(RowSums(P))
  {
    if |P| == 0 {
      assert ColumnSums(P, k) == seq(k, _ => 0.0);
      SumRealConst(k, 0.0);
    } else {
      var Q := P[..|P| - 1];
      var last := P[|P| - 1];
      ColumnSumsTotal(Q, k);
      ColumnSumsStep(P, k);
      SumRealAdd(ColumnSums(Q, k), last);
      assert RowSums(P)[..|P| - 1] == RowSums(Q);
    }
  }

  /** Appending a row adds it to the column sums. */
  lemma ColumnSumsStep(P: seq<seq<real>>, k: nat)
    requires Rectangular(P, k) && |P| > 0
    ensures ColumnSums(P, k) == VecAdd(ColumnSums(P[..|P| - 1], k), P[|P| - 1])
  {
    var Q := P[..|P| - 1];
    forall j | 0 <= j < k ensures ColumnSums(P, k)[j] == VecAdd(ColumnSums(Q, k), P[|P| - 1])[j] {
      assert ColumnOf(P, j)[..|P| - 1] == ColumnOf(Q, j);
    }
  }

  /** The weights N_j / N sum to one when every posterior row does. */
  lemma MixingWeightsSumToOne(P: seq<seq<real>>, k: nat)
    requires Rectangular(P, k) && |P| > 0
    requires forall i :: 0 <= i < |P| ==> SumReal(P[i]) == 1.0
    ensures SumReal(VecDiv(ColumnSums(P, k), |P| as real)) == 1.0
  {
    var total := SumReal(ColumnSums(P, k));
    SumRealDiv(ColumnSums(P, k), |P| as real);
    ColumnSumsTotal(P, k);
    assert RowSums(P) == seq(|P|, _ => 1.0);
    SumRealConst(|P|, 1.0);
    assert total == |P| as real;
    DivSelf(|P| as real, total / |P| as real);
  }

  /** w[r] * v: a row scaled by its weight. */
  function Scale(a: real, v: Point): (w: Point)
    ensures |w| == |v| && forall c :: 0 <= c < |v| ==> w[c] == a * v[c]
  {
    seq(|v|, c requires 0 <= c < |v| => a * v[c])
  }

  /** Sum over the first n rows of w[r] * X.row(r): the column sums of
      `X.array().colwise() * w.array()`. */
  function WeightedSum(X: Matrix, w: seq<real>, n: nat): (s: Point)
    requires X.Valid() && |w| == |X.rows| && n <= |X.rows|
    ensures |s| == X.nCols
  {
    if n == 0 then seq(X.nCols, _ => 0.0)
    else VecAdd(WeightedSum(X, w, n - 1), Scale(w[n - 1], X.rows[n - 1]))
  }

  /** The M-step mean of a component: weighted row sum over the weight total. */
  function WeightedMean(X: Matrix, w: seq<real>, total: real): (m: Point)
    requires X.Valid() && |w| == |X.rows| && total != 0.0
    ensures |m| == X.nCols
  {
    VecDiv(WeightedSum(X, w, |X.rows|), total)
  }

  /** With weight one on every row the weighted sum is the plain row sum. */
  lemma {:induction false} WeightedSumOfOnes(X: Matrix, n: nat)
    requires X.Valid() && n <= |X.rows|
    ensures WeightedSum(X, Ones(|X.rows|), n) == SumRows(X, Iota(n))
  {
    if n > 0 {
      WeightedSumOfOnes(X, n - 1);
      assert Iota(n)[..n - 1] == Iota(n - 1);
      assert Scale(1.0, X.rows[n - 1]) == X.rows[n - 1];
    }
  }

  /** When every row is wholly responsible to a component, its M-step mean is
      the plain column mean of X. */
  lemma WeightedMeanOfOnes(X: Matrix)
    requires X.Valid() && |X.rows| > 0
    ensures WeightedMean(X, Ones(|X.rows|), |X.rows| as real) == ColMean(X)
  {
    WeightedSumOfOnes(X, |X.rows|);
  }

  /* --------------------------------------------------------------- predict */

  /** Density of x under each component. */
  function Densities(x: Point, mu: seq<Point>, sigma: seq<Matrix>, pdf: Density): (p: seq<real>)
    requires |sigma| == |mu|
    ensures |p| == |mu| && forall j :: 0 <= j < |mu| ==> p[j] == pdf(x, mu[j], sigma[j])
  {
    seq(|mu|, j requires 0 <= j < |mu| => pdf(x, mu[j], sigma[j]))
  }

  /** The component predict picks for each row: the first maximum density. */
  function Components(X: Matrix, mu: seq<Point>, sigma: seq<Matrix>, pdf: Density): (a: seq<nat>)
    requires |sigma| == |mu| && |mu| > 0
    ensures |a| == |X.rows| && AllBelow(a, |mu|)
    ensures forall i :: 0 <= i < |X.rows| ==> a[i] == ArgMax(Densities(X.rows[i], mu, sigma, pdf))
  {
    seq(|X.rows|, i requires 0 <= i < |X.rows| => ArgMax(Densities(X.rows[i], mu, sigma, pdf)))
  }

  /** The lists predict returns: list j holds, ascending, the rows assigned to j. */
  function Assignment(X: Matrix, mu: seq<Point>, sigma: seq<Matrix>, pdf: Density): (g: seq<seq<nat>>)
    requires |sigma| == |mu| && |mu| > 0
    ensures |g| == |mu|
  {
    Groups(Components(X, mu, sigma, pdf), |mu|)
  }

  /** The lists partition the rows, and each row sits in the list of the first
      component of maximum density. */
  lemma AssignmentIsMaxDensity(X: Matrix, mu: seq<Point>, sigma: seq<Matrix>, pdf: Density)
    requires |sigma| == |mu| && |mu| > 0
    ensures IsPartition(Assignment(X, mu, sigma, pdf), |X.rows|)
    ensures forall c, i {:trigger i in Assignment(X, mu, sigma, pdf)[c]} :: 0 <= c < |mu| && i in Assignment(X, mu, sigma, pdf)[c] ==>
      0 <= i < |X.rows| && IsFirstMax(Densities(X.rows[i], mu, sigma, pdf), c)
  {
    var a := Components(X, mu, sigma, pdf);
    GroupsPartition(a, |mu|);
    GroupsMembers(a, |mu|);
  }

  /* ----------------------------------------------------------------- EM runs */

  /** The parameters of a mixture: weights, means and covariances. */
  datatype Mixture = Mixture(phi: seq<real>, mu: seq<Point>, sigma: seq<Matrix>)

  /** One weight, one mean and one covariance per component. */
  predicate Sized(m: Mixture)
  {
    |m.mu| == |m.phi| && |m.sigma| == |m.phi|
  }

  /** m solves the M-step equations for the posterior P: with N_j the sum of
      column j, non-zero, weight j is N_j / N, mean j the P-weighted mean of
      the rows, and covariance j the weighted scatter about it over N_j. */
  ghost predicate MStepOf(X: Matrix, P: seq<seq<real>>, m: Mixture)
    requires X.Valid() && |P| == |X.rows| && Rectangular(P, |m.phi|)
  {
    var k := |m.phi|;
    Sized(m) && |X.rows| > 0
    && m.phi == VecDiv(ColumnSums(P, k), |X.rows| as real)
    && forall j :: 0 <= j < k ==>
      var w := ColumnOf(P, j);
      SumReal(w) != 0.0 && m.mu[j] == WeightedMean(X, w, SumReal(w)) && m.sigma[j] == Scatter(X, w, m.mu[j], SumReal(w))
  }

  /** An E/M round can run from m: every row has a non-zero mixture density,
      and every column of the resulting posterior has a non-zero sum. */
  ghost predicate Steppable(X: Matrix, pdf: Density, m: Mixture)
    requires X.Valid() && Sized(m)
  {
    Evident(X, m.phi, m.mu, m.sigma, pdf)
    && (PosteriorRowsSumToOne(X, m.phi, m.mu, m.sigma, pdf);
        forall j :: 0 <= j < |m.phi| ==> SumReal(ColumnOf(Posterior(X, m.phi, m.mu, m.sigma, pdf), j)) != 0.0)
  }

  /** P is the posterior the E-step computes from m. */
  ghost predicate PosteriorOf(X: Matrix, pdf: Density, m: Mixture, P: seq<seq<real>>)
  {
    Sized(m) && Evident(X, m.phi, m.mu, m.sigma, pdf) && P == Posterior(X, m.phi, m.mu, m.sigma, pdf)
  }

  /** The posterior the E-step computes from m, when every row of X has a
      non-zero mixture density under m; None when the E-step fails. */
  ghost function PosteriorFrom(X: Matrix, pdf: Density, m: Mixture): (P: Option<seq<seq<real>>>)
    ensures P.Some? <==> Sized(m) && Evident(X, m.phi, m.mu, m.sigma, pdf)
    ensures P.Some? ==> PosteriorOf(X, pdf, m, P.value)
  {
    if Sized(m) && Evident(X, m.phi, m.mu, m.sigma, pdf) then Some(Posterior(X, m.phi, m.mu, m.sigma, pdf)) else None
  }

  /** One E/M round turns m into m2: the M-step over the E-step posterior of m. */
  ghost predicate EMStep(X: Matrix, pdf: Density, m: Mixture, m2: Mixture)
    requires X.Valid()
  {
    Sized(m) && |m2.phi| == |m.phi| && Evident(X, m.phi, m.mu, m.sigma, pdf)
    && (PosteriorRowsSumToOne(X, m.phi, m.mu, m.sigma, pdf);
        MStepOf(X, Posterior(X, m.phi, m.mu, m.sigma, pdf), m2))
  }

  /** With P the posterior of m, a round can run from m exactly when no
      column of P sums to zero. */
  lemma SteppableByColumns(X: Matrix, pdf: Density, m: Mixture, P: seq<seq<real>>)
    requires X.Valid() && PosteriorOf(X, pdf, m, P)
    ensures Rectangular(P, |m.phi|)
    ensures Steppable(X, pdf, m) <==> forall j :: 0 <= j < |m.phi| ==> SumReal(ColumnOf(P, j)) != 0.0
  {
    PosteriorRowsSumToOne(X, m.phi, m.mu, m.sigma, pdf);
  }

  /** An M-step over the posterior of m completes a round from m. */
  lemma MStepCompletesRound(X: Matrix, pdf: Density, m: Mixture, P: seq<seq<real>>, m2: Mixture)
    requires X.Valid() && PosteriorOf(X, pdf, m, P) && |m2.phi| == |m.phi|
    requires Rectangular(P, |m.phi|) && MStepOf(X, P, m2)
    ensures EMStep(X, pdf, m, m2)
  {
    PosteriorRowsSumToOne(X, m.phi, m.mu, m.sigma, pdf);
  }

  /** After a round from m, whose E-step posterior is P, the new weights and
      every row of P are distributions. */
  lemma RoundNormalises(X: Matrix, pdf: Density, m: Mixture, m2: Mixture, P: seq<seq<real>>)
    requires X.Valid() && PosteriorFrom(X, pdf, m) == Some(P) && EMStep(X, pdf, m, m2)
    ensures SumReal(m2.phi) == 1.0 && |P| == |X.rows| && Rectangular(P, |m2.phi|)
    ensures forall i :: 0 <= i < |X.rows| ==> SumReal(P[i]) == 1.0
  {
    PosteriorRowsSumToOne(X, m.phi, m.mu, m.sigma, pdf);
    EMStepWeightsSumToOne(X, pdf, m, m2);
  }

  /** A round that ran started from a steppable mixture. */
  lemma EMStepSteppable(X: Matrix, pdf: Density, m: Mixture, m2: Mixture)
    requires X.Valid() && Sized(m) && |m2.phi| == |m.phi|
    requires EMStep(X, pdf, m, m2)
    ensures Steppable(X, pdf, m)
  {
    PosteriorRowsSumToOne(X, m.phi, m.mu, m.sigma, pdf);
  }

  /** A round's result is determined by the mixture it starts from. */
  lemma EMStepUnique(X: Matrix, pdf: Density, m: Mixture, a: Mixture, b: Mixture)
    requires X.Valid() && EMStep(X, pdf, m, a) && EMStep(X, pdf, m, b)
    ensures a == b
  {
    PosteriorRowsSumToOne(X, m.phi, m.mu, m.sigma, pdf);
    var P := Posterior(X, m.phi, m.mu, m.sigma, pdf);
    assert a.mu == b.mu by {
      forall j | 0 <= j < |a.mu| ensures a.mu[j] == b.mu[j] {
        var w := ColumnOf(P, j);
        assert a.mu[j] == WeightedMean(X, w, SumReal(w));
      }
    }
    assert a.sigma == b.sigma by {
      forall j | 0 <= j < |a.sigma| ensures a.sigma[j] == b.sigma[j] {
        var w := ColumnOf(P, j);
        assert a.sigma[j] == Scatter(X, w, a.mu[j], SumReal(w));
      }
    }
  }

  /** After a round the mixing weights sum to one. */
  lemma EMStepWeightsSumToOne(X: Matrix, pdf: Density, m: Mixture, m2: Mixture)
    requires X.Valid() && EMStep(X, pdf, m, m2)
    ensures SumReal(m2.phi) == 1.0
  {
    PosteriorRowsSumToOne(X, m.phi, m.mu, m.sigma, pdf);
    MixingWeightsSumToOne(Posterior(X, m.phi, m.mu, m.sigma, pdf), |m.phi|);
  }

  /** multivariate_log_likelihood of X under a mixture, the value fit
      computes after each round (a mixture whose parts differ in number
      never arises; it is given 0). */
  function LikelihoodOf(X: Matrix, pdf: Density, log: real -> real): Mixture -> real
  {
    m => if Sized(m) then LogLikelihood(X, m.phi, m.mu, m.sigma, pdf, log) else 0.0
  }

  /** post maps each mixture to the posterior the E-step computes from it. */
  ghost predicate ComputesPosterior(X: Matrix, pdf: Density, post: Mixture -> Option<seq<seq<real>>>)
  {
    forall m {:trigger PosteriorFrom(X, pdf, m)} :: post(m) == PosteriorFrom(X, pdf, m)
  }

  /** ll gives multivariate_log_likelihood of X under every mixture with one
      weight, mean and covariance per component. */
  ghost predicate ScoresLikelihood(X: Matrix, pdf: Density, log: real -> real, ll: Mixture -> real)
  {
    forall m {:trigger LogLikelihood(X, m.phi, m.mu, m.sigma, pdf, log)} ::
      Sized(m) ==> ll(m) == LogLikelihood(X, m.phi, m.mu, m.sigma, pdf, log)
  }

  /** One E/M round as a relation between mixtures, the form in which the
      run predicates below take it. */
  ghost function RoundRelation(X: Matrix, pdf: Density): (Mixture, Mixture) -> bool
  {
    (m, m2) => X.Valid() && EMStep(X, pdf, m, m2)
  }

  /** The E-step as a map from mixtures to posteriors. */
  ghost function EStepMap(X: Matrix, pdf: Density): Mixture -> Option<seq<seq<real>>>
  {
    m => PosteriorFrom(X, pdf, m)
  }

  /** step relates exactly the mixtures one E/M round relates. */
  ghost predicate StepsLikeEM(X: Matrix, pdf: Density, step: (Mixture, Mixture) -> bool)
    requires X.Valid()
  {
    forall m, m2 {:trigger EMStep(X, pdf, m, m2)} :: step(m, m2) <==> EMStep(X, pdf, m, m2)
  }

  /** fit's test after a round: the previous log-likelihood is non-zero and
      the change is below the tolerance. */
  predicate Stops(previous: real, current: real)
  {
    previous != 0.0 && Abs(current - previous) < Tolerance
  }

  /** The `prev` round t (counting from 1) compares against: 0 before the
      first round, then the log-likelihood ll gives the mixture after round
      t - 1. */
  function PreviousLL(ll: Mixture -> real, trace: seq<Mixture>, t: nat): real
    requires 1 <= t < |trace|
  {
    if t == 1 then 0.0 else ll(trace[t - 1])
  }

  /** No round t of the trace with 1 <= t < n passed fit's stopping test. */
  ghost predicate NoStopBefore(ll: Mixture -> real, trace: seq<Mixture>, n: nat)
    requires n <= |trace|
  {
    forall t :: 1 <= t < n ==> !Stops(PreviousLL(ll, trace, t), ll(trace[t]))
  }

  /** Round t + 1 of a trace: step relates trace[t] to trace[t + 1]. */
  ghost predicate StepAt(step: (Mixture, Mixture) -> bool, trace: seq<Mixture>, t: nat)
    requires t < |trace| - 1
  {
    step(trace[t], trace[t + 1])
  }

  /** trace[0] followed by |trace| - 1 E/M rounds, where no round before
      the last passed fit's stopping test. */
  ghost predicate RunSoFar(step: (Mixture, Mixture) -> bool, ll: Mixture -> real, trace: seq<Mixture>)
  {
    |trace| >= 1
    && (forall t :: 0 <= t < |trace| ==> Sized(trace[t]))
    && (forall t :: 0 <= t < |trace| - 1 ==> StepAt(step, trace, t))
    && NoStopBefore(ll, trace, |trace| - 1)
  }

  /** A run that did not stop at its last round grows by one round. */
  lemma ExtendRun(step: (Mixture, Mixture) -> bool, ll: Mixture -> real, trace: seq<Mixture>, m: Mixture)
    requires RunSoFar(step, ll, trace) && Sized(m)
    requires step(trace[|trace| - 1], m)
    requires NoStopBefore(ll, trace, |trace|)
    ensures RunSoFar(step, ll, trace + [m]) && NoStopBefore(ll, trace + [m], |trace|)
    ensures PreviousLL(ll, trace + [m], |trace|) == if |trace| == 1 then 0.0 else ll(trace[|trace| - 1])
  {
    ExtendChain(step, trace, m);
    ExtendNoStop(ll, trace, m);
    var g := trace + [m];
    forall t | 0 <= t < |g| ensures Sized(g[t]) {
      if t < |trace| { assert g[t] == trace[t]; }
    }
  }

  lemma ExtendChain(step: (Mixture, Mixture) -> bool, trace: seq<Mixture>, m: Mixture)
    requires |trace| >= 1
    requires forall t :: 0 <= t < |trace| - 1 ==> StepAt(step, trace, t)
    requires step(trace[|trace| - 1], m)
    ensures forall t :: 0 <= t < |trace| ==> StepAt(step, trace + [m], t)
  {
    var g := trace + [m];
    forall t | 0 <= t < |trace|
      ensures StepAt(step, g, t)
    {
      assert g[t] == trace[t];
      if t < |trace| - 1 {
        assert StepAt(step, trace, t);
        assert g[t + 1] == trace[t + 1];
      } else {
        assert g[t + 1] == m;
      }
    }
  }

  lemma ExtendNoStop(ll: Mixture -> real, trace: seq<Mixture>, m: Mixture)
    requires |trace| >= 1 && NoStopBefore(ll, trace, |trace|)
    ensures NoStopBefore(ll, trace + [m], |trace|)
    ensures PreviousLL(ll, trace + [m], |trace|) == if |trace| == 1 then 0.0 else ll(trace[|trace| - 1])
  {
    var g := trace + [m];
    forall t | 1 <= t < |trace|
      ensures !Stops(PreviousLL(ll, g, t), ll(g[t]))
    {
      EqualRunsPrefix(ll, g, trace, t);
    }
    if |trace| > 1 {
      assert g[|trace| - 1] == trace[|trace| - 1];
    }
  }

  /** A round that fails the stopping test extends the rounds that did not stop. */
  lemma NoStopGrows(ll: Mixture -> real, trace: seq<Mixture>, n: nat)
    requires 1 <= n < |trace| && NoStopBefore(ll, trace, n)
    requires !Stops(PreviousLL(ll, trace, n), ll(trace[n]))
    ensures NoStopBefore(ll, trace, n + 1)
  {
  }

  /** What fit reports when trace is a whole run of its E/M loop from
      trace[0] under the log-likelihood ll: the number of rounds, whether
      the last one passed the stopping test, and the two log-likelihoods
      that test compared. None when trace is not such a run: a round before
      the last stopped, or the last round neither stopped nor was round
      1001. */
  ghost function Outcome(step: (Mixture, Mixture) -> bool, ll: Mixture -> real, trace: seq<Mixture>): Option<FitSummary>
  {
    if |trace| < 2 || |trace| > MaxRounds + 1 || !RunSoFar(step, ll, trace) then None
    else
      var n := |trace| - 1;
      var previous, current := PreviousLL(ll, trace, n), ll(trace[n]);
      if Stops(previous, current) || n == MaxRounds then Some(FitSummary(n, Stops(previous, current), previous, current))
      else None
  }

  /** fit's E/M loop from the seeded mixture trace[0]: trace[t] is the
      mixture after round t, ll(trace[t]) the log-likelihood computed after
      it, and s reports the run, which stops at the first round whose
      log-likelihood passes the test, or after round 1001. */
  ghost predicate EMRun(step: (Mixture, Mixture) -> bool, ll: Mixture -> real, trace: seq<Mixture>, s: FitSummary)
  {
    Outcome(step, ll, trace) == Some(s)
  }

  /** The report of a run, field by field. */
  lemma EMRunReport(step: (Mixture, Mixture) -> bool, ll: Mixture -> real, trace: seq<Mixture>, s: FitSummary)
    requires EMRun(step, ll, trace, s)
    ensures 1 <= s.rounds <= MaxRounds && |trace| == s.rounds + 1 && RunSoFar(step, ll, trace)
    ensures s.current == ll(trace[s.rounds]) && s.previous == PreviousLL(ll, trace, s.rounds)
    ensures s.converged <==> Stops(s.previous, s.current)
    ensures !s.converged ==> s.rounds == MaxRounds
    ensures s.converged ==> s.rounds >= 2
  {
  }

  /** A run of rounds that ends at the first round passing the stopping
      test, or at round 1001, is a whole run with the report fit builds. */
  lemma EMRunFinished(step: (Mixture, Mixture) -> bool, ll: Mixture -> real, trace: seq<Mixture>, s: FitSummary)
    requires 1 <= s.rounds <= MaxRounds && |trace| == s.rounds + 1 && RunSoFar(step, ll, trace)
    requires s.current == ll(trace[s.rounds]) && s.previous == PreviousLL(ll, trace, s.rounds)
    requires s.converged == Stops(s.previous, s.current)
    requires !s.converged ==> s.rounds == MaxRounds
    ensures EMRun(step, ll, trace, s)
  {
  }

  /** While a run of rounds has not stopped and may go on (at most 1000
      rounds so far), the log-likelihood the next round's stopping test
      compares with: 0 before the first round, then the one after the
      latest round; None for anything else. */
  ghost function Pending(step: (Mixture, Mixture) -> bool, ll: Mixture -> real, trace: seq<Mixture>): Option<real>
  {
    if |trace| < 1 || |trace| > MaxRounds || !RunSoFar(step, ll, trace) || !NoStopBefore(ll, trace, |trace|) then None
    else Some(if |trace| == 1 then 0.0 else ll(trace[|trace| - 1]))
  }

  /** The round relation, the log-likelihood and the E-step map are the
      ones the run predicates take. */
  lemma RunParametersLink(X: Matrix, pdf: Density, log: real -> real)
    requires X.Valid()
    ensures StepsLikeEM(X, pdf, RoundRelation(X, pdf))
    ensures ScoresLikelihood(X, pdf, log, LikelihoodOf(X, pdf, log))
    ensures ComputesPosterior(X, pdf, EStepMap(X, pdf))
  {
  }

  /** What a whole run of fit's loop reports, ending with posterior P from
      the E-step of its last round: the rounds taken and why the loop
      stopped, the log-likelihood of the final mixture, and final weights
      and posterior rows that are distributions. */
  lemma FitReport(X: Matrix, pdf: Density, log: real -> real, trace: seq<Mixture>, s: FitSummary, P: seq<seq<real>>)
    requires X.Valid() && EMRun(RoundRelation(X, pdf), LikelihoodOf(X, pdf, log), trace, s)
    requires |trace| >= 2 && EStepMap(X, pdf)(trace[|trace| - 2]) == Some(P)
    ensures PosteriorFrom(X, pdf, trace[|trace| - 2]) == Some(P)
    ensures 1 <= s.rounds <= MaxRounds
    ensures s.converged ==> s.rounds >= 2 && s.previous != 0.0 && Abs(s.current - s.previous) < Tolerance
    ensures !s.converged ==> s.rounds == MaxRounds
    ensures var m := trace[|trace| - 1];
      s.current == LogLikelihood(X, m.phi, m.mu, m.sigma, pdf, log)
      && SumReal(m.phi) == 1.0 && |P| == |X.rows| && Rectangular(P, |m.phi|)
      && forall i :: 0 <= i < |X.rows| ==> SumReal(P[i]) == 1.0
  {
    var step := RoundRelation(X, pdf);
    EMRunReport(step, LikelihoodOf(X, pdf, log), trace, s);
    assert StepAt(step, trace, |trace| - 2);
    RoundNormalises(X, pdf, trace[|trace| - 2], trace[|trace| - 1], P);
  }

  /** Two chains of E/M rounds from the same mixture agree round by round. */
  lemma {:induction false} ChainsAgree(X: Matrix, pdf: Density, step: (Mixture, Mixture) -> bool, a: seq<Mixture>, b: seq<Mixture>, n: nat)
    requires X.Valid() && StepsLikeEM(X, pdf, step) && n < |a| && n < |b| && a[0] == b[0]
    requires forall t :: 0 <= t < n ==> StepAt(step, a, t)
    requires forall t :: 0 <= t < n ==> StepAt(step, b, t)
    ensures forall t :: 0 <= t <= n ==> a[t] == b[t]
  {
    if n > 0 {
      ChainsAgree(X, pdf, step, a, b, n - 1);
      assert StepAt(step, a, n - 1) && StepAt(step, b, n - 1);
      EMStepUnique(X, pdf, a[n - 1], a[n], b[n]);
    }
  }

  /** Under E/M rounds, the seeded mixture determines the whole run and
      its summary. */
  lemma EMRunUnique(X: Matrix, pdf: Density, step: (Mixture, Mixture) -> bool, ll: Mixture -> real,
                    t1: seq<Mixture>, s1: FitSummary, t2: seq<Mixture>, s2: FitSummary)
    requires X.Valid() && StepsLikeEM(X, pdf, step)
    requires EMRun(step, ll, t1, s1) && EMRun(step, ll, t2, s2) && t1[0] == t2[0]
    ensures t1 == t2 && s1 == s2
  {
    EMRunReport(step, ll, t1, s1);
    EMRunReport(step, ll, t2, s2);
    var n := if s1.rounds < s2.rounds then s1.rounds else s2.rounds;
    ChainsAgree(X, pdf, step, t1, t2, n);
    EqualRunsPrefix(ll, t1, t2, n);
    if s1.rounds < s2.rounds {
      assert false;
    } else if s2.rounds < s1.rounds {
      assert false;
    } else {
      assert t1 == t2;
    }
  }

  /** Where two traces agree up to round n, so do the log-likelihoods fit
      compares at round n. */
  lemma EqualRunsPrefix(ll: Mixture -> real, a: seq<Mixture>, b: seq<Mixture>, n: nat)
    requires 1 <= n < |a| && n < |b| && forall t :: 0 <= t <= n ==> a[t] == b[t]
    ensures PreviousLL(ll, a, n) == PreviousLL(ll, b, n) && ll(a[n]) == ll(b[n])
  {
    assert a[n] == b[n] && a[n - 1] == b[n - 1];
  }

  /** How fit seeded the components: random_init's permutation of the rows,
      or the clusters of kmeans_init. */
  datatype Seeding = FromRows(perm: seq<nat>) | FromClusters(clusters: seq<seq<nat>>)

  /** m is the mixture the seeding s gives: for random_init, uniform weights,
      means at the first K rows of the permutation and the covariance of all
      rows; for kmeans_init, clusters of at least two rows that partition the
      rows, their shares of the rows as weights, their means as the means and
      the covariance of their rows. That those clusters are a K-Means fixed
      point is stated by KMeansInit and Seed. */
  ghost predicate SeededBy(X: Matrix, s: Seeding, m: Mixture)
    requires X.Valid()
  {
    var N, k := |X.rows|, |m.phi|;
    Sized(m) && k > 0 &&
    match s
    case FromRows(perm) =>
      2 <= N && k <= N && IsPermutation(perm, N) && |perm| == N && AllBelow(perm, N)
      && (forall c, d :: 0 <= c < d < k ==> perm[c] != perm[d])
      && m.phi == Uniform(k)
      && forall c :: 0 <= c < k ==> m.mu[c] == X.rows[perm[c]] && m.sigma[c] == Covariance(X)
    case FromClusters(g) =>
      N > 0 && |g| == k && IsPartition(g, N) && TotalSize(g) == N
      && m.phi == VecDiv(AsReals(Sizes(g)), N as real)
      && forall c :: 0 <= c < k ==>
        |g[c]| >= 2 && RowsIn(X, g[c]) && m.mu[c] == Mean(X, g[c]) && m.sigma[c] == Covariance(SelectRows(X, g[c]))
  }

  /** The K-Means half of kmeans_init's seeding: the seed clusters are the
      clusters of the means, and the means are a K-Means fixed point. */
  ghost predicate KMeansSeeded(X: Matrix, s: Seeding, m: Mixture)
    requires X.Valid()
  {
    s.FromClusters? && |m.mu| > 0 ==> KMeansModel.IsFixedPoint(X, m.mu) && s.clusters == KMeansModel.Clusters(X, m.mu)
  }

  /** kmeans_init's pieces make up a seeding from clusters: a partition into
      clusters of at least two rows, the cluster shares as weights, and the
      cluster means and covariances as the components. */
  lemma ClusterSeeding(X: Matrix, g: seq<seq<nat>>, m: Mixture)
    requires X.Valid() && Sized(m) && |m.phi| == |g| > 0 && |X.rows| > 0
    requires IsPartition(g, |X.rows|) && TotalSize(g) == |X.rows|
    requires m.phi == VecDiv(AsReals(Sizes(g)), |X.rows| as real)
    requires forall c :: 0 <= c < |g| ==>
      |g[c]| >= 2 && RowsIn(X, g[c]) && m.mu[c] == Mean(X, g[c]) && m.sigma[c] == Covariance(SelectRows(X, g[c]))
    ensures SeededBy(X, FromClusters(g), m)
  {
  }

  /** seeded relates a seeding to the mixture it gives, the K-Means half
      included. */
  ghost predicate SeedsLike(X: Matrix, seeded: (Seeding, Mixture) -> bool)
    requires X.Valid()
  {
    forall s, m {:trigger SeededBy(X, s, m)} :: seeded(s, m) == (SeededBy(X, s, m) && KMeansSeeded(X, s, m))
  }

  /** The seeding relation on X exists. */
  lemma SeedingRelation(X: Matrix) returns (seeded: (Seeding, Mixture) -> bool)
    requires X.Valid()
    ensures SeedsLike(X, seeded)
  {
    seeded := (s, m) => X.Valid() && SeededBy(X, s, m) && KMeansSeeded(X, s, m);
  }

  /** Either seeding leaves weights summing to one. */
  lemma SeededWeightsSumToOne(X: Matrix, s: Seeding, m: Mixture)
    requires X.Valid() && SeededBy(X, s, m)
    ensures SumReal(m.phi) == 1.0
  {
    match s
    case FromRows(_) =>
      UniformSumsToOne(|m.phi|);
    case FromClusters(g) =>
      SharesSumToOne(Sizes(g));
  }

  /* ---------------------------------------------------------------- class */

  class GaussianMixture {
    const K: nat
    var posterior: seq<seq<real>>
    var phi: seq<real>
    const mu: array<Point>
    const sigma: array<Matrix>

    ghost predicate Valid()
      reads this
    {
      mu.Length == K && sigma.Length == K && |phi| == K
    }

    /** The current weights, means and covariances. */
    ghost function Current(): (m: Mixture)
      reads this, mu, sigma
      ensures Valid() ==> Sized(m) && |m.phi| == K
    {
      Mixture(phi, mu[..], sigma[..])
    }

    /** The mixing weights sum to one, and the posterior has one row per row
        of X, each with one entry per component and summing to one. */
    ghost predicate Normalised(N: nat)
      reads this
    {
      SumReal(phi) == 1.0 && |posterior| == N && Rectangular(posterior, K)
      && forall i :: 0 <= i < N ==> SumReal(posterior[i]) == 1.0
    }

    /** Allocates K (not yet meaningful) components. */
    constructor(K: nat)
      ensures this.K == K && Valid() && posterior == [] && fresh(mu) && fresh(sigma)
    {
      this.K := K;
      posterior := [];
      phi := seq(K, _ => 0.0);
      mu := new Point[K](_ => []);
      sigma := new Matrix[K](_ => Matrix(0, []));
    }

    /** random_init: uniform posterior and weights, means at the rows the
        permutation lists first, and the covariance of all of X for every
        component. The covariance needs two rows and the means K rows. */
    method RandomInit(X: Matrix, draws: seq<nat>) returns (r: Result<seq<nat>, GmmError>)
      requires Valid() && X.Valid() && K > 0 && ValidDraws(draws, |X.rows|)
      modifies this, mu, sigma
      ensures Valid()
      ensures r.Err? <==> |X.rows| < 2 || K > |X.rows|
      ensures r.Err? ==> r == Err(TooFewRows) && unchanged(this) && unchanged(mu) && unchanged(sigma)
      ensures r.Ok? ==> IsPermutation(r.value, |X.rows|) && |r.value| == |X.rows|
      ensures r.Ok? ==> posterior == UniformPosterior(|X.rows|, K) && phi == Uniform(K)
      ensures r.Ok? ==> forall c :: 0 <= c < K ==> r.value[c] < |X.rows| && mu[c] == X.rows[r.value[c]]
      ensures r.Ok? ==> forall c, d :: 0 <= c < d < K ==> r.value[c] != r.value[d]
      ensures r.Ok? ==> forall c :: 0 <= c < K ==> sigma[c] == Covariance(X)
      ensures r.Ok? ==> SeededBy(X, FromRows(r.value), Current())
    {
      var N := |X.rows|;
      if N < 2 || K > N {
        return Err(TooFewRows);
      }
      posterior := UniformPosterior(N, K);
      phi := Uniform(K);
      var indices := GenerateRandomIndex(N, draws);
      PermutationFacts(indices, N);
      var cov := Covariance(X);
      for i := 0 to K
        invariant posterior == UniformPosterior(N, K) && phi == Uniform(K)
        invariant forall c :: 0 <= c < i ==> mu[c] == X.rows[indices[c]] && sigma[c] == cov
      {
        mu[i] := X.rows[indices[i]];
        sigma[i] := cov;
      }
      r := Ok(indices);
    }

    /** kmeans_init: uniform posterior, then a K-Means fit with k-means++
        seeding; weight j is the share of rows in cluster j, mean j is K-Means
        center j and covariance j is the covariance of cluster j's rows. */
    method KMeansInit(X: Matrix, first: nat, draws: seq<nat>, fuel: nat) returns (r: Result<seq<seq<nat>>, GmmError>)
      requires Valid() && X.Valid() && K > 0
      requires |X.rows| > 0 ==> first < |X.rows|
      requires ValidDraws(draws, |X.rows|)
      modifies this, mu, sigma
      ensures Valid()
      ensures r.Err? ==> r.error.KMeansFailed? || r.error == SmallCluster
      ensures r.Ok? ==> posterior == UniformPosterior(|X.rows|, K)
      ensures r.Ok? ==> SeededBy(X, FromClusters(r.value), Current()) && KMeansSeeded(X, FromClusters(r.value), Current())
    {
      var N := |X.rows|;
      posterior := UniformPosterior(N, K);
      var clusters, centers := RunKMeans(X, first, draws, fuel);
      if clusters.Err? {
        return Err(KMeansFailed(clusters.error));
      }
      var complete := SetMixture(X, clusters.value, centers);
      if !complete {
        return Err(SmallCluster);
      }
      r := Ok(clusters.value);
    }

    /** The two loops of kmeans_init after the K-Means fit: the weights, then
        the components. With clusters of at least two rows they make up the
        seeding from those clusters. */
    method SetMixture(X: Matrix, clusters: seq<seq<nat>>, centers: seq<Point>) returns (ok: bool)
      requires Valid() && X.Valid() && K > 0 && |X.rows| > 0 && |clusters| == K && |centers| == K
      requires IsPartition(clusters, |X.rows|) && TotalSize(clusters) == |X.rows|
      requires forall c :: 0 <= c < K ==> |clusters[c]| > 0 && RowsIn(X, clusters[c]) && centers[c] == Mean(X, clusters[c])
      requires KMeansModel.IsFixedPoint(X, centers) && clusters == KMeansModel.Clusters(X, centers)
      modifies this, mu, sigma
      ensures Valid() && posterior == old(posterior)
      ensures ok <==> forall c :: 0 <= c < K ==> |clusters[c]| >= 2
      ensures ok ==> SeededBy(X, FromClusters(clusters), Current()) && KMeansSeeded(X, FromClusters(clusters), Current())
    {
      phi := ClusterShares(clusters, |X.rows|);
      ok := SetComponents(X, clusters, centers);
      if ok {
        ClusterSeeding(X, clusters, Current());
      }
    }

    /** The K-Means part of kmeans_init: a fresh K-Means object fitted with
        k-means++ seeding, then its clusters of X and its centers. */
    method RunKMeans(X: Matrix, first: nat, draws: seq<nat>, fuel: nat)
      returns (clusters: Result<seq<seq<nat>>, KMeansModel.KMeansError>, centers: seq<Point>)
      requires X.Valid() && K > 0
      requires |X.rows| > 0 ==> first < |X.rows|
      requires ValidDraws(draws, |X.rows|)
      ensures clusters.Ok? ==> |X.rows| > 0 && |clusters.value| == K && |centers| == K
      ensures clusters.Ok? ==> IsPartition(clusters.value, |X.rows|) && TotalSize(clusters.value) == |X.rows|
      ensures clusters.Ok? ==> forall c :: 0 <= c < K ==>
        |clusters.value[c]| > 0 && RowsIn(X, clusters.value[c]) && centers[c] == Mean(X, clusters.value[c])
      ensures clusters.Ok? ==>
        KMeansModel.IsFixedPoint(X, centers) && clusters.value == KMeansModel.Clusters(X, centers)
    {
      var kmeans := new KMeansModel.KMeans(K);
      var fitted := kmeans.Fit(X, "kmpp", first, draws, fuel);
      if fitted.Err? {
        return Err(fitted.error), [];
      }
      var g := kmeans.Predict(X);
      GroupsTotalSize(KMeansModel.Assignments(X, kmeans.centers[..]), K);
      var cs := kmeans.GetCenters();
      clusters, centers := Ok(g), cs[..];
    }

    /** The component loop of kmeans_init: mean c is K-Means center c, the
        mean of cluster c, and covariance c is the covariance of cluster c's
        rows; a cluster of fewer than two rows has no covariance and stops
        the loop. */
    method SetComponents(X: Matrix, clusters: seq<seq<nat>>, centers: seq<Point>) returns (ok: bool)
      requires Valid() && X.Valid() && |clusters| == K && |centers| == K
      requires forall c :: 0 <= c < K ==> RowsIn(X, clusters[c]) && |clusters[c]| > 0 && centers[c] == Mean(X, clusters[c])
      modifies mu, sigma
      ensures ok <==> forall c :: 0 <= c < K ==> |clusters[c]| >= 2
      ensures ok ==> mu[..] == centers && forall c :: 0 <= c < K ==> mu[c] == Mean(X, clusters[c])
      ensures ok ==> forall c :: 0 <= c < K ==> sigma[c] == Covariance(SelectRows(X, clusters[c]))
    {
      for i := 0 to K
        invariant forall c :: 0 <= c < i ==> |clusters[c]| >= 2 && mu[c] == centers[c]
        invariant forall c :: 0 <= c < i ==> sigma[c] == Covariance(SelectRows(X, clusters[c]))
      {
        if |clusters[i]| < 2 {
          return false;
        }
        var temp := SelectRows(X, clusters[i]);
        mu[i] := centers[i];
        sigma[i] := Covariance(temp);
      }
      ok := true;
    }

    /** The weight loop of kmeans_init: the share of the N rows held by each cluster. */
    method ClusterShares(clusters: seq<seq<nat>>, N: nat) returns (weights: seq<real>)
      requires N > 0
      ensures weights == VecDiv(AsReals(Sizes(clusters)), N as real)
    {
      weights := [];
      for i := 0 to |clusters|
        invariant weights == VecDiv(AsReals(Sizes(clusters)), N as real)[..i]
      {
        weights := weights + [|clusters[i]| as real / N as real];
      }
    }

    /** e_step: each posterior row becomes the responsibilities of the
        components for that row of X. A row of zero mixture density stops
        the step before the posterior is replaced. */
    method EStep(X: Matrix, pdf: Density) returns (r: Result<(), GmmError>)
      requires Valid()
      modifies this
      ensures Valid() && phi == old(phi)
      ensures r.Ok? <==> Evident(X, phi, mu[..], sigma[..], pdf)
      ensures r.Ok? ==> posterior == Posterior(X, phi, mu[..], sigma[..], pdf)
      ensures r.Err? ==> r == Err(ZeroDensity) && posterior == old(posterior)
    {
      var rows: seq<seq<real>> := [];
      for i := 0 to |X.rows|
        invariant Valid() && phi == old(phi) && posterior == old(posterior)
        invariant |rows| == i
        invariant forall t :: 0 <= t < i ==> Evidence(X.rows[t], phi, mu[..], sigma[..], pdf) != 0.0
        invariant forall t :: 0 <= t < i ==> rows[t] == Responsibilities(X.rows[t], phi, mu[..], sigma[..], pdf)
      {
        var denominator := MixtureDensity(X.rows[i], pdf);
        if denominator == 0.0 {
          return Err(ZeroDensity);
        }
        var row := PosteriorRow(X.rows[i], pdf, denominator);
        rows := rows + [row];
      }
      posterior := rows;
      r := Ok(());
    }

    /** The first inner loop of e_step: the sum over components of
        phi[k] * N(x | mu[k], sigma[k]). */
    method MixtureDensity(x: Point, pdf: Density) returns (denominator: real)
      requires Valid()
      ensures denominator == Evidence(x, phi, mu[..], sigma[..], pdf)
    {
      ghost var w := Weighted(x, phi, mu[..], sigma[..], pdf);
      denominator := 0.0;
      for k := 0 to K
        invariant denominator == SumReal(w[..k])
      {
        assert w[..k + 1][..k] == w[..k];
        denominator := denominator + phi[k] * pdf(x, mu[k], sigma[k]);
      }
      assert w[..K] == w;
    }

    /** The second inner loop of e_step: each weighted density over the
        mixture density. */
    method PosteriorRow(x: Point, pdf: Density, denominator: real) returns (row: seq<real>)
      requires Valid() && denominator != 0.0 && denominator == Evidence(x, phi, mu[..], sigma[..], pdf)
      ensures row == Responsibilities(x, phi, mu[..], sigma[..], pdf)
    {
      ghost var resp := Responsibilities(x, phi, mu[..], sigma[..], pdf);
      ghost var w := Weighted(x, phi, mu[..], sigma[..], pdf);
      assert resp == VecDiv(w, denominator);
      row := [];
      for j := 0 to K
        invariant row == resp[..j]
      {
        var numerator := phi[j] * pdf(x, mu[j], sigma[j]);
        assert w[j] == numerator;
        assert resp[..j + 1] == resp[..j] + [numerator / denominator];
        row := row + [numerator / denominator];
      }
    }

    /** m_step: for each component j, with N_j the sum of posterior column j,
        the mean becomes the posterior-weighted mean of the rows, the
        covariance the weighted scatter about that mean over N_j, and the
        weight N_j / N. A zero N_j stops the step at component j. */
    method MStep(X: Matrix) returns (r: Result<(), GmmError>)
      requires Valid() && X.Valid() && K > 0
      requires |posterior| == |X.rows| && Rectangular(posterior, K)
      modifies this, mu, sigma
      ensures Valid() && posterior == old(posterior)
      ensures r.Ok? <==> forall j :: 0 <= j < K ==> SumReal(ColumnOf(posterior, j)) != 0.0
      ensures r.Err? ==> r == Err(ZeroWeight)
      ensures r.Ok? ==> |X.rows| > 0 && phi == VecDiv(ColumnSums(posterior, K), |X.rows| as real)
      ensures r.Ok? ==> forall j :: 0 <= j < K ==>
        var w := ColumnOf(posterior, j);
        mu[j] == WeightedMean(X, w, SumReal(w)) && sigma[j] == Scatter(X, w, mu[j], SumReal(w))
    {
      var N := |X.rows|;
      for j := 0 to K
        invariant Valid() && posterior == old(posterior)
        invariant forall t :: 0 <= t < j ==> SumReal(ColumnOf(posterior, t)) != 0.0
        invariant j > 0 ==> N > 0
        invariant forall t :: 0 <= t < j ==> phi[t] == SumReal(ColumnOf(posterior, t)) / N as real
        invariant forall t :: 0 <= t < j ==>
          var w := ColumnOf(posterior, t);
          mu[t] == WeightedMean(X, w, SumReal(w)) && sigma[t] == Scatter(X, w, mu[t], SumReal(w))
      {
        var w := ColumnOf(posterior, j);
        var Nj := SumReal(w);
        if Nj == 0.0 {
          return Err(ZeroWeight);
        }
        mu[j] := WeightedMean(X, w, Nj);
        sigma[j] := Scatter(X, w, mu[j], Nj);
        phi := phi[j := Nj / N as real];
      }
      r := Ok(());
    }

    /** fit: reject an unknown option, seed the components, then run E/M
        rounds. A round stops the loop when the previous log-likelihood is
        non-zero and the change is below the tolerance, or when it is round
        1001. */
    method Fit(X: Matrix, init: string, pdf: Density, log: real -> real, first: nat, draws: seq<nat>, kmeansFuel: nat)
      returns (r: Result<FitSummary, GmmError>, ghost seeding: Seeding, ghost trace: seq<Mixture>)
      requires Valid() && X.Valid()
      requires |X.rows| > 0 ==> first < |X.rows|
      requires ValidDraws(draws, |X.rows|)
      modifies this, mu, sigma
      ensures Valid()
      ensures r == Err(InvalidInit) <==> init != "kmeans" && init != "random"
      ensures r == Err(NoComponents) <==> (init == "kmeans" || init == "random") && K == 0
      ensures r == Err(InvalidInit) || r == Err(NoComponents) ==> unchanged(this) && unchanged(mu) && unchanged(sigma)
      ensures r.Ok? ==> 1 <= r.value.rounds <= MaxRounds
      ensures r.Ok? && r.value.converged ==>
        r.value.rounds >= 2 && r.value.previous != 0.0 && Abs(r.value.current - r.value.previous) < Tolerance
      ensures r.Ok? && !r.value.converged ==> r.value.rounds == MaxRounds
      ensures r.Ok? ==> r.value.current == LogLikelihood(X, phi, mu[..], sigma[..], pdf, log)
      ensures r.Ok? ==> Normalised(|X.rows|)
      ensures r.Ok? ==> EMRun(RoundRelation(X, pdf), LikelihoodOf(X, pdf, log), trace, r.value) && trace[|trace| - 1] == Current()
      ensures r.Ok? ==> SeededBy(X, seeding, trace[0]) && KMeansSeeded(X, seeding, trace[0])
      ensures r.Ok? ==> seeding.FromRows? == (init == "random")
      ensures r.Ok? ==> PosteriorFrom(X, pdf, trace[|trace| - 2]) == Some(posterior)
    {
      seeding, trace := FromRows([]), [];
      if init != "kmeans" && init != "random" {
        r := Err(InvalidInit);
        return;
      }
      if K == 0 {
        r := Err(NoComponents);
        return;
      }
      ghost var relation := SeedingRelation(X);
      var seeded := Seed(X, init == "random", first, draws, kmeansFuel, relation);
      if seeded.Err? {
        r := Err(seeded.error);
        return;
      }
      seeding := seeded.value;
      r, trace := RunEM(X, pdf, log);
    }

    /** fit after seeding: the E/M loop, from the seeded mixture to the
        first round that passes the stopping test or to round 1001. */
    method RunEM(X: Matrix, pdf: Density, log: real -> real) returns (r: Result<FitSummary, GmmError>, ghost trace: seq<Mixture>)
      requires Valid() && X.Valid() && K > 0
      modifies this, mu, sigma
      ensures Valid()
      ensures r.Err? ==> r == Err(ZeroDensity) || r == Err(ZeroWeight)
      ensures r.Ok? ==> 1 <= r.value.rounds <= MaxRounds
      ensures r.Ok? && r.value.converged ==>
        r.value.rounds >= 2 && r.value.previous != 0.0 && Abs(r.value.current - r.value.previous) < Tolerance
      ensures r.Ok? && !r.value.converged ==> r.value.rounds == MaxRounds
      ensures r.Ok? ==> r.value.current == LogLikelihood(X, phi, mu[..], sigma[..], pdf, log)
      ensures r.Ok? ==> Normalised(|X.rows|)
      ensures r.Ok? ==> |trace| >= 2 && trace[0] == old(Current()) && trace[|trace| - 1] == Current()
      ensures r.Ok? ==> EMRun(RoundRelation(X, pdf), LikelihoodOf(X, pdf, log), trace, r.value)
      ensures r.Ok? ==> PosteriorFrom(X, pdf, trace[|trace| - 2]) == Some(posterior)
    {
      ghost var step, ll, post := RoundRelation(X, pdf), LikelihoodOf(X, pdf, log), EStepMap(X, pdf);
      RunParametersLink(X, pdf, log);
      r, trace := Iterate(X, pdf, log, step, ll, post);
      if r.Ok? {
        FitReport(X, pdf, log, trace, r.value, posterior);
        assert Current().phi == phi && Current().mu == mu[..] && Current().sigma == sigma[..];
      }
    }

    /** The initialiser fit picks: random_init for "random", kmeans_init otherwise. */
    method Seed(X: Matrix, random: bool, first: nat, draws: seq<nat>, fuel: nat, ghost seeded: (Seeding, Mixture) -> bool)
      returns (r: Result<Seeding, GmmError>)
      requires Valid() && X.Valid() && K > 0 && SeedsLike(X, seeded)
      requires |X.rows| > 0 ==> first < |X.rows|
      requires ValidDraws(draws, |X.rows|)
      modifies this, mu, sigma
      ensures Valid()
      ensures r.Err? ==> r.error in {TooFewRows, SmallCluster} || r.error.KMeansFailed?
      ensures random ==> (r.Err? <==> |X.rows| < 2 || K > |X.rows|)
      ensures r.Ok? ==> r.value.FromRows? == random && posterior == UniformPosterior(|X.rows|, K)
      ensures r.Ok? ==> seeded(r.value, Current())
    {
      if random {
        var perm := RandomInit(X, draws);
        r := if perm.Ok? then Ok(FromRows(perm.value)) else Err(perm.error);
      } else {
        var clusters := KMeansInit(X, first, draws, fuel);
        r := if clusters.Ok? then Ok(FromClusters(clusters.value)) else Err(clusters.error);
      }
    }

    /** One pass of fit's loop body before the log-likelihood: an E-step,
        then an M-step. Afterwards the weights and the posterior rows are
        distributions. */
    method Round(X: Matrix, pdf: Density) returns (r: Result<(), GmmError>)
      requires Valid() && X.Valid() && K > 0
      modifies this, mu, sigma
      ensures Valid()
      ensures r.Err? ==> r == Err(ZeroDensity) || r == Err(ZeroWeight)
      ensures r.Ok? <==> Steppable(X, pdf, old(Current()))
      ensures r.Ok? ==> PosteriorOf(X, pdf, old(Current()), posterior)
      ensures r.Ok? ==> Normalised(|X.rows|) && MStepOf(X, posterior, Current())
      ensures r.Ok? ==> EMStep(X, pdf, old(Current()), Current())
    {
      ghost var start := Current();
      var e := EStep(X, pdf);
      if e.Err? {
        return e;
      }
      ghost var P := posterior;
      assert PosteriorOf(X, pdf, start, P);
      SteppableByColumns(X, pdf, start, P);
      PosteriorRowsSumToOne(X, phi, mu[..], sigma[..], pdf);
      r := MStep(X);
      if r.Ok? {
        MixingWeightsSumToOne(posterior, K);
        assert MStepOf(X, P, Current());
        MStepCompletesRound(X, pdf, start, P, Current());
      }
    }

    /** The E/M loop of fit, from `int i = 1` on; step is the E/M round
        and ll the log-likelihood the loop computes after each round. */
    method Iterate(X: Matrix, pdf: Density, log: real -> real, ghost step: (Mixture, Mixture) -> bool, ghost ll: Mixture -> real,
                   ghost post: Mixture -> Option<seq<seq<real>>>)
      returns (r: Result<FitSummary, GmmError>, ghost trace: seq<Mixture>)
      requires Valid() && X.Valid() && K > 0
      requires StepsLikeEM(X, pdf, step) && ScoresLikelihood(X, pdf, log, ll) && ComputesPosterior(X, pdf, post)
      modifies this, mu, sigma
      ensures Valid()
      ensures r.Err? ==> r == Err(ZeroDensity) || r == Err(ZeroWeight)
      ensures r.Ok? ==> |trace| >= 2 && trace[0] == old(Current()) && trace[|trace| - 1] == Current()
      ensures r.Ok? ==> post(trace[|trace| - 2]) == Some(posterior)
      ensures r.Ok? ==> EMRun(step, ll, trace, r.value)
    {
      ghost var start := Current();
      trace := [start];
      var i := 1;
      var prev := 0.0;
      while true
        invariant Valid() && 1 <= i <= MaxRounds
        invariant |trace| == i && trace[0] == start && trace[i - 1] == Current()
        invariant Pending(step, ll, trace) == Some(prev)
        decreases MaxRounds - i
      {
        var advanced, next := Advance(X, pdf, log, step, ll, post, trace, prev);
        if advanced.Err? {
          r := Err(advanced.error);
          return;
        }
        ghost var before := trace;
        trace := next;
        var curr := advanced.value;
        // the loop breaks on the tolerance test, or after round 1001 with
        // prev already moved on to curr; both report the prev of the test
        var converged := Stops(prev, curr);
        if converged || i > 1000 {
          r := Ok(FitSummary(i, converged, prev, curr));
          assert trace[|trace| - 2] == before[i - 1];
          return;
        }
        prev := curr;
        i := i + 1;
      }
    }

    /** fit's loop body up to its test: a round, then the log-likelihood
        of X under the new mixture, r. next is the run so far grown by that
        round; when the test with previous, the log-likelihood it compares
        r with, stops the loop, next is a whole run, otherwise the run goes
        on with r as the next round's previous. */
    method Advance(X: Matrix, pdf: Density, log: real -> real, ghost step: (Mixture, Mixture) -> bool, ghost ll: Mixture -> real,
                   ghost post: Mixture -> Option<seq<seq<real>>>, ghost trace: seq<Mixture>, ghost previous: real)
      returns (r: Result<real, GmmError>, ghost next: seq<Mixture>)
      requires Valid() && X.Valid() && K > 0
      requires StepsLikeEM(X, pdf, step) && ScoresLikelihood(X, pdf, log, ll) && ComputesPosterior(X, pdf, post)
      requires Pending(step, ll, trace) == Some(previous) && trace[|trace| - 1] == Current()
      modifies this, mu, sigma
      ensures Valid()
      ensures r.Err? ==> r == Err(ZeroDensity) || r == Err(ZeroWeight)
      ensures r.Ok? ==> next == trace + [Current()] && r.value == ll(Current())
      ensures r.Ok? && (Stops(previous, r.value) || |trace| == MaxRounds) ==>
        Outcome(step, ll, next) == Some(FitSummary(|trace|, Stops(previous, r.value), previous, r.value))
      ensures r.Ok? && !Stops(previous, r.value) && |trace| < MaxRounds ==> Pending(step, ll, next) == Some(r.value)
      ensures r.Ok? ==> post(trace[|trace| - 1]) == Some(posterior)
    {
      next := trace;
      var round := Round(X, pdf);
      if round.Err? {
        return Err(round.error), next;
      }
      assert step(trace[|trace| - 1], Current());
      assert PosteriorFrom(X, pdf, trace[|trace| - 1]) == Some(posterior);
      ExtendRun(step, ll, trace, Current());
      next := trace + [Current()];
      r := Ok(LogLikelihood(X, phi, mu[..], sigma[..], pdf, log));
      assert Current().phi == phi && Current().mu == mu[..] && Current().sigma == sigma[..];
      assert next[|trace|] == Current();
      if Stops(previous, r.value) || |trace| == MaxRounds {
        EMRunFinished(step, ll, next, FitSummary(|trace|, Stops(previous, r.value), previous, r.value));
      } else {
        NoStopGrows(ll, next, |trace|);
      }
    }

    /** The inner loop of predict: the density of x under each component,
        then the first maximum. */
    method MostLikely(x: Point, pdf: Density) returns (j: nat)
      requires Valid() && K > 0
      ensures j == ArgMax(Densities(x, mu[..], sigma[..], pdf))
    {
      var probs := new real[K];
      for t := 0 to K
        invariant forall u :: 0 <= u < t ==> probs[u] == pdf(x, mu[u], sigma[u])
      {
        probs[t] := pdf(x, mu[t], sigma[t]);
      }
      assert probs[..] == Densities(x, mu[..], sigma[..], pdf);
      j := ArgMax(probs[..]);
    }

    /** predict: each row goes to the list of the component under which its
        density is largest, the first such component on ties. */
    method Predict(X: Matrix, pdf: Density) returns (clusters: seq<seq<nat>>)
      requires Valid() && K > 0
      ensures clusters == Assignment(X, mu[..], sigma[..], pdf)
      ensures IsPartition(clusters, |X.rows|)
      ensures forall c, i {:trigger i in clusters[c]} :: 0 <= c < K && i in clusters[c] ==>
        0 <= i < |X.rows| && IsFirstMax(Densities(X.rows[i], mu[..], sigma[..], pdf), c)
    {
      ghost var a := Components(X, mu[..], sigma[..], pdf);
      clusters := seq(K, _ => []);
      for i := 0 to |X.rows|
        invariant clusters == Groups(a[..i], K)
      {
        var max := MostLikely(X.rows[i], pdf);
        GroupsStep(a, K, i);
        var grown: seq<nat> := clusters[max] + [i];
        clusters := clusters[max := grown];
      }
      assert a[..|X.rows|] == a;
      AssignmentIsMaxDensity(X, mu[..], sigma[..], pdf);
    }
  }
}

=== FILE: kmeans.dfy ===
/** Lloyd's K-Means (src/k_means.h): a KMeans object owns an array of K
    centers that fit seeds (k-means++ or random rows) and then refines by
    alternating nearest-center assignment and cluster means until the
    assignment no longer changes. The random choices are parameters: the
    first k-means++ row and the shuffle draws of the random seeding. */
module KMeansModel {
  import opened Results
  import opened Algorithms
  import opened Common

  /** Why fit stops without a result. The source exits on a bad option and
      runs into undefined behaviour (an out-of-range row or center, a division
      by an empty cluster's size) on the other cases; the loop that the
      source runs until it stabilises is bounded here by a fuel count. */
  datatype KMeansError = InvalidInit | NoClusters | TooFewRows | EmptyCluster | NotConverged

  /* ------------------------------------------------------- specification */

  /** The center nearest_center picks, as the scan std::min_element makes over
      the distances: a later center replaces the candidate only when strictly
      closer. */
  function Nearest(cs: seq<Point>, x: Point): (k: nat)
    requires |cs| > 0
    ensures k < |cs|
  {
    if |cs| == 1 then 0
    else
      var k := Nearest(cs[..|cs| - 1], x);
      if SqDist(x, cs[|cs| - 1]) < SqDist(x, cs[k]) then |cs| - 1 else k
  }

  /** The scan is the first minimum of the distance list. */
  lemma {:induction false} NearestIsArgMin(cs: seq<Point>, x: Point)
    requires |cs| > 0
    ensures Nearest(cs, x) == ArgMin(Distances(cs, x))
  {
    if |cs| > 1 {
      var d := Distances(cs, x);
      NearestIsArgMin(cs[..|cs| - 1], x);
      assert d[..|d| - 1] == Distances(cs[..|cs| - 1], x);
    }
  }

  /** No center is closer to x than the nearest one, and every center before
      it is strictly farther (ties go to the lowest index). */
  lemma NearestIsClosest(cs: seq<Point>, x: Point)
    requires |cs| > 0
    ensures forall c :: 0 <= c < |cs| ==> SqDist(x, cs[Nearest(cs, x)]) <= SqDist(x, cs[c])
    ensures forall c :: 0 <= c < Nearest(cs, x) ==> SqDist(x, cs[Nearest(cs, x)]) < SqDist(x, cs[c])
  {
    NearestIsArgMin(cs, x);
    var d := Distances(cs, x);
    assert IsFirstMin(d, Nearest(cs, x));
  }

  /** Distance from x to its nearest center. */
  function MinDist(cs: seq<Point>, x: Point): real
    requires |cs| > 0
  {
    SqDist(x, cs[Nearest(cs, x)])
  }

  /** The nearest distance is the least distance to any center. */
  lemma MinDistIsLeast(cs: seq<Point>, x: Point)
    requires |cs| > 0
    ensures MinDist(cs, x) >= 0.0
    ensures forall c :: 0 <= c < |cs| ==> MinDist(cs, x) <= SqDist(x, cs[c])
    ensures exists c :: 0 <= c < |cs| && MinDist(cs, x) == SqDist(x, cs[c])
  {
    NearestIsClosest(cs, x);
  }

  /** The nearest center of every row. */
  function Assignments(X: Matrix, cs: seq<Point>): (a: seq<nat>)
    requires |cs| > 0
    ensures |a| == |X.rows| && AllBelow(a, |cs|)
    ensures forall i :: 0 <= i < |X.rows| ==> a[i] == Nearest(cs, X.rows[i])
  {
    seq(|X.rows|, i requires 0 <= i < |X.rows| => Nearest(cs, X.rows[i]))
  }

  /** The clusters make_clusters builds: for each center, the ascending list
      of the rows assigned to it. */
  function Clusters(X: Matrix, cs: seq<Point>): (g: seq<seq<nat>>)
    requires |cs| > 0
    ensures |g| == |cs|
  {
    Groups(Assignments(X, cs), |cs|)
  }

  /** The clusters partition the rows, and each row sits in the cluster of a
      center it is nearest to. */
  lemma ClustersAreNearest(X: Matrix, cs: seq<Point>)
    requires |cs| > 0
    ensures IsPartition(Clusters(X, cs), |X.rows|)
    ensures forall c, i {:trigger i in Clusters(X, cs)[c]} :: 0 <= c < |cs| && i in Clusters(X, cs)[c] ==>
      0 <= i < |X.rows| && forall d :: 0 <= d < |cs| ==> SqDist(X.rows[i], cs[c]) <= SqDist(X.rows[i], cs[d])
  {
    var a := Assignments(X, cs);
    GroupsPartition(a, |cs|);
    GroupsMembers(a, |cs|);
    forall i | 0 <= i < |X.rows| ensures forall d :: 0 <= d < |cs| ==> SqDist(X.rows[i], cs[a[i]]) <= SqDist(X.rows[i], cs[d]) {
      NearestIsClosest(cs, X.rows[i]);
    }
  }

  /** Every cluster lists rows of X. */
  lemma ClustersRowsIn(X: Matrix, cs: seq<Point>)
    requires |cs| > 0
    ensures forall c :: 0 <= c < |cs| ==> RowsIn(X, Clusters(X, cs)[c])
  {
    var g := Clusters(X, cs);
    ClustersAreNearest(X, cs);
    forall c, j | 0 <= c < |cs| && 0 <= j < |g[c]| ensures g[c][j] < |X.rows| {
      assert g[c][j] in g[c];
    }
  }

  /** What fit stops at: every cluster is non-empty and every center is the
      mean of its own cluster, so one more round changes nothing. */
  ghost predicate IsFixedPoint(X: Matrix, cs: seq<Point>)
    requires X.Valid() && |cs| > 0
  {
    var g := Clusters(X, cs);
    forall c :: 0 <= c < |cs| ==> |g[c]| > 0 && RowsIn(X, g[c]) && cs[c] == Mean(X, g[c])
  }

  /** With a single center every row belongs to it. */
  lemma {:induction false} OneClusterHoldsAll(X: Matrix, cs: seq<Point>)
    requires |cs| == 1
    ensures Clusters(X, cs) == [Iota(|X.rows|)]
  {
    var a := Assignments(X, cs);
    assert a == seq(|X.rows|, _ => 0);
    GroupsOfZeros(|X.rows|);
  }

  lemma {:induction false} GroupsOfZeros(n: nat)
    ensures Groups(seq(n, _ => 0), 1) == [Iota(n)]
  {
    if n > 0 {
      var z := seq(n, _ => 0);
      assert z[..n - 1] == seq(n - 1, _ => 0);
      GroupsOfZeros(n - 1);
      assert Iota(n - 1) + [n - 1] == Iota(n);
    }
  }

  /** The distance from each row to its nearest center. */
  function MinDists(X: Matrix, cs: seq<Point>): (d: seq<real>)
    requires |cs| > 0
    ensures |d| == |X.rows| && forall j :: 0 <= j < |X.rows| ==> d[j] == MinDist(cs, X.rows[j])
  {
    seq(|X.rows|, j requires 0 <= j < |X.rows| => MinDist(cs, X.rows[j]))
  }

  /** The row k-means++ seeds next: the first row whose distance to its
      nearest center is largest (std::max_element over those distances). */
  function Farthest(X: Matrix, cs: seq<Point>): (j: nat)
    requires |cs| > 0 && |X.rows| > 0
    ensures j < |X.rows|
  {
    ArgMax(MinDists(X, cs))
  }

  /** No row is farther from its nearest center than the row seeded next. */
  lemma FarthestIsFarthest(X: Matrix, cs: seq<Point>)
    requires |cs| > 0 && |X.rows| > 0
    ensures forall r :: 0 <= r < |X.rows| ==> MinDist(cs, X.rows[r]) <= MinDist(cs, X.rows[Farthest(X, cs)])
  {
    assert IsFirstMax(MinDists(X, cs), Farthest(X, cs));
  }

  /** The first k centers kmpp_init_center chooses, the first one being row
      `first`. */
  function KmppSeeds(X: Matrix, first: nat, k: nat): (s: seq<Point>)
    requires first < |X.rows|
    ensures |s| == k
  {
    if k == 0 then []
    else if k == 1 then [X.rows[first]]
    else
      var prev := KmppSeeds(X, first, k - 1);
      prev + [X.rows[Farthest(X, prev)]]
  }

  /** Every seed is a row of X. */
  lemma {:induction false} KmppSeedsAreRows(X: Matrix, first: nat, k: nat)
    requires first < |X.rows|
    ensures forall i :: 0 <= i < k ==> KmppSeeds(X, first, k)[i] in X.rows
  {
    if k > 1 {
      KmppSeedsAreRows(X, first, k - 1);
      var prev := KmppSeeds(X, first, k - 1);
      assert KmppSeeds(X, first, k) == prev + [X.rows[Farthest(X, prev)]];
    }
  }

  /** One k-means++ step appends the farthest row to the seeds so far. */
  lemma KmppSeedsStep(X: Matrix, first: nat, i: nat)
    requires first < |X.rows| && i >= 1
    ensures KmppSeeds(X, first, i + 1) == KmppSeeds(X, first, i) + [X.rows[Farthest(X, KmppSeeds(X, first, i))]]
  {
  }

  /** While some row of X is not yet a center, the row seeded next is not a
      center either: k-means++ never repeats a center until it runs out of
      distinct rows. */
  lemma FarthestIsNew(X: Matrix, cs: seq<Point>)
    requires X.Valid() && |cs| > 0 && |X.rows| > 0
    requires forall c :: 0 <= c < |cs| ==> cs[c] in X.rows
    requires exists r :: 0 <= r < |X.rows| && X.rows[r] !in cs
    ensures X.rows[Farthest(X, cs)] !in cs
  {
    var r :| 0 <= r < |X.rows| && X.rows[r] !in cs;
    var k := Nearest(cs, X.rows[r]);
    SqDistZeroIffEqual(X.rows[r], cs[k]);
    var j := Farthest(X, cs);
    FarthestIsFarthest(X, cs);
    assert MinDist(cs, X.rows[j]) > 0.0;
    MinDistIsLeast(cs, X.rows[j]);
    forall c | 0 <= c < |cs| ensures X.rows[j] != cs[c] {
      SqDistZeroIffEqual(X.rows[j], cs[c]);
    }
  }

  /** The k-means++ seeds are pairwise distinct as long as X still has a row
      that is not among the seeds chosen so far. */
  lemma KmppSeedIsNew(X: Matrix, first: nat, k: nat)
    requires X.Valid() && first < |X.rows| && k >= 2
    requires exists r :: 0 <= r < |X.rows| && X.rows[r] !in KmppSeeds(X, first, k - 1)
    ensures KmppSeeds(X, first, k)[k - 1] !in KmppSeeds(X, first, k - 1)
  {
    KmppSeedsAreRows(X, first, k - 1);
    FarthestIsNew(X, KmppSeeds(X, first, k - 1));
  }

  /* ---------------------------------------------------------------- class */

  class KMeans {
    const K: nat
    const centers: array<Point>

    ghost predicate Valid()
      reads this
    {
      centers.Length == K
    }

    /** Allocates K (not yet meaningful) centers. */
    constructor(K: nat)
      ensures this.K == K && Valid() && fresh(centers)
    {
      this.K := K;
      centers := new Point[K](_ => []);
    }

    /** nearest_center: distances to the first n centers, then the first minimum. */
    method NearestCenter(x: Point, n: nat) returns (idx: nat)
      requires Valid() && 0 < n <= K
      ensures idx == Nearest(centers[..n], x)
    {
      var norms := new real[n];
      for i := 0 to n
        invariant forall j :: 0 <= j < i ==> norms[j] == SqDist(x, centers[j])
      {
        norms[i] := SqDist(x, centers[i]);
      }
      assert norms[..] == Distances(centers[..n], x);
      idx := ArgMin(norms[..]);
      NearestIsArgMin(centers[..n], x);
    }

    /** make_clusters: each row, in order, is appended to the list of its
        nearest center. */
    method MakeClusters(X: Matrix) returns (clusters: seq<seq<nat>>)
      requires Valid() && K > 0
      ensures clusters == Clusters(X, centers[..])
    {
      ghost var a := Assignments(X, centers[..]);
      clusters := seq(K, _ => []);
      for i := 0 to |X.rows|
        invariant clusters == Groups(a[..i], K)
      {
        var idx := NearestCenter(X.rows[i], K);
        assert centers[..K] == centers[..];
        GroupsStep(a, K, i);
        var grown: seq<nat> := clusters[idx] + [i];
        clusters := clusters[idx := grown];
      }
      assert a[..|X.rows|] == a;
    }

    /** update_centers: each center becomes the mean of its cluster. */
    method UpdateCenters(X: Matrix, clusters: seq<seq<nat>>)
      requires Valid() && X.Valid() && |clusters| == K
      requires forall c :: 0 <= c < K ==> |clusters[c]| > 0 && RowsIn(X, clusters[c])
      modifies centers
      ensures forall c :: 0 <= c < K ==> centers[c] == Mean(X, clusters[c])
    {
      for i := 0 to |clusters|
        invariant forall c :: 0 <= c < i ==> centers[c] == Mean(X, clusters[c])
      {
        var cl := clusters[i];
        var sum := SumRows(X, []);
        for j := 0 to |cl|
          invariant sum == SumRows(X, cl[..j])
        {
          assert cl[..j + 1][..j] == cl[..j];
          sum := VecAdd(sum, X.rows[cl[j]]);
        }
        assert cl[..|cl|] == cl;
        centers[i] := VecDiv(sum, |cl| as real);
      }
    }

    /** The inner loop of kmpp_init_center: for every row, the distance to
        its nearest center among the first n. */
    method NearestDistances(X: Matrix, n: nat) returns (norms: array<real>)
      requires Valid() && 0 < n <= K
      ensures fresh(norms) && norms[..] == MinDists(X, centers[..n])
    {
      ghost var seeds := centers[..n];
      norms := new real[|X.rows|];
      for j := 0 to |X.rows|
        invariant forall r :: 0 <= r < j ==> norms[r] == MinDist(seeds, X.rows[r])
      {
        var idx := NearestCenter(X.rows[j], n);
        assert centers[idx] == seeds[idx];
        norms[j] := SqDist(X.rows[j], centers[idx]);
      }
    }

    /** kmpp_init_center: the first center is row `first`; each further
        center is the row farthest from its nearest existing center. */
    method KmppInitCenter(X: Matrix, first: nat)
      requires Valid() && K > 0 && first < |X.rows|
      modifies centers
      ensures centers[..] == KmppSeeds(X, first, K)
    {
      centers[0] := X.rows[first];
      for i := 1 to K
        invariant centers[..i] == KmppSeeds(X, first, i)
      {
        ghost var seeds := centers[..i];
        var norms := NearestDistances(X, i);
        var far := ArgMax(norms[..]);
        centers[i] := X.rows[far];
        KmppSeedsStep(X, first, i);
        assert centers[..i] == seeds;
        assert centers[..i + 1] == centers[..i] + [centers[i]];
      }
      assert centers[..K] == centers[..];
    }

    /** rand_init_center: the centers are the rows at the first K positions
        of a random permutation of the row indices, hence K distinct rows. */
    method RandInitCenter(X: Matrix, draws: seq<nat>) returns (perm: seq<nat>)
      requires Valid() && K <= |X.rows| && ValidDraws(draws, |X.rows|)
      modifies centers
      ensures IsPermutation(perm, |X.rows|) && |perm| == |X.rows|
      ensures forall i :: 0 <= i < |perm| ==> perm[i] < |X.rows|
      ensures forall i :: 0 <= i < K ==> centers[i] == X.rows[perm[i]]
      ensures forall i, j :: 0 <= i < j < K ==> perm[i] != perm[j]
    {
      perm := GenerateRandomIndex(|X.rows|, draws);
      PermutationFacts(perm, |X.rows|);
      for i := 0 to K
        invariant forall c :: 0 <= c < i ==> centers[c] == X.rows[perm[c]]
      {
        centers[i] := X.rows[perm[i]];
      }
    }

    /** fit: validate the option, seed the centers, then alternate
        make_clusters and update_centers until two successive assignments
        agree. On success the result counts the center updates and the
        centers are a fixed point of Lloyd's iteration. */
    method Fit(X: Matrix, init: string, first: nat, draws: seq<nat>, fuel: nat) returns (r: Result<nat, KMeansError>)
      requires Valid() && X.Valid()
      requires |X.rows| > 0 ==> first < |X.rows|
      requires ValidDraws(draws, |X.rows|)
      modifies centers
      ensures r == Err(InvalidInit) <==> init != "kmpp" && init != "random"
      ensures r == Err(NoClusters) <==> (init == "kmpp" || init == "random") && K == 0
      ensures r == Err(TooFewRows) <==>
                (init == "kmpp" || init == "random") && K > 0 && (|X.rows| == 0 || (init == "random" && K > |X.rows|))
      ensures r.Err? && r.error in {InvalidInit, NoClusters, TooFewRows} ==> unchanged(centers)
      ensures r.Ok? ==> 0 < r.value <= fuel && K > 0 && IsFixedPoint(X, centers[..])
      ensures K == 1 && |X.rows| > 0 && fuel > 0 && (init == "kmpp" || init == "random") ==>
        r == Ok(1) && centers[0] == ColMean(X)
    {
      if init != "kmpp" && init != "random" {
        return Err(InvalidInit);
      }
      if K == 0 {
        return Err(NoClusters);
      }
      if |X.rows| == 0 || (init == "random" && K > |X.rows|) {
        return Err(TooFewRows);
      }
      if init == "kmpp" {
        KmppInitCenter(X, first);
      } else {
        var _ := RandInitCenter(X, draws);
      }
      var prev: seq<seq<nat>> := [];
      var updates := 0;
      while true
        invariant updates <= fuel
        invariant updates == 0 ==> prev == []
        invariant updates > 0 ==> |prev| == K
        invariant updates > 0 ==> forall c :: 0 <= c < K ==> |prev[c]| > 0 && RowsIn(X, prev[c]) && centers[c] == Mean(X, prev[c])
        invariant K == 1 ==> updates <= 1 && (updates == 1 ==> prev == [Iota(|X.rows|)])
        decreases fuel - updates
      {
        var curr := MakeClusters(X);
        if K == 1 {
          OneClusterHoldsAll(X, centers[..]);
        }
        if prev == curr {
          return Ok(updates);
        }
        if updates == fuel {
          return Err(NotConverged);
        }
        if exists c :: 0 <= c < K && |curr[c]| == 0 {
          return Err(EmptyCluster);
        }
        ClustersRowsIn(X, centers[..]);
        UpdateCenters(X, curr);
        prev := curr;
        updates := updates + 1;
      }
    }

    /** predict: the clusters of X under the current centers (the same loop as
        make_clusters). */
    method Predict(X: Matrix) returns (clusters: seq<seq<nat>>)
      requires Valid() && K > 0
      ensures clusters == Clusters(X, centers[..])
      ensures IsPartition(clusters, |X.rows|)
    {
      clusters := MakeClusters(X);
      ClustersAreNearest(X, centers[..]);
    }

    /** get_centers hands out the center array itself, not a copy. */
    method GetCenters() returns (cs: array<Point>)
      ensures cs == centers
    {
      cs := centers;
    }
  }
}

=== FILE: knn.dfy ===
/** K nearest neighbours (src/k_nearest_neighbors.h): fit keeps the training
    rows and labels; predict ranks every training row by its distance to the
    query with a stable argsort, counts the labels of the first K, and answers
    the first most frequent label. */
module KnnModel {
  import opened Results
  import opened Algorithms
  import opened Common

  /** The constructor's only failure: a neighbour count that is not positive. */
  datatype KnnError = InvalidNeighbourSize

  /* ------------------------------------------------------- the argsort */

  /** Row i ranks before row j: strictly closer, or equally close and earlier.
      This is the order std::stable_sort gives indices that start out as
      0, 1, 2, ... under the comparison norms[i] < norms[j]. */
  ghost predicate Nearer(norms: seq<real>, i: nat, j: nat)
    requires i < |norms| && j < |norms|
  {
    norms[i] < norms[j] || (norms[i] == norms[j] && i < j)
  }

  /** Every earlier index ranks before every later one. */
  ghost predicate Sorted(norms: seq<real>, s: seq<nat>)
  {
    AllBelow(s, |norms|)
    && forall i, j {:trigger Nearer(norms, s[i], s[j])} :: 0 <= i < j < |s| ==> Nearer(norms, s[i], s[j])
  }

  /** One insertion step of a stable sort: x moves in front of the entries at
      the back that compare strictly greater than it. */
  function Insert(norms: seq<real>, s: seq<nat>, x: nat): (r: seq<nat>)
    requires AllBelow(s, |norms|) && x < |norms|
    ensures |r| == |s| + 1 && forall k :: 0 <= k < |r| ==> r[k] == x || r[k] in s
    ensures multiset(r) == multiset(s) + multiset{x}
  {
    if |s| == 0 then [x]
    else
      var p, last := s[..|s| - 1], s[|s| - 1];
      assert s == p + [last];
      if norms[x] < norms[last] then Insert(norms, p, x) + [last] else s + [x]
  }

  /** The indices 0..n-1 stably sorted by norm: each index in turn is
      inserted into the order of the ones before it. */
  function ArgSort(norms: seq<real>, n: nat): (s: seq<nat>)
    requires n <= |norms|
    ensures |s| == n && AllBelow(s, n)
  {
    if n == 0 then [] else Insert(norms, ArgSort(norms, n - 1), n - 1)
  }

  /** The argsort holds each index below n exactly once. */
  lemma {:induction false} ArgSortIsPermutation(norms: seq<real>, n: nat)
    requires n <= |norms|
    ensures IsPermutation(ArgSort(norms, n), n)
  {
    if n > 0 {
      ArgSortIsPermutation(norms, n - 1);
      assert Iota(n) == Iota(n - 1) + [n - 1];
    }
  }

  /** A sorted order stays sorted when an index that every entry ranks
      before is appended. */
  lemma SortedSnoc(norms: seq<real>, q: seq<nat>, y: nat)
    requires Sorted(norms, q) && y < |norms|
    requires forall i :: 0 <= i < |q| ==> Nearer(norms, q[i], y)
    ensures Sorted(norms, q + [y])
  {
    var r := q + [y];
    forall i, j | 0 <= i < j < |r|
      ensures Nearer(norms, r[i], r[j])
    {
      if j < |q| {
        assert r[i] == q[i] && r[j] == q[j];
      }
    }
  }

  /** Every entry of the order after inserting x into p ranks before last,
      when x and every entry of p do. */
  lemma InsertedBeforeLast(norms: seq<real>, s: seq<nat>, x: nat, q: seq<nat>)
    requires Sorted(norms, s) && |s| > 0 && x < |norms|
    requires norms[x] < norms[s[|s| - 1]]
    requires AllBelow(q, |norms|) && multiset(q) == multiset(s[..|s| - 1]) + multiset{x}
    ensures forall i :: 0 <= i < |q| ==> Nearer(norms, q[i], s[|s| - 1])
  {
    var p, last := s[..|s| - 1], s[|s| - 1];
    forall i | 0 <= i < |q|
      ensures Nearer(norms, q[i], last)
    {
      assert q[i] in multiset(q);
      if q[i] != x {
        assert q[i] in multiset(p);
        var k :| 0 <= k < |p| && p[k] == q[i];
        assert s[k] == q[i];
      }
    }
  }

  /** Inserting an index larger than every index already placed keeps the
      order sorted. */
  lemma {:induction false} InsertSorted(norms: seq<real>, s: seq<nat>, x: nat)
    requires Sorted(norms, s) && x < |norms|
    requires forall k :: 0 <= k < |s| ==> s[k] < x
    ensures Sorted(norms, Insert(norms, s, x))
  {
    if |s| > 0 {
      var p, last := s[..|s| - 1], s[|s| - 1];
      if norms[x] < norms[last] {
        InsertSorted(norms, p, x);
        var q := Insert(norms, p, x);
        InsertedBeforeLast(norms, s, x, q);
        SortedSnoc(norms, q, last);
        assert Insert(norms, s, x) == q + [last];
      } else {
        forall i | 0 <= i < |s|
          ensures Nearer(norms, s[i], x)
        {
          if i < |s| - 1 {
            assert Nearer(norms, s[i], last);
          }
        }
        SortedSnoc(norms, s, x);
        assert Insert(norms, s, x) == s + [x];
      }
    }
  }

  /** The argsort ranks every index before every later one. */
  lemma {:induction false} ArgSortSorted(norms: seq<real>, n: nat)
    requires n <= |norms|
    ensures Sorted(norms, ArgSort(norms, n))
  {
    if n > 0 {
      var s := ArgSort(norms, n - 1);
      ArgSortSorted(norms, n - 1);
      InsertSorted(norms, s, n - 1);
    }
  }

  /** Every other index of a sorted order ranks before its last one. */
  lemma SortedLast(norms: seq<real>, s: seq<nat>, x: nat)
    requires Sorted(norms, s) && |s| > 0 && x in multiset(s) && x != s[|s| - 1]
    ensures x < |norms| && Nearer(norms, x, s[|s| - 1])
  {
    var k :| 0 <= k < |s| && s[k] == x;
  }

  /** Two sorted orders of the same indices end with the same index. */
  lemma SortedSameLast(norms: seq<real>, s: seq<nat>, t: seq<nat>)
    requires Sorted(norms, s) && Sorted(norms, t) && multiset(s) == multiset(t) && |s| > 0
    ensures |t| > 0 && s[|s| - 1] == t[|t| - 1]
  {
    assert |s| == |multiset(s)| == |t|;
    var a, b := s[|s| - 1], t[|t| - 1];
    if a != b {
      assert b in multiset(t) && a in multiset(s);
      SortedLast(norms, s, b);
      SortedLast(norms, t, a);
      assert false;
    }
  }

  /** Dropping the last index keeps an order sorted. */
  lemma SortedPrefix(norms: seq<real>, s: seq<nat>) returns (p: seq<nat>)
    requires Sorted(norms, s) && |s| > 0
    ensures p == s[..|s| - 1] && Sorted(norms, p)
    ensures s == p + [s[|s| - 1]] && multiset(p) == multiset(s) - multiset{s[|s| - 1]}
  {
    p := s[..|s| - 1];
    assert s == p + [s[|s| - 1]];
  }

  /** Only one ordering of a set of indices is sorted. */
  lemma {:induction false} SortedUnique(norms: seq<real>, s: seq<nat>, t: seq<nat>)
    requires Sorted(norms, s) && Sorted(norms, t) && multiset(s) == multiset(t)
    ensures s == t
  {
    if |s| == 0 {
      assert |t| == |multiset(t)| == 0;
    } else {
      SortedSameLast(norms, s, t);
      var p := SortedPrefix(norms, s);
      var q := SortedPrefix(norms, t);
      assert multiset(p) == multiset(q);
      SortedUnique(norms, p, q);
    }
  }

  /** ArgSort is the stable sort of the indices: any ordering of 0..N-1 that
      ranks by norm, and equal norms by index, is the one it computes. */
  lemma ArgSortIsStableSort(norms: seq<real>, s: seq<nat>)
    requires IsPermutation(s, |norms|) && Sorted(norms, s)
    ensures s == ArgSort(norms, |norms|)
  {
    ArgSortSorted(norms, |norms|);
    ArgSortIsPermutation(norms, |norms|);
    SortedUnique(norms, s, ArgSort(norms, |norms|));
  }

  /** The first K indices of the order are the K nearest rows: none of the
      rows left out is strictly closer than any row taken. */
  lemma KNearestAreNearest(norms: seq<real>, K: nat)
    requires K <= |norms|
    ensures forall i, j :: 0 <= i < K <= j < |norms| ==>
      norms[ArgSort(norms, |norms|)[i]] <= norms[ArgSort(norms, |norms|)[j]]
  {
    var s := ArgSort(norms, |norms|);
    ArgSortSorted(norms, |norms|);
    forall i, j | 0 <= i < K <= j < |norms|
      ensures norms[s[i]] <= norms[s[j]]
    {
      assert Nearer(norms, s[i], s[j]);
    }
  }

  /** The order starts with the first closest row, the one std::min_element
      would find. */
  lemma FirstIsClosest(norms: seq<real>)
    requires |norms| > 0
    ensures ArgSort(norms, |norms|)[0] == ArgMin(norms)
  {
    var s := ArgSort(norms, |norms|);
    ArgSortSorted(norms, |norms|);
    ArgSortIsPermutation(norms, |norms|);
    forall j | 0 <= j < |norms|
      ensures norms[s[0]] <= norms[j] && (j < s[0] ==> norms[s[0]] < norms[j])
    {
      PermutationHas(s, |norms|, j);
      var k :| 0 <= k < |s| && s[k] == j;
      if k > 0 {
        assert Nearer(norms, s[0], s[k]);
      }
    }
    assert IsFirstMin(norms, s[0]);
    FirstMinUnique(norms, s[0], ArgMin(norms));
  }

  /* ------------------------------------------------------- the vote */

  /** Label counts over the first K rows of an order, one slot per class. */
  function Votes(order: seq<nat>, labels: seq<nat>, K: nat, nClass: nat): (v: seq<nat>)
    requires AllBelow(order, |labels|) && K <= |order| && AllBelow(labels, nClass)
  {
    Histogram(Pick(labels, order[..K]), nClass)
  }

  /** Each of the K neighbours casts exactly one vote. */
  lemma VotesTotal(order: seq<nat>, labels: seq<nat>, K: nat, nClass: nat)
    requires AllBelow(order, |labels|) && K <= |order| && AllBelow(labels, nClass)
    ensures |Votes(order, labels, K, nClass)| == nClass
    ensures SumNat(Votes(order, labels, K, nClass)) == K
  {
    HistogramTotal(Pick(labels, order[..K]), nClass);
  }

  /** The winning class is the label of one of the K rows counted. */
  lemma WinnerIsANeighbourLabel(order: seq<nat>, labels: seq<nat>, K: nat, nClass: nat, c: nat)
    requires AllBelow(order, |labels|) && 0 < K <= |order| && AllBelow(labels, nClass)
    requires IsFirstMax(AsReals(Votes(order, labels, K, nClass)), c)
    ensures c in Pick(labels, order[..K])
  {
    MostFrequentOccurs(Pick(labels, order[..K]), nClass, c);
  }

  /** The training rows, nearest to x first. */
  function Ranking(rows: seq<Point>, x: Point): (s: seq<nat>)
    ensures |s| == |rows| && AllBelow(s, |rows|)
  {
    ArgSort(Distances(rows, x), |rows|)
  }

  /** c is the first class with the most votes among the K training rows
      nearest x. */
  ghost predicate Answers(rows: seq<Point>, labels: seq<nat>, K: nat, nClass: nat, x: Point, c: nat)
    requires |rows| == |labels| && K <= |labels| && AllBelow(labels, nClass)
  {
    c < nClass && IsFirstMax(AsReals(Votes(Ranking(rows, x), labels, K, nClass)), c)
  }

  /** With one neighbour the answer is the label of the first closest row. */
  lemma OneNeighbour(rows: seq<Point>, labels: seq<nat>, nClass: nat, x: Point, c: nat)
    requires |rows| == |labels| && 0 < |labels| && AllBelow(labels, nClass)
    requires Answers(rows, labels, 1, nClass, x, c)
    ensures c == labels[ArgMin(Distances(rows, x))]
  {
    var order := Ranking(rows, x);
    WinnerIsANeighbourLabel(order, labels, 1, nClass, c);
    assert Pick(labels, order[..1]) == [labels[order[0]]];
    FirstIsClosest(Distances(rows, x));
  }

  /* ------------------------------------------------------- the classifier */

  class KNN {
    const K: nat
    var nClass: nat
    var features: Matrix
    var labels: seq<nat>

    /** A training row per label, every label below nClass. */
    ghost predicate Valid()
      reads this
    {
      K > 0 && features.Valid() && |features.rows| == |labels| && AllBelow(labels, nClass)
    }

    /** A classifier with no training data yet. */
    constructor(K: nat)
      requires K > 0
      ensures this.K == K && nClass == 0 && labels == [] && Valid()
    {
      this.K := K;
      nClass := 0;
      features := Matrix(0, []);
      labels := [];
    }

    /** KNN(int): the source refuses a neighbour count that is not positive. */
    static method Create(K: int) returns (r: Result<KNN, KnnError>)
      ensures r.Err? <==> K <= 0
      ensures r.Ok? ==> (fresh(r.value) && r.value.K == K && r.value.nClass == 0
        && r.value.labels == [] && r.value.Valid())
    {
      if K <= 0 {
        return Err(InvalidNeighbourSize);
      }
      var knn := new KNN(K as nat);
      return Ok(knn);
    }

    /** fit: keep the data; the class count is one more than the largest label. */
    method Fit(X: Matrix, Y: seq<nat>)
      requires Valid() && X.Valid() && |Y| == |X.rows| && |Y| > 0
      modifies this
      ensures features == X && labels == Y && nClass == MaxNat(Y) + 1 && Valid()
    {
      features := X;
      labels := Y;
      nClass := MaxNat(Y) + 1;
    }

    /** calculate_euclidean_norms: the distance from x to each training row. */
    method Norms(x: Point) returns (norms: seq<real>)
      ensures norms == Distances(features.rows, x)
    {
      var a := new real[|features.rows|];
      for i := 0 to |features.rows|
        invariant forall j :: 0 <= j < i ==> a[j] == SqDist(x, features.rows[j])
      {
        a[i] := SqDist(x, features.rows[i]);
      }
      norms := a[..];
    }

    /** select_K_neighbors: argsort the distances, then count the labels of
        the first K rows. */
    method SelectKNeighbours(norms: seq<real>) returns (neighbours: seq<nat>)
      requires Valid() && |norms| == |labels| && K <= |labels|
      ensures neighbours == Votes(ArgSort(norms, |norms|), labels, K, nClass)
    {
      var indices := ArgSort(norms, |norms|);
      neighbours := CountNeighbours(indices);
    }

    /** The counting loop of select_K_neighbors: neighbors[label]++ over the
        labels of the first K indices. */
    method CountNeighbours(indices: seq<nat>) returns (counts: seq<nat>)
      requires Valid() && AllBelow(indices, |labels|) && K <= |indices|
      ensures counts == Votes(indices, labels, K, nClass)
    {
      ghost var voters := Pick(labels, indices[..K]);
      counts := seq(nClass, _ => 0);
      for i := 0 to K
        invariant counts == Histogram(voters[..i], nClass)
      {
        var y := labels[indices[i]];
        assert voters[..i + 1][..i] == voters[..i] && voters[i] == y;
        assert Histogram(voters[..i + 1], nClass) == counts[y := counts[y] + 1];
        counts := counts[y := counts[y] + 1];
      }
      assert voters[..K] == voters;
    }

    /** predict: for each query row, the first class with the most votes. */
    method Predict(X: Matrix) returns (predicted: seq<nat>)
      requires Valid() && K <= |labels| && X.Valid() && X.nCols == features.nCols
      ensures |predicted| == |X.rows|
      ensures forall i :: 0 <= i < |X.rows| ==> Answers(features.rows, labels, K, nClass, X.rows[i], predicted[i])
    {
      predicted := [];
      for i := 0 to |X.rows|
        invariant |predicted| == i
        invariant forall j :: 0 <= j < i ==> Answers(features.rows, labels, K, nClass, X.rows[j], predicted[j])
      {
        var norms := Norms(X.rows[i]);
        var freqs := SelectKNeighbours(norms);
        assert labels[0] < nClass;
        var c := ArgMax(AsReals(freqs));
        assert Answers(features.rows, labels, K, nClass, X.rows[i], c);
        predicted := predicted + [c];
      }
    }
  }
}

=== FILE: model_evaluation.dfy ===
/** k-fold cross-validation of a classifier: the rows are shuffled and cut
    into n_fold folds of N / n_fold rows (the last N mod n_fold shuffled rows
    are dropped); for each fold the classifier is trained on the other folds,
    in fold order, and scored on that fold, and the accuracies are averaged. */
module ModelEvaluation {
  import opened Results
  import opened Algorithms
  import opened Common

  /** The one case the source leaves numerically undefined: a fold with no
      rows (N < n_fold) makes calc_accuracy divide 0 by 0. */
  datatype EvalError = EmptyFold

  /** model.fit on the training rows and labels, then model.predict on the test rows. */
  type Classifier = (Matrix, seq<nat>, Matrix) -> seq<nat>

  /* ------------------------------------------------------ split_to_folds */

  /** Where fold i starts: i * size, written as a running sum. */
  function Offset(size: nat, i: nat): nat
  {
    if i == 0 then 0 else Offset(size, i - 1) + size
  }

  lemma {:induction false} OffsetIsProduct(size: nat, i: nat)
    ensures Offset(size, i) == size * i
  {
    if i > 0 {
      OffsetIsProduct(size, i - 1);
    }
  }

  /** A fold ends no later than any later fold starts. */
  lemma {:induction false} OffsetMono(size: nat, i: nat, k: nat)
    requires i < k
    ensures Offset(size, i) + size <= Offset(size, k)
  {
    if i + 1 < k {
      OffsetMono(size, i, k - 1);
    }
  }

  /** The n_fold folds of N / n_fold entries fill all but the last N mod n_fold positions. */
  lemma FoldsFill(N: nat, nFold: nat)
    requires nFold > 0
    ensures Offset(N / nFold, nFold) == N - N % nFold
  {
    OffsetIsProduct(N / nFold, nFold);
  }

  /** Fold i: the permuted indices at positions i * size .. (i + 1) * size, size = N / n_fold. */
  function Fold(perm: seq<nat>, nFold: nat, i: nat): (f: seq<nat>)
    requires i < nFold
    ensures |f| == |perm| / nFold && Offset(|f|, i) + |f| <= |perm|
    ensures forall j :: 0 <= j < |f| ==> f[j] == perm[j + Offset(|f|, i)]
  {
    var size := |perm| / nFold;
    OffsetMono(size, i, nFold);
    FoldsFill(|perm|, nFold);
    perm[Offset(size, i) .. Offset(size, i) + size]
  }

  function Folds(perm: seq<nat>, nFold: nat): (folds: seq<seq<nat>>)
    requires nFold > 0
    ensures |folds| == nFold && forall i :: 0 <= i < nFold ==> folds[i] == Fold(perm, nFold, i)
  {
    seq(nFold, i requires 0 <= i < nFold => Fold(perm, nFold, i))
  }

  /** The inner loop of split_to_folds: folds[i][j] = perm[j + size * i]. */
  method CopyFold(perm: seq<nat>, nFold: nat, i: nat) returns (fold: seq<nat>)
    requires i < nFold
    ensures fold == Fold(perm, nFold, i)
  {
    var size := |perm| / nFold;
    OffsetMono(size, i, nFold);
    FoldsFill(|perm|, nFold);
    OffsetIsProduct(size, i);
    var a := new nat[size];
    for j := 0 to size
      invariant forall t :: 0 <= t < j ==> a[t] == perm[t + Offset(size, i)]
    {
      a[j] := perm[j + size * i];
    }
    fold := a[..];
  }

  /** split_to_folds: shuffle 0..N-1 (the clock-seeded engine's swaps are the
      draws) and fill n_fold folds of N / n_fold entries. */
  method SplitToFolds(N: nat, nFold: nat, draws: seq<nat>) returns (folds: seq<seq<nat>>, perm: seq<nat>)
    requires nFold > 0 && ValidDraws(draws, N)
    ensures IsPermutation(perm, N) && folds == Folds(perm, nFold)
  {
    perm := GenerateRandomIndex(N, draws);
    PermutationFacts(perm, N);
    folds := [];
    for i := 0 to nFold
      invariant |folds| == i && forall f :: 0 <= f < i ==> folds[f] == Fold(perm, nFold, f)
    {
      var fold := CopyFold(perm, nFold, i);
      folds := folds + [fold];
    }
  }

  /** No index is in two folds. */
  lemma FoldsDisjoint(perm: seq<nat>, nFold: nat, N: nat)
    requires nFold > 0 && IsPermutation(perm, N)
    ensures forall i, i', x :: 0 <= i < i' < nFold && x in Folds(perm, nFold)[i] ==> x !in Folds(perm, nFold)[i']
  {
    PermutationFacts(perm, N);
    var size := N / nFold;
    forall i, i', x | 0 <= i < i' < nFold && x in Folds(perm, nFold)[i]
      ensures x !in Folds(perm, nFold)[i']
    {
      var a :| 0 <= a < size && Fold(perm, nFold, i)[a] == x;
      if x in Fold(perm, nFold, i') {
        var b :| 0 <= b < size && Fold(perm, nFold, i')[b] == x;
        OffsetMono(size, i, i');
        assert a + Offset(size, i) < b + Offset(size, i');
      }
    }
  }

  /** The permuted indices after the n_fold * size filled positions are in no fold. */
  lemma LeftoverInNoFold(perm: seq<nat>, nFold: nat, N: nat)
    requires nFold > 0 && IsPermutation(perm, N)
    ensures forall t, i :: N - N % nFold <= t < |perm| && 0 <= i < nFold ==> perm[t] !in Folds(perm, nFold)[i]
  {
    PermutationFacts(perm, N);
    var size := N / nFold;
    FoldsFill(N, nFold);
    forall t, i | N - N % nFold <= t < |perm| && 0 <= i < nFold
      ensures perm[t] !in Folds(perm, nFold)[i]
    {
      if perm[t] in Fold(perm, nFold, i) {
        var b :| 0 <= b < size && Fold(perm, nFold, i)[b] == perm[t];
        OffsetMono(size, i, nFold);
        assert b + Offset(size, i) < t;
      }
    }
  }

  /** The fold whose positions hold position t, for t among the filled positions. */
  function FoldOf(size: nat, k: nat, t: nat): (i: nat)
    requires t < Offset(size, k)
    ensures i < k && Offset(size, i) <= t < Offset(size, i) + size
  {
    if t < Offset(size, k - 1) then FoldOf(size, k - 1, t) else k - 1
  }

  /** Every filled position's index is in a fold. */
  lemma FoldsCoverPrefix(perm: seq<nat>, nFold: nat, t: nat)
    requires nFold > 0 && t < |perm| - |perm| % nFold
    ensures exists i :: 0 <= i < nFold && perm[t] in Folds(perm, nFold)[i]
  {
    var size := |perm| / nFold;
    FoldsFill(|perm|, nFold);
    var i := FoldOf(size, nFold, t);
    assert Fold(perm, nFold, i)[t - Offset(size, i)] == perm[t];
    assert 0 <= i < nFold && perm[t] in Folds(perm, nFold)[i];
  }

  /** Folds are empty exactly when there are fewer rows than folds. */
  lemma FewerRowsThanFolds(N: nat, nFold: nat)
    requires nFold > 0
    ensures N / nFold == 0 <==> N < nFold
    ensures N == N / nFold * nFold + N % nFold
  {
    assert N == N / nFold * nFold + N % nFold;
  }

  /* ------------------------------------------- train_* and test_* rows */

  /** Folds of equal length whose entries index n rows. */
  ghost predicate EvenFolds(folds: seq<seq<nat>>, n: nat)
  {
    |folds| > 0
    && (forall j :: 0 <= j < |folds| ==> |folds[j]| == |folds[0]|)
    && (forall j :: 0 <= j < |folds| ==> AllBelow(folds[j], n))
  }

  /** The folds of a permutation of 0..N-1 have equal length and index N rows. */
  lemma FoldsEven(perm: seq<nat>, nFold: nat, N: nat)
    requires nFold > 0 && IsPermutation(perm, N)
    ensures |perm| == N && EvenFolds(Folds(perm, nFold), N)
  {
    PermutationFacts(perm, N);
  }

  /** The folds other than `except`, concatenated in fold order. */
  function TrainIndices(folds: seq<seq<nat>>, except: nat): seq<nat>
  {
    if |folds| == 0 then []
    else TrainIndices(folds[..|folds| - 1], except) + (if |folds| - 1 == except then [] else folds[|folds| - 1])
  }

  /** An index is for training exactly when some fold other than `except` holds it. */
  lemma {:induction false} TrainIndicesMembers(folds: seq<seq<nat>>, except: nat, x: nat)
    ensures x in TrainIndices(folds, except) <==> exists j :: 0 <= j < |folds| && j != except && x in folds[j]
  {
    if |folds| > 0 {
      var p := folds[..|folds| - 1];
      TrainIndicesMembers(p, except, x);
      if x in TrainIndices(p, except) {
        var j :| 0 <= j < |p| && j != except && x in p[j];
        assert folds[j] == p[j];
      }
      if j :| 0 <= j < |folds| && j != except && x in folds[j] {
        if j < |p| {
          assert p[j] == folds[j];
        }
      }
    }
  }

  /** The training indices of the first j folds begin the training indices of all of them. */
  lemma {:induction false} TrainIndicesPrefix(folds: seq<seq<nat>>, except: nat, j: nat)
    requires j <= |folds|
    ensures TrainIndices(folds[..j], except) <= TrainIndices(folds, except)
  {
    if j < |folds| {
      assert folds[..|folds| - 1][..j] == folds[..j];
      TrainIndicesPrefix(folds[..|folds| - 1], except, j);
    } else {
      assert folds[..j] == folds;
    }
  }

  /** One more fold: its entries follow, unless it is the excluded one. */
  lemma TrainIndicesStep(folds: seq<seq<nat>>, except: nat, j: nat)
    requires j < |folds|
    ensures TrainIndices(folds[..j + 1], except)
         == TrainIndices(folds[..j], except) + (if j == except then [] else folds[j])
  {
    assert folds[..j + 1][..j] == folds[..j];
  }

  /** (n_fold - 1) * fold size entries: what train_feature and train_label allocate. */
  lemma {:induction false} TrainIndicesLength(folds: seq<seq<nat>>, except: nat, size: nat)
    requires forall j :: 0 <= j < |folds| ==> |folds[j]| == size
    ensures |TrainIndices(folds, except)| == (if except < |folds| then |folds| - 1 else |folds|) * size
  {
    if |folds| > 0 {
      var p := folds[..|folds| - 1];
      TrainIndicesLength(p, except, size);
    }
  }

  lemma TrainIndicesBelow(folds: seq<seq<nat>>, except: nat, n: nat)
    requires EvenFolds(folds, n)
    ensures AllBelow(TrainIndices(folds, except), n)
  {
    forall t | 0 <= t < |TrainIndices(folds, except)| ensures TrainIndices(folds, except)[t] < n {
      var x := TrainIndices(folds, except)[t];
      TrainIndicesMembers(folds, except, x);
      var j :| 0 <= j < |folds| && j != except && x in folds[j];
    }
  }

  /** The inner loop of train_feature / train_label: copy one fold's entries
      to the cursor and advance it. */
  method AppendFold<T>(a: array<T>, i: nat, values: seq<T>, fold: seq<nat>) returns (next: nat)
    requires AllBelow(fold, |values|) && i + |fold| <= a.Length
    modifies a
    ensures next == i + |fold|
    ensures a[..next] == old(a[..i]) + Pick(values, fold)
  {
    next := i;
    for k := 0 to |fold|
      invariant next == i + k
      invariant a[..next] == old(a[..i]) + Pick(values, fold[..k])
    {
      assert Pick(values, fold[..k + 1]) == Pick(values, fold[..k]) + [values[fold[k]]];
      a[next] := values[fold[k]];
      next := next + 1;
    }
    assert fold[..|fold|] == fold;
  }

  /** train_feature / train_label: allocate (n_fold - 1) * fold size entries
      and copy fold after fold, skipping `except`, through a running cursor. */
  method TrainSelect<T(0)>(values: seq<T>, folds: seq<seq<nat>>, except: nat) returns (out: seq<T>)
    requires EvenFolds(folds, |values|) && except < |folds|
    ensures AllBelow(TrainIndices(folds, except), |values|)
    ensures out == Pick(values, TrainIndices(folds, except))
  {
    ghost var whole := TrainIndices(folds, except);
    TrainIndicesLength(folds, except, |folds[0]|);
    TrainIndicesBelow(folds, except, |values|);
    var a := new T[(|folds| - 1) * |folds[0]|];
    var i := 0;
    for j := 0 to |folds|
      invariant i == |TrainIndices(folds[..j], except)| <= a.Length
      invariant AllBelow(TrainIndices(folds[..j], except), |values|)
      invariant a[..i] == Pick(values, TrainIndices(folds[..j], except))
    {
      ghost var before := TrainIndices(folds[..j], except);
      TrainIndicesStep(folds, except, j);
      TrainIndicesPrefix(folds, except, j + 1);
      if j != except {
        PickAppend(values, before, folds[j]);
        i := AppendFold(a, i, values, folds[j]);
      }
    }
    assert folds[..|folds|] == folds;
    out := a[..];
  }

  /** test_feature / test_label: allocate fold-size entries and copy fold `inFold`. */
  method TestSelect<T(0)>(values: seq<T>, folds: seq<seq<nat>>, inFold: nat) returns (out: seq<T>)
    requires EvenFolds(folds, |values|) && inFold < |folds|
    ensures out == Pick(values, folds[inFold])
  {
    var a := new T[|folds[0]|];
    for k := 0 to |folds[inFold]|
      invariant forall t :: 0 <= t < k ==> a[t] == values[folds[inFold][t]]
    {
      a[k] := values[folds[inFold][k]];
    }
    out := a[..];
  }

  /** A fold shares no index with the training rows of its own round. */
  lemma TrainTestDisjoint(perm: seq<nat>, nFold: nat, N: nat, inFold: nat)
    requires nFold > 0 && IsPermutation(perm, N) && inFold < nFold
    ensures forall x :: x in Folds(perm, nFold)[inFold] ==> x !in TrainIndices(Folds(perm, nFold), inFold)
  {
    var folds := Folds(perm, nFold);
    FoldsDisjoint(perm, nFold, N);
    forall x | x in folds[inFold] ensures x !in TrainIndices(folds, inFold) {
      TrainIndicesMembers(folds, inFold, x);
    }
  }

  method TrainFeature(X: Matrix, folds: seq<seq<nat>>, except: nat) returns (Xf: Matrix)
    requires X.Valid() && EvenFolds(folds, |X.rows|) && except < |folds|
    ensures RowsIn(X, TrainIndices(folds, except))
    ensures Xf == SelectRows(X, TrainIndices(folds, except))
  {
    var rows := TrainSelect(X.rows, folds, except);
    Xf := Matrix(X.nCols, rows);
  }

  method TrainLabel(Y: seq<nat>, folds: seq<seq<nat>>, except: nat) returns (Yf: seq<nat>)
    requires EvenFolds(folds, |Y|) && except < |folds|
    ensures AllBelow(TrainIndices(folds, except), |Y|)
    ensures Yf == Pick(Y, TrainIndices(folds, except))
  {
    Yf := TrainSelect(Y, folds, except);
  }

  method TestFeature(X: Matrix, folds: seq<seq<nat>>, inFold: nat) returns (Xf: Matrix)
    requires X.Valid() && EvenFolds(folds, |X.rows|) && inFold < |folds|
    ensures Xf == SelectRows(X, folds[inFold])
  {
    var rows := TestSelect(X.rows, folds, inFold);
    Xf := Matrix(X.nCols, rows);
  }

  method TestLabel(Y: seq<nat>, folds: seq<seq<nat>>, inFold: nat) returns (Yf: seq<nat>)
    requires EvenFolds(folds, |Y|) && inFold < |folds|
    ensures Yf == Pick(Y, folds[inFold])
  {
    Yf := TestSelect(Y, folds, inFold);
  }

  /* ------------------------------------------------------- calc_accuracy */

  /** Number of positions where the prediction equals the actual label. */
  function Matches(actual: seq<nat>, predicted: seq<nat>): (m: nat)
    requires |actual| <= |predicted|
    ensures m <= |actual|
  {
    if |actual| == 0 then 0
    else Matches(actual[..|actual| - 1], predicted) + if actual[|actual| - 1] == predicted[|actual| - 1] then 1 else 0
  }

  /** Every position matches exactly when the prediction is the actual labels. */
  lemma {:induction false} AllMatch(actual: seq<nat>, predicted: seq<nat>)
    requires |actual| == |predicted|
    ensures Matches(actual, predicted) == |actual| <==> actual == predicted
  {
    if |actual| > 0 {
      var n := |actual| - 1;
      AllMatch(actual[..n], predicted[..n]);
      MatchesPrefix(actual[..n], predicted);
      if Matches(actual, predicted) == |actual| {
        assert actual == actual[..n] + [actual[n]] && predicted == predicted[..n] + [predicted[n]];
      }
    }
  }

  /** Matching only looks at the first |actual| predictions. */
  lemma {:induction false} MatchesPrefix(actual: seq<nat>, predicted: seq<nat>)
    requires |actual| <= |predicted|
    ensures Matches(actual, predicted) == Matches(actual, predicted[..|actual|])
  {
    if |actual| > 0 {
      var n := |actual| - 1;
      MatchesPrefix(actual[..n], predicted);
      MatchesPrefix(actual[..n], predicted[..|actual|]);
      assert predicted[..|actual|][..n] == predicted[..n];
    }
  }

  function Accuracy(actual: seq<nat>, predicted: seq<nat>): real
    requires 0 < |actual| <= |predicted|
  {
    Matches(actual, predicted) as real / |actual| as real
  }

  lemma QuotientInUnit(m: real, n: real, q: real)
    requires 0.0 <= m <= n && n > 0.0 && q == m / n
    ensures 0.0 <= q <= 1.0
  {
  }

  /** An accuracy is a fraction in [0, 1], and it is 1 exactly for a perfect prediction. */
  lemma AccuracyInUnit(actual: seq<nat>, predicted: seq<nat>)
    requires 0 < |actual| == |predicted|
    ensures 0.0 <= Accuracy(actual, predicted) <= 1.0
    ensures Accuracy(actual, predicted) == 1.0 <==> actual == predicted
  {
    var m, n := Matches(actual, predicted) as real, |actual| as real;
    QuotientInUnit(m, n, m / n);
    AllMatch(actual, predicted);
    if m / n == 1.0 {
      assert m == n * (m / n);
    }
  }

  /** calc_accuracy: count the matching positions, then divide by the size. */
  method CalcAccuracy(actual: seq<nat>, predicted: seq<nat>) returns (r: Result<real, EvalError>)
    requires |actual| <= |predicted|
    ensures r.Err? <==> |actual| == 0
    ensures r.Ok? ==> r.value == Accuracy(actual, predicted)
  {
    var correct := 0;
    for i := 0 to |actual|
      invariant correct == Matches(actual[..i], predicted)
    {
      assert actual[..i + 1][..i] == actual[..i];
      if actual[i] == predicted[i] {
        correct := correct + 1;
      }
    }
    assert actual[..|actual|] == actual;
    if |actual| == 0 {
      return Err(EmptyFold);
    }
    r := Ok(correct as real / |actual| as real);
  }

  /* ------------------------------------- evaluate_classification_model */

  /** The classifier always predicts one label per test row. */
  ghost predicate PredictsEveryRow(classify: Classifier)
  {
    forall A, b, T :: |classify(A, b, T)| == |T.rows|
  }

  /** The accuracy of round i: train on the other folds, score on fold i. */
  function RoundAccuracy(classify: Classifier, X: Matrix, Y: seq<nat>, folds: seq<seq<nat>>, i: nat): real
    requires X.Valid() && |Y| == |X.rows| && EvenFolds(folds, |X.rows|) && i < |folds| && |folds[0]| > 0
    requires PredictsEveryRow(classify)
  {
    TrainIndicesBelow(folds, i, |X.rows|);
    var train := TrainIndices(folds, i);
    Accuracy(Pick(Y, folds[i]), classify(SelectRows(X, train), Pick(Y, train), SelectRows(X, folds[i])))
  }

  function Accuracies(classify: Classifier, X: Matrix, Y: seq<nat>, folds: seq<seq<nat>>): (a: seq<real>)
    requires X.Valid() && |Y| == |X.rows| && EvenFolds(folds, |X.rows|) && |folds[0]| > 0
    requires PredictsEveryRow(classify)
    ensures |a| == |folds| && forall i :: 0 <= i < |folds| ==> a[i] == RoundAccuracy(classify, X, Y, folds, i)
  {
    seq(|folds|, i requires 0 <= i < |folds| => RoundAccuracy(classify, X, Y, folds, i))
  }

  /** Reals in [0, 1] sum to at most their number. */
  lemma {:induction false} SumOfFractions(a: seq<real>)
    requires forall i :: 0 <= i < |a| ==> 0.0 <= a[i] <= 1.0
    ensures 0.0 <= SumReal(a) <= |a| as real
  {
    if |a| > 0 {
      SumOfFractions(a[..|a| - 1]);
    }
  }

  /** The mean of the round accuracies is itself in [0, 1]. */
  lemma MeanAccuracyInUnit(classify: Classifier, X: Matrix, Y: seq<nat>, folds: seq<seq<nat>>)
    requires X.Valid() && |Y| == |X.rows| && EvenFolds(folds, |X.rows|) && |folds[0]| > 0
    requires PredictsEveryRow(classify)
    ensures 0.0 <= MeanAccuracy(classify, X, Y, folds) <= 1.0
  {
    var a := Accuracies(classify, X, Y, folds);
    forall i | 0 <= i < |a| ensures 0.0 <= a[i] <= 1.0 {
      TrainIndicesBelow(folds, i, |X.rows|);
      var train := TrainIndices(folds, i);
      AccuracyInUnit(Pick(Y, folds[i]), classify(SelectRows(X, train), Pick(Y, train), SelectRows(X, folds[i])));
    }
    SumOfFractions(a);
    QuotientInUnit(SumReal(a), |a| as real, SumReal(a) / |a| as real);
  }

  /** One round of evaluate_classification_model: fit on the other folds,
      predict fold i, and score the prediction. */
  method RunRound(classify: Classifier, X: Matrix, Y: seq<nat>, folds: seq<seq<nat>>, i: nat) returns (acc: real)
    requires X.Valid() && |Y| == |X.rows| && EvenFolds(folds, |X.rows|) && i < |folds| && |folds[0]| > 0
    requires PredictsEveryRow(classify)
    ensures acc == RoundAccuracy(classify, X, Y, folds, i)
  {
    var trainX := TrainFeature(X, folds, i);
    var trainY := TrainLabel(Y, folds, i);
    var testX := TestFeature(X, folds, i);
    var predicted := classify(trainX, trainY, testX);
    var testY := TestLabel(Y, folds, i);
    var r := CalcAccuracy(testY, predicted);
    acc := r.value;
  }

  /** The loop of evaluate_classification_model: run every round and add up
      the accuracies. */
  method SumAccuracies(classify: Classifier, X: Matrix, Y: seq<nat>, folds: seq<seq<nat>>) returns (total: real)
    requires X.Valid() && |Y| == |X.rows| && EvenFolds(folds, |X.rows|) && |folds[0]| > 0
    requires PredictsEveryRow(classify)
    ensures total == SumReal(Accuracies(classify, X, Y, folds))
  {
    ghost var want := Accuracies(classify, X, Y, folds);
    total := 0.0;
    for i := 0 to |folds|
      invariant total == SumReal(want[..i])
    {
      var acc := RunRound(classify, X, Y, folds, i);
      SumRealStep(want, i);
      total := total + acc;
    }
    assert want[..|folds|] == want;
  }

  /** The mean accuracy over the folds of a permutation. */
  function MeanAccuracy(classify: Classifier, X: Matrix, Y: seq<nat>, folds: seq<seq<nat>>): real
    requires X.Valid() && |Y| == |X.rows| && EvenFolds(folds, |X.rows|) && |folds[0]| > 0
    requires PredictsEveryRow(classify)
  {
    SumReal(Accuracies(classify, X, Y, folds)) / |folds| as real
  }

  /** evaluate_classification_model: split into folds, run every round, and
      average the accuracies. */
  method Evaluate(classify: Classifier, X: Matrix, Y: seq<nat>, nFold: nat, draws: seq<nat>)
    returns (r: Result<real, EvalError>)
    requires X.Valid() && |Y| == |X.rows| && nFold > 0 && ValidDraws(draws, |X.rows|)
    requires PredictsEveryRow(classify)
    ensures r.Err? <==> |X.rows| < nFold
    ensures r.Ok? ==> 0.0 <= r.value <= 1.0
    ensures r.Ok? ==> exists perm :: (|perm| == |X.rows|
      && IsPermutation(perm, |X.rows|) && EvenFolds(Folds(perm, nFold), |X.rows|) && |perm| / nFold > 0
      && r.value == MeanAccuracy(classify, X, Y, Folds(perm, nFold)))
  {
    var folds, perm := SplitToFolds(|X.rows|, nFold, draws);
    FoldsEven(perm, nFold, |X.rows|);
    FewerRowsThanFolds(|X.rows|, nFold);
    if |X.rows| / nFold == 0 {
      return Err(EmptyFold);
    }
    var accuracy := SumAccuracies(classify, X, Y, folds);
    MeanAccuracyInUnit(classify, X, Y, folds);
    r := Ok(accuracy / nFold as real);
    assert r.value == MeanAccuracy(classify, X, Y, folds);
  }
}

=== FILE: naive_bayes.dfy ===
/** Gaussian naive Bayes (headers/naive_bayes.h): fit groups the training
    rows by label, sets each class prior to the share of rows carrying that
    label, and fits a mean and a scatter matrix per class; predict answers,
    for each row, the first class that maximises prior times density. The
    density is a parameter. */
module NaiveBayesModel {
  import opened Results
  import opened Algorithms
  import opened Common

  /** Where fit would go on with NaN: a label below max(Y) that no row
      carries (its mean is 0 / 0), or a class of one row with one feature
      (its sigma divides by 1 * 1 - 1 = 0). */
  datatype NbError = EmptyClass | ZeroDivisor

  /** The divisor fit uses for a class's sigma: splits[i].size() - 1, where
      size() counts the entries of the class matrix, rows times columns, not
      its rows. */
  function SigmaDivisor(S: Matrix): (d: int)
    ensures S.nCols == 1 ==> d == |S.rows| - 1
    ensures S.nCols == 0 ==> d == -1
  {
    |S.rows| * S.nCols - 1
  }

  /** A class whose mean and sigma fit can compute without dividing by zero. */
  ghost predicate Estimable(S: Matrix)
  {
    |S.rows| > 0 && SigmaDivisor(S) != 0
  }

  /** m and s are the mean and sigma fit computes for the class rows S. */
  ghost predicate ClassFit(S: Matrix, m: Point, s: Matrix)
    requires S.Valid()
  {
    Estimable(S) && m == ColMean(S) && s == Scatter(S, Ones(|S.rows|), m, SigmaDivisor(S) as real)
  }

  /** The rows of class c, in their order in X: splits[c] of split_by_class. */
  function ClassRows(X: Matrix, Y: seq<nat>, n: nat, c: nat): (S: Matrix)
    requires X.Valid() && |Y| == |X.rows| && AllBelow(Y, n) && c < n
    ensures S.Valid() && S.nCols == X.nCols && |S.rows| == |Groups(Y, n)[c]|
  {
    GroupsBelow(Y, n);
    SelectRows(X, Groups(Y, n)[c])
  }

  /** Each class's share of the N rows. */
  function Priors(groups: seq<seq<nat>>, N: nat): (p: seq<real>)
    requires N > 0
    ensures |p| == |groups|
  {
    VecDiv(AsReals(Sizes(groups)), N as real)
  }

  /** The prior of class c is the number of rows labelled c over N. */
  lemma PriorIsLabelShare(Y: seq<nat>, n: nat, c: nat)
    requires |Y| > 0 && AllBelow(Y, n) && c < n
    ensures Priors(Groups(Y, n), |Y|)[c] == multiset(Y)[c] as real / |Y| as real
  {
    GroupSizesAreCounts(Y, n);
  }

  /** The priors add up to one. */
  lemma PriorsSumToOne(Y: seq<nat>, n: nat)
    requires |Y| > 0 && AllBelow(Y, n)
    ensures SumReal(Priors(Groups(Y, n), |Y|)) == 1.0
  {
    GroupsTotalSize(Y, n);
    SharesSumToOne(Sizes(Groups(Y, n)));
  }

  /** A quotient by d1 is the quotient by d2 rescaled by d2 / d1. */
  lemma Rescale(e: real, d1: real, d2: real)
    requires d1 != 0.0 && d2 != 0.0
    ensures e / d1 == (e / d2) * (d2 / d1)
  {
  }

  /** Entry (a, b) of a class sigma is that of the sample covariance of the
      class rows scaled by (rows - 1) / (rows * cols - 1): the two agree only
      for a single feature. */
  lemma SigmaScalesCovariance(S: Matrix, a: nat, b: nat)
    requires S.Valid() && |S.rows| >= 2 && SigmaDivisor(S) != 0 && a < S.nCols && b < S.nCols
    ensures Scatter(S, Ones(|S.rows|), ColMean(S), SigmaDivisor(S) as real).rows[a][b]
      == Covariance(S).rows[a][b] * ((|S.rows| - 1) as real / SigmaDivisor(S) as real)
  {
    Rescale(ScatterEntry(S, Ones(|S.rows|), ColMean(S), a, b), SigmaDivisor(S) as real, (|S.rows| - 1) as real);
  }

  class NaiveBayes {
    var nClass: nat
    var mu: seq<Point>
    var sigma: seq<Matrix>
    var prior: seq<real>

    /** One mean, one sigma and one prior per class. */
    ghost predicate Valid()
      reads this
    {
      |mu| == nClass && |sigma| == nClass && |prior| == nClass
    }

    /** A model with no classes yet. */
    constructor()
      ensures nClass == 0 && mu == [] && sigma == [] && prior == [] && Valid()
    {
      nClass := 0;
      mu := [];
      sigma := [];
      prior := [];
    }

    /** The inner loop of split_by_class: row j of the result is row idx[j] of X. */
    static method CopyRows(X: Matrix, idx: seq<nat>) returns (S: Matrix)
      requires X.Valid() && RowsIn(X, idx)
      ensures S == SelectRows(X, idx)
    {
      var rows: seq<Point> := [];
      for j := 0 to |idx|
        invariant |rows| == j && forall k :: 0 <= k < j ==> rows[k] == X.rows[idx[k]]
      {
        rows := rows + [X.rows[idx[j]]];
      }
      S := Matrix(X.nCols, rows);
    }

    /** split_by_class: the index of every row is appended to the list of its
        label, then each list becomes the matrix of its rows. */
    method SplitByClass(X: Matrix, Y: seq<nat>) returns (splits: seq<Matrix>)
      requires X.Valid() && |Y| == |X.rows| && AllBelow(Y, nClass)
      ensures |splits| == nClass
      ensures forall c :: 0 <= c < nClass ==> splits[c] == ClassRows(X, Y, nClass, c)
    {
      var indices: seq<seq<nat>> := seq(nClass, _ => []);
      for i := 0 to |Y|
        invariant indices == Groups(Y[..i], nClass)
      {
        GroupsStep(Y, nClass, i);
        var grown: seq<nat> := indices[Y[i]] + [i];
        indices := indices[Y[i] := grown];
      }
      assert Y[..|Y|] == Y;
      GroupsBelow(Y, nClass);
      splits := [];
      for i := 0 to |indices|
        invariant |splits| == i
        invariant forall c :: 0 <= c < i ==> splits[c] == ClassRows(X, Y, nClass, c)
      {
        var split := CopyRows(X, indices[i]);
        splits := splits + [split];
      }
    }

    /** fit: the class count is max(Y) + 1; the priors are the class shares;
        then class by class the mean of its rows and their scatter about it
        divided by SigmaDivisor. A class that cannot be estimated stops fit
        with the priors already set. */
    method Fit(X: Matrix, Y: seq<nat>) returns (r: Result<(), NbError>)
      requires X.Valid() && |Y| == |X.rows| && |Y| > 0
      modifies this
      ensures Valid() && nClass == MaxNat(Y) + 1 && AllBelow(Y, nClass)
      ensures prior == Priors(Groups(Y, nClass), |Y|)
      ensures r.Ok? <==> forall c :: 0 <= c < nClass ==> Estimable(ClassRows(X, Y, nClass, c))
      ensures r.Ok? ==> forall c :: 0 <= c < nClass ==> ClassFit(ClassRows(X, Y, nClass, c), mu[c], sigma[c])
    {
      var n := MaxNat(Y) + 1;
      assert AllBelow(Y, n);
      nClass := n;
      mu := seq(n, _ => []);
      sigma := seq(n, _ => Matrix(0, []));
      prior := seq(n, _ => 0.0);
      var splits := SplitByClass(X, Y);

      for i := 0 to n
        invariant nClass == n && |prior| == n && |mu| == n && |sigma| == n
        invariant forall c :: 0 <= c < i ==> prior[c] == |splits[c].rows| as real / |X.rows| as real
      {
        prior := prior[i := |splits[i].rows| as real / |X.rows| as real];
      }
      assert prior == Priors(Groups(Y, n), |Y|);

      for i := 0 to n
        invariant nClass == n && Valid() && prior == Priors(Groups(Y, n), |Y|)
        invariant forall c :: 0 <= c < i ==> ClassFit(splits[c], mu[c], sigma[c])
      {
        if |splits[i].rows| == 0 {
          return Err(EmptyClass);
        }
        mu := mu[i := ColMean(splits[i])];
        var d := SigmaDivisor(splits[i]);
        if d == 0 {
          return Err(ZeroDivisor);
        }
        sigma := sigma[i := Scatter(splits[i], Ones(|splits[i].rows|), mu[i], d as real)];
      }
      return Ok(());
    }

    /** The inner loop of predict: density times prior for every class. */
    method Scores(x: Point, pdf: Density) returns (prob: seq<real>)
      requires Valid()
      ensures prob == Weighted(x, prior, mu, sigma, pdf)
    {
      prob := [];
      for j := 0 to nClass
        invariant prob == Weighted(x, prior, mu, sigma, pdf)[..j]
      {
        var p := pdf(x, mu[j], sigma[j]);
        p := p * prior[j];
        assert p == Weighted(x, prior, mu, sigma, pdf)[j];
        prob := prob + [p];
      }
    }

    /** predict: the first class with the largest prior times density. With
        no class fitted, std::max_element over the empty list is its end and
        every answer is 0. */
    method Predict(X: Matrix, pdf: Density) returns (predicted: seq<nat>)
      requires Valid()
      ensures |predicted| == |X.rows|
      ensures nClass == 0 ==> forall i :: 0 <= i < |X.rows| ==> predicted[i] == 0
      ensures nClass > 0 ==> forall i :: 0 <= i < |X.rows| ==>
        predicted[i] < nClass && IsFirstMax(Weighted(X.rows[i], prior, mu, sigma, pdf), predicted[i])
    {
      predicted := [];
      for i := 0 to |X.rows|
        invariant |predicted| == i
        invariant nClass == 0 ==> forall j :: 0 <= j < i ==> predicted[j] == 0
        invariant nClass > 0 ==> forall j :: 0 <= j < i ==>
          predicted[j] < nClass && IsFirstMax(Weighted(X.rows[j], prior, mu, sigma, pdf), predicted[j])
      {
        var prob := Scores(X.rows[i], pdf);
        var c := if nClass == 0 then 0 else ArgMax(prob);
        predicted := predicted + [c];
      }
    }
  }
}

=== FILE: results.dfy ===
/** Outcome of an operation that the original program ends with `exit(1)`
    or leaves numerically undefined: either a value or a typed error. */
module Results {
  datatype Result<T, E> = Ok(value: T) | Err(error: E)

  /** A value that may be absent (a null Node* in the source). */
  datatype Option<T> = None | Some(value: T)
}

=== FILE: sized_csv.dfy ===
/** The read_csv of src/file_manage.h: the caller gives the row and column
    counts; the matrices are sized from them, then every comma field of every
    line moves one (row, col) cursor that is never reset at a line's end.
    A field at col = n_col - 1 is a label, interned into a table of the
    distinct label texts; any other field is a feature stored at (row, col).
    After each line the row count is checked against n_row. */
module SizedCsv {
  import opened Results
  import opened Algorithms
  import opened FileManage

  /** The two ways read_csv exits: a field at a column at or past n_col, or a
      row count past n_row after a line. */
  datatype SizeError = InvalidColumnSize | InvalidRowSize

  /** The result: the sizes the matrices were resized to, the feature cells
      and the label entries written. A cell absent from a map was never
      written. */
  datatype Sized = Sized(rows: nat, cols: int, features: map<(nat, nat), real>, labels: map<nat, nat>)

  /** The loop state: the cursor and the table of distinct label texts, next
      to the cells written so far. */
  datatype Reader = Reader(row: nat, col: nat, strLabels: seq<string>,
                           features: map<(nat, nat), real>, labels: map<nat, nat>)

  /* ------------------------------------------------------------- the cursor */

  /** The cursor after t fields: each field moves it one column right, and the
      field at column n - 1 moves it to column 0 of the next row. */
  function Cursor(t: nat, n: nat): (rc: (nat, nat))
    ensures n >= 1 ==> rc.1 < n
  {
    if t == 0 then (0, 0)
    else
      var rc := Cursor(t - 1, n);
      if rc.1 + 1 == n then (rc.0 + 1, 0) else (rc.0, rc.1 + 1)
  }

  /** Row-major order on cells. */
  predicate Before(a: (nat, nat), b: (nat, nat))
  {
    a.0 < b.0 || (a.0 == b.0 && a.1 < b.1)
  }

  /** The cursor only moves forward, so no cell is visited twice. */
  lemma {:induction false} CursorBefore(t: nat, u: nat, n: nat)
    requires t < u
    ensures Before(Cursor(t, n), Cursor(u, n))
  {
    if t < u - 1 {
      CursorBefore(t, u - 1, n);
    }
  }

  lemma {:induction false} MulMono(a: nat, b: nat, n: nat)
    requires a <= b
    ensures a * n <= b * n
  {
    if a < b {
      MulMono(a, b - 1, n);
      assert b * n == (b - 1) * n + n;
    }
  }

  lemma MulSucc(a: nat, n: nat)
    ensures (a + 1) * n == a * n + n
  {
  }

  /** q and m are the Euclidean quotient and remainder of a by n. */
  lemma DivModUnique(a: nat, n: nat, q: nat, m: nat)
    requires n >= 1 && m < n && a == q * n + m
    ensures a / n == q && a % n == m
  {
    var q', m' := a / n, a % n;
    assert a == q' * n + m';
    if q' < q {
      MulMono(q' + 1, q, n);
    } else if q < q' {
      MulMono(q + 1, q', n);
    }
  }

  /** The cursor counts the fields in rows of n. */
  lemma {:induction false} CursorValue(t: nat, n: nat)
    requires n >= 1
    ensures t == Cursor(t, n).0 * n + Cursor(t, n).1
  {
    if t > 0 {
      CursorValue(t - 1, n);
      var rc := Cursor(t - 1, n);
      if rc.1 + 1 == n {
        MulSucc(rc.0, n);
      }
    }
  }

  /** Field t goes to row t div n, column t mod n. */
  lemma CursorIsDivMod(t: nat, n: nat)
    requires n >= 1
    ensures Cursor(t, n) == (t / n, t % n)
  {
    CursorValue(t, n);
    DivModUnique(t, n, Cursor(t, n).0, Cursor(t, n).1);
  }

  /** The row check fails exactly when the fields fill more than n_row whole
      rows; n_row full rows and a partial one are accepted. */
  lemma RowCheckBound(total: nat, n: nat, nRow: nat)
    requires n >= 1
    ensures Cursor(total, n).0 > nRow <==> total >= (nRow + 1) * n
  {
    CursorValue(total, n);
    var q := Cursor(total, n).0;
    if q > nRow {
      MulMono(nRow + 1, q, n);
    } else {
      MulMono(q, nRow, n);
      MulSucc(nRow, n);
    }
  }

  /* --------------------------------------------------------------- fields */

  /** The comma fields of all lines, in order: what the inner getline loop
      yields line after line. */
  function AllFields(lines: seq<string>): seq<string>
  {
    if |lines| == 0 then [] else AllFields(lines[..|lines| - 1]) + Fields(lines[|lines| - 1])
  }

  /** The fields of a prefix of the lines are a prefix of all fields. */
  lemma {:induction false} AllFieldsPrefix(lines: seq<string>, i: nat)
    requires i <= |lines|
    ensures |AllFields(lines[..i])| <= |AllFields(lines)|
  {
    if i < |lines| {
      var p := lines[..|lines| - 1];
      assert p[..i] == lines[..i];
      AllFieldsPrefix(p, i);
    } else {
      assert lines[..i] == lines;
    }
  }

  /** Once the cursor is past row nRow it stays there. */
  lemma RowErrorPersists(lines: seq<string>, i: nat, n: nat, nRow: nat)
    requires i <= |lines| && Cursor(|AllFields(lines[..i])|, n).0 > nRow
    ensures Cursor(|AllFields(lines)|, n).0 > nRow
  {
    AllFieldsPrefix(lines, i);
    if |AllFields(lines[..i])| < |AllFields(lines)| {
      CursorBefore(|AllFields(lines[..i])|, |AllFields(lines)|, n);
    }
  }

  /** The texts of the fields that reach column n - 1, in order: one per
      completed row. */
  function LabelFields(s: seq<string>, n: nat): (L: seq<string>)
    ensures |L| == Cursor(|s|, n).0
  {
    if |s| == 0 then []
    else
      var p := s[..|s| - 1];
      LabelFields(p, n) + (if Cursor(|p|, n).1 + 1 == n then [s[|s| - 1]] else [])
  }

  /** A field at column n - 1 ends its row before any later cursor. */
  lemma RowEndsBefore(t: nat, u: nat, n: nat)
    requires t < u && Cursor(t, n).1 + 1 == n
    ensures Cursor(t, n).0 < Cursor(u, n).0
  {
    if t + 1 < u {
      CursorBefore(t + 1, u, n);
    }
  }

  /** The label text of row r is the field whose cursor was (r, n - 1). */
  lemma {:induction false} LabelFieldAt(s: seq<string>, n: nat, t: nat)
    requires t < |s| && Cursor(t, n).1 + 1 == n
    ensures Cursor(t, n).0 < |LabelFields(s, n)|
    ensures LabelFields(s, n)[Cursor(t, n).0] == s[t]
  {
    RowEndsBefore(t, |s|, n);
    var p := s[..|s| - 1];
    if t < |p| {
      LabelFieldAt(p, n, t);
      assert p[t] == s[t];
    }
  }

  /* --------------------------------------------------------- the contents */

  /** The feature cells the fields s visit: those at columns below n - 1
      before the cursor. */
  ghost predicate FeatureKeys(s: seq<string>, n: nat, features: map<(nat, nat), real>)
  {
    forall k: (nat, nat) :: k in features <==> k.1 < n - 1 && Before(k, Cursor(|s|, n))
  }

  /** Each feature field's value sits in the cell its cursor names. */
  ghost predicate FeatureValues(s: seq<string>, n: nat, stof: string -> real, features: map<(nat, nat), real>)
  {
    forall t {:trigger s[t]} :: 0 <= t < |s| && Cursor(t, n).1 + 1 < n ==>
      Cursor(t, n) in features && features[Cursor(t, n)] == stof(s[t])
  }

  /** One label per completed row, the position of its text among the
      distinct label texts in order of first appearance. */
  ghost predicate LabelEntries(L: seq<string>, labels: map<nat, nat>)
  {
    (forall r: nat :: r in labels <==> r < |L|)
    && (forall r: nat :: r in labels ==> labels[r] == IndexOf(Dedup(L), L[r]))
  }

  /** What the fields s leave in the feature cells and label entries. */
  ghost predicate Consumed(s: seq<string>, n: nat, stof: string -> real,
                           features: map<(nat, nat), real>, labels: map<nat, nat>)
  {
    FeatureKeys(s, n, features) && FeatureValues(s, n, stof, features) && LabelEntries(LabelFields(s, n), labels)
  }

  /** The reader state after the fields s. */
  ghost predicate Tracks(s: seq<string>, n: nat, stof: string -> real, st: Reader)
  {
    (st.row, st.col) == Cursor(|s|, n)
    && st.strLabels == Dedup(LabelFields(s, n))
    && Consumed(s, n, stof, st.features, st.labels)
  }

  lemma FeatureKeysStep(s: seq<string>, s': seq<string>, n: nat, features: map<(nat, nat), real>,
                        features': map<(nat, nat), real>, v: real)
    requires n >= 1 && |s'| == |s| + 1 && Cursor(|s|, n).1 + 1 != n
    requires FeatureKeys(s, n, features) && features' == features[Cursor(|s|, n) := v]
    ensures FeatureKeys(s', n, features')
  {
  }

  lemma FeatureValuesStep(s: seq<string>, s': seq<string>, str: string, n: nat, stof: string -> real,
                          features: map<(nat, nat), real>, features': map<(nat, nat), real>)
    requires s' == s + [str]
    requires FeatureValues(s, n, stof, features) && features' == features[Cursor(|s|, n) := stof(str)]
    ensures FeatureValues(s', n, stof, features')
  {
    forall t | 0 <= t < |s'| && Cursor(t, n).1 + 1 < n
      ensures Cursor(t, n) in features' && features'[Cursor(t, n)] == stof(s'[t])
    {
      if t < |s| {
        CursorBefore(t, |s|, n);
        assert s'[t] == s[t];
      }
    }
  }

  /** A feature field writes its cell and moves one column right. */
  lemma FeatureStep(s: seq<string>, s': seq<string>, str: string, n: nat, stof: string -> real,
                    features: map<(nat, nat), real>, features': map<(nat, nat), real>, labels: map<nat, nat>)
    requires n >= 1 && s' == s + [str] && Cursor(|s|, n).1 + 1 != n
    requires Consumed(s, n, stof, features, labels)
    requires features' == features[Cursor(|s|, n) := stof(str)]
    ensures Consumed(s', n, stof, features', labels)
  {
    assert s'[..|s|] == s;
    assert LabelFields(s', n) == LabelFields(s, n);
    FeatureKeysStep(s, s', n, features, features', stof(str));
    FeatureValuesStep(s, s', str, n, stof, features, features');
  }

  lemma FeatureKeysRowEnd(s: seq<string>, s': seq<string>, n: nat, features: map<(nat, nat), real>)
    requires n >= 1 && |s'| == |s| + 1 && Cursor(|s|, n).1 + 1 == n
    requires FeatureKeys(s, n, features)
    ensures FeatureKeys(s', n, features)
  {
  }

  lemma FeatureValuesRowEnd(s: seq<string>, s': seq<string>, str: string, n: nat, stof: string -> real,
                            features: map<(nat, nat), real>)
    requires s' == s + [str] && Cursor(|s|, n).1 + 1 == n
    requires FeatureValues(s, n, stof, features)
    ensures FeatureValues(s', n, stof, features)
  {
    forall t | 0 <= t < |s'| && Cursor(t, n).1 + 1 < n
      ensures Cursor(t, n) in features && features[Cursor(t, n)] == stof(s'[t])
    {
      assert s'[t] == s[t];
    }
  }

  lemma LabelEntriesStep(L: seq<string>, str: string, labels: map<nat, nat>, labels': map<nat, nat>,
                         table: seq<string>, id: nat)
    requires LabelEntries(L, labels)
    requires table == Dedup(L + [str]) && str in table && id == IndexOf(table, str)
    requires forall x :: x in Dedup(L) ==> x in table && IndexOf(table, x) == IndexOf(Dedup(L), x)
    requires labels' == labels[|L| := id]
    ensures LabelEntries(L + [str], labels')
  {
    KeysExtend(labels, labels', |L|, id);
    forall r: nat | r in labels'
      ensures labels'[r] == IndexOf(table, (L + [str])[r])
    {
      if r < |L| {
        assert (L + [str])[r] == L[r];
        assert L[r] in Dedup(L);
      }
    }
  }

  /** A label field writes the entry of its row and moves to the next row. */
  lemma LabelStep(s: seq<string>, s': seq<string>, str: string, n: nat, stof: string -> real,
                  features: map<(nat, nat), real>, labels: map<nat, nat>, labels': map<nat, nat>,
                  table: seq<string>, id: nat)
    requires n >= 1 && s' == s + [str] && Cursor(|s|, n).1 + 1 == n
    requires Consumed(s, n, stof, features, labels)
    requires table == Dedup(LabelFields(s', n)) && str in table && id == IndexOf(table, str)
    requires forall x :: x in Dedup(LabelFields(s, n)) ==> x in table && IndexOf(table, x) == IndexOf(Dedup(LabelFields(s, n)), x)
    requires labels' == labels[Cursor(|s|, n).0 := id]
    ensures Consumed(s', n, stof, features, labels')
  {
    assert s'[..|s|] == s;
    assert LabelFields(s', n) == LabelFields(s, n) + [str];
    FeatureKeysRowEnd(s, s', n, features);
    FeatureValuesRowEnd(s, s', str, n, stof, features);
    LabelEntriesStep(LabelFields(s, n), str, labels, labels', table, id);
  }

  /* -------------------------------------------------------------- read_csv */

  /** The reader state after a label field. */
  lemma LabelTracks(s: seq<string>, s': seq<string>, str: string, n: nat, stof: string -> real,
                    st: Reader, st': Reader, id: nat)
    requires n >= 1 && Tracks(s, n, stof, st) && s' == s + [str] && st.col + 1 == n
    requires st'.strLabels == Dedup(LabelFields(s, n) + [str]) && str in st'.strLabels
    requires id == IndexOf(st'.strLabels, str)
    requires forall x :: x in st.strLabels ==> x in st'.strLabels && IndexOf(st'.strLabels, x) == IndexOf(st.strLabels, x)
    requires st' == Reader(st.row + 1, 0, st'.strLabels, st.features, st.labels[st.row := id])
    ensures Tracks(s', n, stof, st')
  {
    assert s'[..|s|] == s;
    assert LabelFields(s', n) == LabelFields(s, n) + [str];
    LabelStep(s, s', str, n, stof, st.features, st.labels, st'.labels, st'.strLabels, id);
  }

  /** The reader state after a feature field. */
  lemma FeatureTracks(s: seq<string>, s': seq<string>, str: string, n: nat, stof: string -> real,
                      st: Reader, st': Reader)
    requires n >= 1 && Tracks(s, n, stof, st) && s' == s + [str] && st.col + 1 != n
    requires st' == st.(col := st.col + 1, features := st.features[(st.row, st.col) := stof(str)])
    ensures Tracks(s', n, stof, st')
  {
    assert s'[..|s|] == s;
    assert LabelFields(s', n) == LabelFields(s, n);
    FeatureStep(s, s', str, n, stof, st.features, st'.features, st.labels);
  }

  lemma AppendOne<T>(s: seq<T>, fs: seq<T>, j: nat)
    requires j < |fs|
    ensures s + fs[..j + 1] == (s + fs[..j]) + [fs[j]]
  {
    assert fs[..j + 1] == fs[..j] + [fs[j]];
  }

  /** One field of the inner loop: at column n - 1 the text is found in or
      pushed onto the label table and its id stored for the row, which ends;
      otherwise its value is stored at the cursor, which moves right. */
  method ReadField(str: string, n: nat, stof: string -> real, st: Reader, ghost s: seq<string>, ghost s': seq<string>)
    returns (st': Reader)
    requires n >= 1 && Tracks(s, n, stof, st) && s' == s + [str]
    ensures Tracks(s', n, stof, st')
  {
    if st.col + 1 == n {
      var id, table := Intern(LabelFields(s, n), st.strLabels, str);
      st' := Reader(st.row + 1, 0, table, st.features, st.labels[st.row := id]);
      LabelTracks(s, s', str, n, stof, st, st', id);
    } else {
      st' := st.(col := st.col + 1, features := st.features[(st.row, st.col) := stof(str)]);
      FeatureTracks(s, s', str, n, stof, st, st');
    }
  }

  /** The inner `getline(ss, str, ',')` loop over the fields of one line. A
      field met with the column at or past n_col ends read_csv; with the
      cursor kept below n_col that happens only when n_col is 0. */
  method ReadLine(fs: seq<string>, n: nat, stof: string -> real, st: Reader, ghost s: seq<string>, ghost s': seq<string>)
    returns (r: Result<Reader, SizeError>)
    requires Tracks(s, n, stof, st) && s' == s + fs
    ensures r.Err? <==> n == 0 && |fs| > 0
    ensures r.Err? ==> r.error == InvalidColumnSize
    ensures r.Ok? ==> Tracks(s', n, stof, r.value)
  {
    var cur := st;
    ghost var done := s;
    for j := 0 to |fs|
      invariant done == s + fs[..j] && Tracks(done, n, stof, cur)
      invariant n == 0 ==> j == 0
    {
      if cur.col >= n {
        return Err(InvalidColumnSize);
      }
      ghost var next := s + fs[..j + 1];
      AppendOne(s, fs, j);
      cur := ReadField(fs[j], n, stof, cur, done, next);
      done := next;
    }
    assert done == s';
    return Ok(cur);
  }

  /** read_csv over the lines of the file, with the caller's n_row and n_col:
      the matrices take n_row rows and n_col - 1 feature columns; the
      fields fill them through the cursor; a column error comes from the
      first field when n_col is 0, and a row error exactly when the cursor
      ends past row n_row. */
  method ReadCsv(lines: seq<string>, nRow: nat, nCol: nat, stof: string -> real) returns (r: Result<Sized, SizeError>)
    ensures nCol == 0 ==> (r.Err? <==> |AllFields(lines)| > 0)
    ensures nCol >= 1 ==> (r.Err? <==> Cursor(|AllFields(lines)|, nCol).0 > nRow)
    ensures r.Err? ==> r.error == if nCol == 0 then InvalidColumnSize else InvalidRowSize
    ensures r.Ok? ==> r.value.rows == nRow && r.value.cols == nCol - 1
    ensures r.Ok? ==> Consumed(AllFields(lines), nCol, stof, r.value.features, r.value.labels)
  {
    var st := Reader(0, 0, [], map[], map[]);
    for i := 0 to |lines|
      invariant Tracks(AllFields(lines[..i]), nCol, stof, st)
      invariant nCol == 0 ==> |AllFields(lines[..i])| == 0
      invariant st.row <= nRow
    {
      ghost var s := AllFields(lines[..i]);
      ghost var s' := AllFields(lines[..i + 1]);
      assert lines[..i + 1][..i] == lines[..i];
      assert s' == s + Fields(lines[i]);
      var res := ReadLine(Fields(lines[i]), nCol, stof, st, s, s');
      if res.Err? {
        AllFieldsPrefix(lines, i + 1);
        return Err(res.error);
      }
      st := res.value;
      if st.row > nRow {
        RowErrorPersists(lines, i + 1, nCol, nRow);
        return Err(InvalidRowSize);
      }
    }
    assert lines[..|lines|] == lines;
    return Ok(Sized(nRow, nCol - 1, st.features, st.labels));
  }

  /* ------------------------------------------------------------ properties */

  /** Field t is the feature at (t div n, t mod n) unless t mod n = n - 1,
      where it is the label text of row t div n. */
  lemma FieldPlacement(s: seq<string>, n: nat, stof: string -> real,
                       features: map<(nat, nat), real>, labels: map<nat, nat>, t: nat)
    requires n >= 1 && Consumed(s, n, stof, features, labels) && t < |s|
    ensures t % n < n - 1 ==> (t / n, t % n) in features && features[(t / n, t % n)] == stof(s[t])
    ensures t % n == n - 1 ==> t / n in labels && LabelFields(s, n)[t / n] == s[t]
  {
    var c := Cursor(t, n);
    CursorIsDivMod(t, n);
    if c.1 + 1 == n {
      LabelFieldAt(s, n, t);
    } else {
      var x := s[t];
      assert c in features && features[c] == stof(x);
    }
  }

  /** Every feature cell written holds a field: none is left over from an
      earlier value. */
  lemma {:induction false} CellsComeFromFields(s: seq<string>, n: nat, k: (nat, nat))
    requires k.1 < n - 1 && Before(k, Cursor(|s|, n))
    ensures exists t :: 0 <= t < |s| && Cursor(t, n) == k
  {
    var p := s[..|s| - 1];
    if Cursor(|p|, n) == k {
    } else {
      assert Before(k, Cursor(|p|, n));
      CellsComeFromFields(p, n, k);
      var t :| 0 <= t < |p| && Cursor(t, n) == k;
    }
  }

  /** The label ids of the rows: below the number of distinct label texts,
      equal exactly for equal texts, and the next unused id for a text not
      seen on an earlier row. */
  lemma LabelsAreFirstAppearance(s: seq<string>, n: nat, stof: string -> real,
                                 features: map<(nat, nat), real>, labels: map<nat, nat>, r1: nat, r2: nat)
    requires Consumed(s, n, stof, features, labels) && r1 in labels && r2 in labels
    ensures labels[r1] < |Dedup(LabelFields(s, n))|
    ensures labels[r1] == labels[r2] <==> LabelFields(s, n)[r1] == LabelFields(s, n)[r2]
    ensures LabelFields(s, n)[r1] !in LabelFields(s, n)[..r1] ==> labels[r1] == |Dedup(LabelFields(s, n)[..r1])|
  {
    LabelIds(LabelFields(s, n), r1, r2);
  }

  /** After an accepted read, every label entry lies inside the n_row labels,
      and a feature cell lies outside the n_row rows exactly when the fields
      end with a partial record in row n_row. */
  lemma WritesInRange(s: seq<string>, n: nat, nRow: nat, stof: string -> real,
                      features: map<(nat, nat), real>, labels: map<nat, nat>)
    requires n >= 1 && Consumed(s, n, stof, features, labels) && Cursor(|s|, n).0 <= nRow
    ensures forall r: nat :: r in labels ==> r < nRow
    ensures (exists k :: k in features && k.0 >= nRow) <==> Cursor(|s|, n).0 == nRow && Cursor(|s|, n).1 > 0
  {
    var rc := Cursor(|s|, n);
    if rc.0 == nRow && rc.1 > 0 {
      assert (nRow, 0) in features;
    }
  }
}
